=== FILE: README.md ===
# A verified model of `calculator.py`

`calculator.py` is a small symbolic-algebra engine. `parse` turns a formula
without spaces (`2+3*4`, `x^2`, `ln(x)`, `log_(2)(x)`) into an expression tree
of Constant, Variable, Log, Sum, Product and Power nodes, with an Error node
for text it cannot read. Every node can `simplify` itself under a binding of
variables to numbers, take its `derivative` with respect to a variable, and
render itself with `__str__`. Sum and Product also define `__eq__`.

This project restates that core in Dafny and proves properties of it:

- `pytext.dfy` (module `PyText`): the Python string operations the parser
  relies on: negative indexing, clamped slicing, `find` and `rfind`.
- `numbers.dfy` (`Numbers`): Python numbers as `Int(i)` or `Float(r)`, with
  the int/float rules of `+`, `*`, `sum`, `math.prod` and `**`, and the
  integer and float literals that `int()` and `float()` accept.
- `expr.dfy` (`Expressions`): the expression tree and its `variables` set.
- `parser.dfy` (`Parser`): `parse` with its three right-to-left scans
  (`ScanLoop` is the scan as a `while` loop, proved equal to the recursive
  `Scan` used by `Parse`); `parse_props.dfy` (`ParserProperties`) proves what
  it returns.
- `simplify.dfy` (`Simplifier`): `simplify` for every node, with Sum's
  flattening and constant folding and Product's flattening, folding and
  grouping of factors by base. `simplify_normal.dfy`, `simplify_vars.dfy` and
  `simplify_examples.dfy` prove the shape of the result, its variables and
  concrete results.
- `derivative.dfy` (`Derivatives`): `derivative` for every node;
  `derivative_zero.dfy` and `derivative_examples.dfy` prove that a constant's
  derivative simplifies to 0 or raises (d/dx `ln(0)` does: its reciprocal
  `0^-1` raises ZeroDivisionError), and compute the derivatives of `ln(x)` and
  `x^2`.
- `render.dfy` (`Rendering`): `__str__` as a function and as the
  string-accumulating loops of the source; `render_parse.dfy` relates it to
  `parse`.
- `equality.dfy` (`Equality`): `==` as each class defines it.

The Python code mutates nodes in place while simplifying. The model treats
the tree as a Dafny datatype and every operation as a function on values;
the places where an in-place update changes what the source computes are
listed under "Left out". Python exceptions (an IndexError in
`parse`, a missing `simplify` on Error, a math domain error, the recursion
limit) become the Error node, or `Crashed` for `==`.

Some results of the code are not what a reader of the formulas would
expect. The model follows the code, and proves each of these:

- Rendering a simplified tree and parsing the text does not always give the
  tree back. `x-5` simplifies to `x + (-5)`, which renders as `(x+-5)`. The
  `-` then splits the text, leaving `x+` with no right operand, so the round
  trip gives Error (`RenderParse.SimplifiedDifferenceDoesNotRoundTrip`).
- An unbalanced `(` is not rejected: `parse("(")` gives the variable named
  `(` (`ParserProperties.LoneOpenParenthesis`).
- In `log_(B)(A)` the argument text starts one character early, at A's `(`.
  So `log_(2)(x)` parses with the argument `Variable("(x")`
  (`ParserProperties.LogBaseQuirk`).
- The derivative of `x^2` is `Product([x, 2])`, with the constant last,
  because of the order in which Product.simplify pops its factors.
- Simplifying is not idempotent. The pop loop reverses the order of the
  factors of a Product, so `x*y` simplifies to `y*x`, and simplifying that
  again gives `x*y` (`SimplifierExamples.SimplifyNotIdempotent`).
- `==` on Sums and Products only asks whether each child of the right-hand
  side is among the children of the left-hand side, so it is not symmetric:
  `x+x+y == x+y+z` is false and `x+y+z == x+x+y` is true
  (`Equality.EqualityNotSymmetric`).

## Model

| member | source | states |
|---|---|---|
| Expressions.FreeVars | calculator.py:121-341 | definition: the `variables` set each constructor builds; characterised by `SimplifierVariables.SimpVars` |
| PyText.Clamp | calculator.py:14-15 | a slice bound: a negative one counts from the end, then it is clamped to `0..len(s)`, each case stated |
| PyText.Slice | calculator.py:14-15 | Python slicing: a negative bound counts from the end, and when the resulting bounds are in order within the text the result is exactly that range; empty exactly when the clamped bounds are out of order |
| PyText.At | calculator.py:11-13 | definition: `s[i]`, a negative index counting from the end; characterised by `ParserProperties.SplitParts` |
| PyText.FindFrom | calculator.py:70 | `s.find(c, start)`: the first index at or after `start` holding the character, or -1 when there is none |
| PyText.StartsWith | calculator.py:62-65 | definition: `s[:n] == p`; characterised by `ParserProperties.LnTextOperand` and `ParserProperties.LogPrefixIsLog` |
| PyText.Find | calculator.py:64 | `str.find`: the first index holding the character, or -1 when there is none |
| PyText.RFind | calculator.py:12 | `str.rfind(c, 0, end)`: the last index before `end` holding the character, or -1 |
| Numbers.Add | calculator.py:213 | the value of `a + b` is the sum of the values; int exactly when both are int |
| Numbers.Mul | calculator.py:273 | the value of `a * b` is the product; int exactly when both are int |
| Numbers.Neg | calculator.py:298 | `-a` negates the value and keeps int/float |
| Numbers.SumNums | calculator.py:213-214 | `sum(...)` is an int exactly when every term is an int |
| Numbers.SumNumsValue | calculator.py:213-214 | the value of `sum(...)` is the exact real sum of the values of the terms |
| Numbers.ProdNums | calculator.py:272-273 | `math.prod(...)` is an int exactly when every factor is, and 0 exactly when some factor is 0 |
| Numbers.ProdNumsValue | calculator.py:272-273 | the value of `math.prod(...)` is the exact real product of the values of the factors |
| Numbers.SumOfIntZeros | calculator.py:213-214 | summing int zeros gives the int 0 |
| Numbers.Pow | calculator.py:353-354 | `b ** x` is undefined exactly for base 0 with an integral negative exponent, is folded only for an integral exponent, and int ** non-negative int is the int `IntPow` while every other folded result is a float |
| Numbers.PowValue | calculator.py:353-354 | `b ** x` is left unfolded exactly for a non-integral exponent; the folded value is `b` multiplied `x` times for `x >= 0` and the reciprocal of `b` to the `-x` otherwise |
| Numbers.IntPowIsRealPow | calculator.py:353-354 | the integer power agrees with the real power of the same base and exponent |
| Numbers.NatToStringValue | calculator.py:131-132 | the decimal text of n reads back as n |
| Numbers.IntLiteralRoundTrip | calculator.py:54 | `int()` accepts `str(i)` and returns i, for every int i |
| Numbers.IntToString | calculator.py:131-132 | definition: `str(i)` of an int; characterised by `IntLiteralRoundTrip` and `NatToStringValue` |
| Numbers.IsIntLiteral | calculator.py:53-56 | definition: the texts `int()` accepts (an optional sign, then digits); characterised by `IntLiteralRoundTrip` and `ParserProperties.ParseIntLiteral` |
| Numbers.IntLiteralValue | calculator.py:54 | definition: the value `int()` gives; characterised by `IntLiteralRoundTrip` and `ParserProperties.ParseIntLiteral` |
| Numbers.IsFloatLiteral | calculator.py:57-60 | definition: the texts `float()` accepts (an optional sign, digits with one point); characterised by `ParserProperties.FloatLiteralText` and `ParserProperties.ParseFloatLiteral` |
| Numbers.FloatLiteralValue | calculator.py:58 | definition: the value `float()` gives; characterised by `ParserProperties.ParseFloatLiteral` |
| Parser.Parse | calculator.py:5-83 | definition: the empty text is Error, otherwise the additive scan; characterised by `ParserProperties.ParseShape` and the parse lemmas below |
| Parser.ParseAt | calculator.py:8-48 | definition: one scan, then the next level or the leaf forms; characterised by `ParserProperties.SplitParts` and `ParserProperties.FirstLevels` |
| Parser.Scan | calculator.py:9-21 | definition: the scan from the last index; characterised by `Parser.ScanLoop` and `Parser.ScanIsRightmost` |
| Parser.Combine | calculator.py:13-47 | the node a split builds is Error exactly when one of its operands is Error |
| Parser.ParseLeaf | calculator.py:49-83 | definition: parentheses, int, float, logarithm, `e`, `pi`, name, in that order; characterised by `ParserProperties.ParseLeafShape` and the leaf lemmas below |
| Parser.ParseLog | calculator.py:62-78 | definition: the four logarithm forms; characterised by `ParserProperties.ParseLnText`, `ParseLogText`, `ParseLogCText` and `LogBaseQuirk` |
| Parser.SkipGroups | calculator.py:11-12 | the jump over parenthesised groups stays within the text and never lands on a `)` at a non-negative index; it may stop at -1 or -2, where Python's negative indexing reads from the end |
| Parser.ScanFrom | calculator.py:9-21 | a split position found holds an operator of the level being scanned |
| Parser.ScanLoop | calculator.py:9-21 | the scan loop returns exactly the split position `Scan` defines |
| Parser.ScanIsRightmost | calculator.py:9-48 | the split is at the rightmost examined operator of its level; no split means no examined operator of that level |
| Parser.SplitIsRightmost | calculator.py:9-48 | a split at a non-negative index is an examined position holding an operator of the level, with no such operator examined to its right |
| Parser.SplitWhenAny | calculator.py:9-48 | whenever some examined position holds an operator of the level, the scan splits at a non-negative index |
| Parser.ScanWithoutParens | calculator.py:9-48 | without `)` every position is examined, so the split is at the rightmost operator of the level, and there is none exactly when no split is found |
| Parser.NoParensNoCrash | calculator.py:11-13 | without `)` the scan never indexes outside the text |
| Parser.LogNode | calculator.py:165-168 | a Log built from an Error child is Error |
| ParserProperties.ParseShape | calculator.py:5-83 | `parse` returns Error or a tree without Error whose Sum, Product and Power nodes are the binary ones the splits build |
| ParserProperties.SplitWithoutParens | calculator.py:9-48 | text without `)` splits at the rightmost operator of the first level that has one, into the parses of the two sides |
| ParserProperties.SplitParts | calculator.py:9-48 | a scan that splits at p builds the node of the operator at p over the parses of the text before and after p |
| ParserProperties.FirstLevels | calculator.py:9-48 | when the earlier scans find no operator in text without `)`, `parse` is decided by the scan of the given level |
| ParserProperties.NoRightOperand | calculator.py:5-48 | two characters ending in an operator of the first level that has one parse to Error, the empty right operand being Error |
| ParserProperties.LeafWithoutParens | calculator.py:49-83 | text without `)` and without operators is read as a leaf |
| ParserProperties.ParseName | calculator.py:83 | a plain name parses to that Variable |
| ParserProperties.ParseIntLiteral | calculator.py:54 | the decimal text of any int parses to that Constant |
| ParserProperties.ParseBinary | calculator.py:9-48 | `l op r` over alphanumeric operands parses to the node of `op` over the parses of `l` and `r` |
| ParserProperties.ParseWrapped | calculator.py:51-52 | `(m)` parses like `m` when m has no parentheses |
| ParserProperties.LeftAssociative | calculator.py:9-48 | two operators of one level group to the left |
| ParserProperties.PowerAssociatesLeft | calculator.py:37-47 | `a^b^c` is `(a^b)^c` |
| ParserProperties.MinusAssociatesLeft | calculator.py:13-20 | `a-b-c` is `(a + -1*b) + -1*c` |
| ParserProperties.DivisionIsReciprocal | calculator.py:27-34 | `a/b` is `a * b^-1` |
| ParserProperties.TimesBindsTighter | calculator.py:9-35 | in `l + m * r` the additive split comes first |
| ParserProperties.ParseLn | calculator.py:62-78 | `ln(n)` is the Log of n to base `math.e` |
| ParserProperties.ParseLnText | calculator.py:62-78 | `ln(m)` is the Log to base e of the parse of m |
| ParserProperties.ParseLogText | calculator.py:62-78 | `log(m)` is the Log to the int base 10 of the parse of m |
| ParserProperties.ParseLogCText | calculator.py:62-78 | `log_c(m)` with an alphanumeric base text c is the Log to base `parse(c)` of the parse of m |
| ParserProperties.ParseE | calculator.py:79-80 | `e` is the constant `math.e` |
| ParserProperties.ParsePi | calculator.py:81-82 | `pi` is the constant `math.pi` |
| ParserProperties.ParseFloatLiteral | calculator.py:57-60 | any float literal without a leading `+` parses to the float Constant of its value |
| ParserProperties.FloatLiteralText | calculator.py:53-60 | a float literal is digits and a point after an optional sign, so `int()` rejects it and the float reading is the one taken |
| ParserProperties.NegativeLiteral | calculator.py:13-54 | example: `-5` is not split and reads as the int -5 (the general rule is `ParseIntLiteral`) |
| ParserProperties.NegatedName | calculator.py:13-83 | `-n` is the Variable named `-n`, not a negation |
| ParserProperties.MissingRightOperand | calculator.py:5-48 | examples of `NoRightOperand`: `1+`, `2*` and `x^` are Error |
| ParserProperties.LeadingPlus | calculator.py:5-17 | example: `+x` splits at index 0, its left operand is empty, so it is Error |
| ParserProperties.EmptyParentheses | calculator.py:5-52 | example: `()` strips to the empty text, which is Error |
| ParserProperties.LogTextOperands | calculator.py:69-77 | in `log_(2)(x)` the base text is `2` and the argument text is `(x` |
| ParserProperties.LogBaseQuirk | calculator.py:69-78 | `log_(2)(x)` parses to `Log(2, Variable("(x"))` |
| ParserProperties.UnclosedName | calculator.py:51-83 | `(x` is the Variable named `(x` |
| ParserProperties.LoneOpenParenthesis | calculator.py:51-83 | `(` is the Variable named `(` |
| Simplifier.Simplify | calculator.py:125-355 | definition: `Simp` with the recursion bound; characterised by `SimplifierNormalForm.SimplifyNormal` and `SimplifierVariables.SimplifyVars` |
| Simplifier.Simp | calculator.py:125-355 | definition: each class's `simplify`; characterised by `SimplifierNormalForm.SimpNormal` and `SimplifierVariables.SimpVars` |
| Simplifier.FoldLog | calculator.py:170-175 | a Log of constants folds to the float 1 when argument and base are equal and to 0 when the argument is 1, and is Error exactly for a non-positive operand or base 1; otherwise the Log is kept |
| Simplifier.FoldPower | calculator.py:343-355 | the rules in the source's order: base 1 gives 1, exponent 1 gives the base, exponent 0 gives 1, two constants fold to `b ** x`; Error exactly for 0 to a negative power |
| Simplifier.KeptInPlace | calculator.py:206-211 | the children kept in place by the flattening loop are not of the node's own kind |
| Simplifier.Spliced | calculator.py:207-209 | definition: the children of the nested nodes, last nested node first; characterised by `NestedMember` and `SimplifierNormalForm.FlattenMembers` |
| Simplifier.Flatten | calculator.py:204-211 | definition: kept children, then spliced ones; characterised by `KeptMember`, `NestedMember`, `FlattenOfFlat` and `SimplifierNormalForm.FlattenMembers` |
| Simplifier.NestedMember | calculator.py:207-209 | every child of a nested node of the same kind is in the flattened list |
| Simplifier.ConstantValues | calculator.py:213-214 | definition: the values of the constant children in order; characterised by `PartitionConstants` and `ConstantMember` |
| Simplifier.NonConstants | calculator.py:215-216 | the filtered list has no Constant and only children of the input |
| Simplifier.PartitionConstants | calculator.py:213-216 | every constant child's value is folded, every other child is kept, and the two parts together are as long as the list |
| Simplifier.CombineSum | calculator.py:213-228 | Sum.simplify after its children is a Constant exactly when no non-constant addend remains, and then it is the sum of the constants |
| Simplifier.CombineSumMixed | calculator.py:217-222 | unfolding of `CombineSum`: when non-constant addends remain: a non-zero constant sum is appended as the last addend; with a zero sum a single addend is returned on its own and several stay a Sum |
| Simplifier.SimpSumOf | calculator.py:204-228 | unfolding of `Simp`: simplifying a Sum whose children simplify without error combines the simplified children |
| Simplifier.SimpProductOf | calculator.py:263-308 | unfolding of `Simp`: simplifying a Product whose factors simplify without error combines the simplified factors |
| Simplifier.CombineSumKept | calculator.py:213-228 | two or more addends that are neither constants nor Sums are kept as the Sum, unchanged |
| Simplifier.KeyIndex | calculator.py:286-292 | the grouping entry found is the first whose key matches |
| Simplifier.Group | calculator.py:285-292 | definition: the pop loop; characterised by `GroupStep` and `GroupKeys` |
| Simplifier.GroupStep | calculator.py:286-292 | invariant of `Group`'s loop: one pop keeps the keys pairwise distinct, keeps every existing key in its place and leaves an entry for the popped factor's key |
| Simplifier.GroupKeys | calculator.py:285-292 | after the pop loop no two entries have matching keys, the entries it started with keep their keys and places, and every factor's key (a Power's base, otherwise the factor) has an entry |
| Simplifier.Emit | calculator.py:294-300 | definition: the loop over the entries; characterised by `EmitWithoutNegatives` and `FinishShape` |
| Simplifier.Absorb | calculator.py:296-297 | definition: one base with a negative exponent multiplied into the reciprocal; characterised by `SimplifierNormalForm.EmitNormal` and `SimplifierVariables.EmitVars` |
| Simplifier.EmitWithoutNegatives | calculator.py:294-300 | without negative constant exponents, each entry contributes its simplified Power, in entry order, before the loop finishes |
| Simplifier.Finish | calculator.py:302-308 | definition: append the reciprocal unless its base is 1, then return a single factor alone; characterised by `FinishShape` |
| Simplifier.FinishShape | calculator.py:302-308 | unfolding of `Finish`: when the reciprocal base is not 1, `Power(base, -1)` comes after all the other factors; a single factor is returned on its own |
| Simplifier.CombineProduct | calculator.py:263-308 | Product.simplify after its children is 0 when the constant factors multiply to 0, and the product of the constants when every factor is constant |
| Simplifier.FlattenOfFlat | calculator.py:206-211 | a list with no child of the node's kind is left as it is |
| Simplifier.KeptMember | calculator.py:206-211 | a child not of the node's kind survives flattening |
| Simplifier.ConstantMember | calculator.py:213-214 | every constant child contributes its value to the fold |
| SimplifierNormalForm.FlattenMembers | calculator.py:206-211 | every element after flattening is a kept child or a child of a spliced nested node |
| SimplifierNormalForm.CombineSumNormal | calculator.py:213-228 | a Sum of simplified children simplifies to normal form: no nested Sum, at most one Constant and only in last place, and that Constant is non-zero |
| SimplifierNormalForm.CombineProductNormal | calculator.py:263-308 | a Product of simplified children simplifies to normal form |
| SimplifierNormalForm.SimpNormal | calculator.py:125-355 | every simplified tree is Error or normal: no Error inside, Sums flattened with one trailing non-zero Constant at most, Powers with no base 1 and no exponent 0 or 1 |
| SimplifierNormalForm.SimplifyNormal | calculator.py:125-355 | `simplify(variables)` returns Error or a tree in normal form |
| SimplifierVariables.CombineSumVars | calculator.py:204-228 | Sum.simplify after its children brings in no variable they do not have |
| SimplifierVariables.SimpVars | calculator.py:146-355 | the variables of a simplified tree are unbound variables of the input |
| SimplifierVariables.SimplifyVars | calculator.py:146-149 | `simplify(variables)` leaves only unbound variables of its input |
| SimplifierVariables.FullyBoundHasNoVariables | calculator.py:146-149 | with every variable bound, no variable remains in the simplified tree; a Log or a non-integral Power of constants can remain unevaluated |
| SimplifierExamples.CombineTwoInts | calculator.py:213-218 | a Sum of two int constants folds to their sum |
| SimplifierExamples.CombineTwoIntFactors | calculator.py:272-278 | a Product of two int constants folds to their product |
| SimplifierExamples.UnitTimes | calculator.py:272-282 | a unit constant times one non-constant factor is that factor |
| SimplifierExamples.ConstantTimes | calculator.py:272-308 | a constant other than 0 and 1 goes through the grouping loop with the other factor |
| SimplifierExamples.ParseArithmetic | calculator.py:9-54 | `a+b*c` over decimal naturals parses to the Sum of a and the Product of b and c |
| SimplifierExamples.SumOfInts | calculator.py:204-218 | simplify of `a + b` is the int `a + b` |
| SimplifierExamples.ProductOfInts | calculator.py:263-278 | simplify of `a * b` is the int `a * b` |
| SimplifierExamples.ArithmeticFolds | calculator.py:5-278 | `a+b*c` over decimal naturals parses and simplifies to the int `a + b*c` |
| SimplifierExamples.PowerFolds | calculator.py:343-355 | `b^k` over decimal naturals simplifies to the int b to the power k |
| SimplifierExamples.TwoPlusThreeTimesFour | calculator.py:5-308 | `2+3*4` simplifies to 14 |
| SimplifierExamples.TwoToTheTen | calculator.py:343-355 | `2^10` simplifies to 1024 |
| SimplifierExamples.Square | calculator.py:263-308 | simplify of `x * x` is `x^2` |
| SimplifierExamples.CombineSquare | calculator.py:284-308 | grouping `x` and `x` by base gives `x^2` |
| SimplifierExamples.SquareOfName | calculator.py:263-308 | `n*n` parses and simplifies to `Power(n, 2)` |
| SimplifierExamples.Reciprocal | calculator.py:263-308 | simplify of `x * x^-1` is 1 |
| SimplifierExamples.CombineReciprocal | calculator.py:284-308 | grouping `x` and `x^-1` by base gives exponent 0, and the result is 1 |
| SimplifierExamples.NameOverItself | calculator.py:263-308 | `n/n` parses and simplifies to 1 |
| SimplifierExamples.GroupTwoNames | calculator.py:286-292 | the pop loop over `x, y` creates the entry of `y` first |
| SimplifierExamples.EmitTwoNames | calculator.py:294-308 | two entries with exponent 1 emit their bases in entry order |
| SimplifierExamples.CombineTwoNames | calculator.py:263-308 | Product.simplify turns the factors `x, y` into `y, x` |
| SimplifierExamples.TwoNamesSwap | calculator.py:263-308 | simplify of `x * y` is `y * x` for two different variables |
| SimplifierExamples.SimplifyNotIdempotent | calculator.py:263-308 | simplifying `n*m` twice gives back `n*m`, which differs from the first result `m*n` |
| SimplifierExamples.ZeroPlus | calculator.py:217-221 | a zero constant sum next to a single other addend (neither a constant nor a Sum) leaves that addend alone |
| SimplifierExamples.DifferenceWithConstant | calculator.py:204-228 | `n-c` simplifies to `Sum([n, -c])`, the negated constant last |
| Derivatives.D | calculator.py:128-358 | definition: each class's `derivative`; characterised by `ProductRuleLoop`, `ProductDerivative` and `DerivativeOfConstant.DerivativeVanishes` |
| Derivatives.ProductRuleUpTo | calculator.py:310-316 | definition: the running total after n turns; characterised by `ProductRuleStep` and `ProductRuleLoop` |
| Derivatives.ProductRule | calculator.py:310-316 | definition: the running total after every turn; characterised by `ProductRuleLoop` |
| Derivatives.PowerRule | calculator.py:357-358 | definition: `b^x * d(x * ln(b))`, simplified; characterised by `PowerRuleUnfolds` and `DerivativeOfConstant.DerivativeVanishes` |
| Derivatives.ProductDerivative | calculator.py:310-316 | unfolding of `D`: the derivative of a Product is the product rule over the derivatives of its factors |
| Derivatives.ProductRuleStep | calculator.py:312-315 | unfolding of `ProductRuleUpTo`: one turn replaces factor i by its derivative and adds that product to the simplified running total |
| Derivatives.LogRule | calculator.py:181-182 | the Log rule for a base free of the variable is Error exactly when the argument's derivative is |
| Derivatives.ProductRuleLoop | calculator.py:310-316 | the source's product-rule loop computes the derivative `D` of the Product |
| Derivatives.PairDerivatives | calculator.py:310-316 | unfolding of `D` for two factors: the product rule uses the derivatives of both |
| Derivatives.LnRule | calculator.py:177-182 | unfolding of `D`: `d ln(a)` is the Log rule with base e |
| Derivatives.PowerRuleUnfolds | calculator.py:357-358 | `d(b^x)` is `b^x * d(x * ln(b))`, simplified, as the source builds it |
| Derivatives.ReciprocalLnRule | calculator.py:357-358 | unfolding of `D`: `d(ln(b)^-1)` is the Power rule applied to the Log rule |
| Derivatives.LogRuleUnfolds | calculator.py:178-180 | when the base holds the variable, `d log_b(a)` is `d(ln(a) * ln(b)^-1)` |
| DerivativeOfConstant.ZeroFactor | calculator.py:263-276 | a Product with a zero factor simplifies to 0 or raises |
| DerivativeOfConstant.SumOfVanishing | calculator.py:204-218 | a Sum of zeros simplifies to 0 or raises |
| DerivativeOfConstant.ProductRuleVanishes | calculator.py:310-316 | the product rule over zero derivatives accumulates 0 |
| DerivativeOfConstant.VanishingTerm | calculator.py:310-316 | one turn of the product rule with a vanishing derivative keeps a running total of 0 (or Error) at 0 (or Error) |
| DerivativeOfConstant.LogRuleVanishes | calculator.py:181-182 | the Log rule over a derivative that simplifies to 0 itself simplifies to 0 (or raises) |
| DerivativeOfConstant.DerivativeVanishes | calculator.py:128-358 | the derivative by a variable the tree does not hold simplifies to 0 (or raises) at every depth bound |
| DerivativeOfConstant.ConstantDerivativeVanishes | calculator.py:128-358 | the derivative by an absent variable simplifies to 0 or raises (d/dx `ln(0)` raises ZeroDivisionError) |
| DerivativeExamples.LnOfE | calculator.py:170-175 | example of `FoldLog`: `ln(e)` simplifies to the float 1 |
| DerivativeExamples.DerivativeOfLn | calculator.py:177-182 | the derivative of `ln(n)` by n simplifies to `n^-1` |
| DerivativeExamples.LogRuleOfName | calculator.py:181-182 | the Log rule for `ln(x)` with derivative 1 simplifies to `x^-1` |
| DerivativeExamples.FirstTerm | calculator.py:310-316 | the first turn of the product rule on `2 * ln(x)` gives 0 |
| DerivativeExamples.SecondTerm | calculator.py:310-316 | the product of the second turn, `2 * d ln(x)`, simplifies to `2 * x^-1` |
| DerivativeExamples.ProductRuleOfSquare | calculator.py:310-316 | the product rule on `2 * ln(x)` gives `2 * x^-1` |
| DerivativeExamples.PowerRuleOfSquare | calculator.py:357-358 | `x^2 * (2 * x^-1)` simplifies to `x * 2` |
| DerivativeExamples.DerivativeOfSquare | calculator.py:357-358 | the derivative of `n^2` by n is `Product([n, 2])` |
| DerivativeExamples.ParseSquare | calculator.py:37-54 | `n^2` parses to the Power of n to the int 2 |
| Rendering.Join | calculator.py:236-241 | definition: the parts separated by the separator inside parentheses; characterised by `JoinLoop` |
| Rendering.Render | calculator.py:131-361 | definition: each class's `__str__`; characterised by `Str` and the `RenderParse` lemmas |
| Rendering.Str | calculator.py:110-361 | `str(e)` returns the text `Render` defines |
| Rendering.JoinLoop | calculator.py:236-241 | the accumulating loop writes `(` then the children joined by the separator then `)` |
| RenderParse.AtomRoundTrip | calculator.py:131-155 | a plain name or non-negative int renders to text that parses back to it |
| RenderParse.SumRoundTrip | calculator.py:13-52 | a Sum of two atoms parses back from its text |
| RenderParse.ProductRoundTrip | calculator.py:27-52 | a Product of two atoms parses back from its text |
| RenderParse.PowerRoundTrip | calculator.py:41-52 | a Power of two atoms parses back from its text |
| RenderParse.Wrapped | calculator.py:51-52 | the parenthesised text of a two-child node parses as the unwrapped binary text |
| RenderParse.NegativeAddendDoesNotRoundTrip | calculator.py:13-17 | the text `(x+-5)` of `x + (-5)` parses to Error |
| RenderParse.SimplifiedDifferenceDoesNotRoundTrip | calculator.py:204-241 | `x-5` simplifies to `x + (-5)`; rendering, parsing and simplifying that gives Error, not the tree |
| Equality.Equals | calculator.py:134-331 | definition: each class's `__eq__`; characterised by `PlainEquality`, `SameMembersEqual` and `PowerBreaksSelfEquality` |
| Equality.Collective | calculator.py:243-249 | definition: simplify both sides, then compare kind, length and membership; characterised by `CollectiveCompares` and `SameMembersEqual` |
| Equality.AllMembers | calculator.py:248-249 | definition: `all([y in xs for y in ys])`; characterised by `AllFound` |
| Equality.Member | calculator.py:248-249 | definition: `y in xs`, asking each element `e == y` with the element on the left; characterised by `FoundMember`, `MemberAsksTheElement` and `SquareNotFound` |
| Equality.CongruentSymmetric | calculator.py:134-190 | congruence of leaves and logarithms is symmetric |
| Equality.PlainEquality | calculator.py:134-190 | on constants, names and logarithms over them, `==` never raises and holds exactly for congruent trees (constants compared by value) |
| Equality.PlainSelfEquality | calculator.py:134-190 | instance of `PlainEquality`: such a tree compares equal to a copy of itself |
| Equality.FoundMember | calculator.py:248-249 | `y in xs` holds when y occurs in a list of such trees |
| Equality.AllFound | calculator.py:248-249 | every membership test passes when each right-hand child occurs on the left |
| Equality.SumsInAnyOrder | calculator.py:243-249 | Sums whose simplified children are a permutation of one another compare equal |
| Equality.ProductsInAnyOrder | calculator.py:325-331 | Products whose simplified factors are a permutation of one another compare equal |
| Equality.SameMembersEqual | calculator.py:243-249 | when both sides simplify to nodes of the same kind with as many children, and each child on the right occurs on the left, `==` is true |
| Equality.MultiplicityIgnored | calculator.py:243-249 | `x+x+y == x+y+y` holds although the children differ as multisets |
| Equality.PowerBreaksSelfEquality | calculator.py:243-249 | `x^2 + y` does not equal a copy of itself, because Power's `__eq__` returns None |
| Equality.SumWithSquare | calculator.py:204-228 | `x^2 + y` is already simplified |
| Equality.SquareNotFound | calculator.py:248-249 | the membership test for `x^2` fails because Power's `__eq__` returns None |
| Equality.EqualityNotSymmetric | calculator.py:243-249 | `==` on Sums is not symmetric: `x+x+y == x+y+z` is false while `x+y+z == x+x+y` is true |
| Equality.MemberAsksTheElement | calculator.py:248-249 | `in` asks the list's element, so the Sum `x+y+z` is not in `[x+x+y]` although `x+y+z == x+x+y` holds |

## Left out

- Mutation in place, aliasing and `deepcopy`: every operation is a function on tree values. The stale `variables` sets that the mutation leaves behind are not modelled; `FreeVars` is always computed from the current tree.
- Equality.Equals: Sum and Product `__eq__` simplify both operands in place and return only a bool (calculator.py:244-245, 326-327). The model leaves both operands unchanged, so after `p == q` with `p = parse("x*y")` the source's `p` prints `(y*x)` while the model's is still `x*y`.
- Derivatives.D: Power.derivative simplifies `self` in place through `Product(self, ...).simplify()` (calculator.py:358), and an object simplified this way can be reused afterwards. Log.derivative, for one, reuses its `self.argument` (calculator.py:181-182) after the argument's derivative has simplified it. For `ln((2*x)^2)` by `x`, the source's second factor is `(ln(2.718281828459045)*(x*2)^2)^-1`, but `D` keeps `(2*x)^2` there. Likewise `e = parse("(2*x)^2"); e.derivative("x")` leaves `str(e) == "(x*2)^2"`, while the model's `e` is unchanged. The model does not reproduce an operand that `derivative` or `==` simplifies in place and that is then reused.
- Simplifier.Flatten: the source removes a nested node with `list.remove`, which deletes the first child that compares equal to it, not necessarily the one at index i; the model removes the one at i.
- Simplifier.KeyIndex: grouping keys match by structural equality, and a key holding a Power never matches. Python's dict compares `__hash__` of the rendered text and then `__eq__`, which for Sum and Product keys simplifies and compares membership.
- `__hash__` (calculator.py:99-100 and the copies in each class): it is Python string hashing, and its only effect is dict bucketing in Product.simplify.
- Simplifier.FoldLog: `math.log` is evaluated only where the result is exact (argument equal to the base gives 1.0, argument 1 gives 0.0); any other Log of two constants is kept as a Log instead of being folded to a float.
- Simplifier.FoldPower: `b ** x` is folded only for integral exponents, and a non-integral exponent leaves the Power unfolded. In Python that case gives a float or a complex number, except that base 0 with a negative non-integral exponent raises ZeroDivisionError: `simplify(parse("0^(-0.5)"))` crashes in the source (calculator.py:354), while the model keeps `Power(0, -0.5)` instead of returning Error. `Numbers.Pow` reports `Undefined` only for integral negative exponents of 0.
- Floating point: floats are exact reals, so rounding, `-0.0`, `inf` and `nan` are not modelled. The text Python's `repr` gives a float is the parameter `floatRepr` of `Rendering.Render`. `int()` and `float()` are modelled for plain optionally signed decimal literals only, not for whitespace, underscores, exponents, `inf` or `nan`.
- Simplifier.Simplify: a bound of 1000 nested `simplify` calls stands for Python's recursion limit, which counts stack frames differently. `parse` and `derivative` are given no depth bound.
- Rendering.Render: requires every Sum and Product to have a child. Python builds them with two children, and `str` of an empty one raises IndexError.
- Equality.Member: the identity test of Python's `in` (`e is x`) is left out, since the two sides of `==` are distinct objects. The comparison is evaluated as `e == x`, with the list's element on the left, as list containment does.
- Equality.Collective: when Product.simplify returns its single remaining factor and that factor is itself a Product, the source compares against the one-element list `self.multipliers`, while the model compares against that factor's own factors.
- The `evaluate` stubs (calculator.py:87-88, 104-105), the unused `factors` dict in Sum.simplify (calculator.py:224-225) and the `__main__` driver (calculator.py:367-370), which simplifies one fixed formula and prints the simplified result: printing is I/O.
- `simplify(simplify(e)) == simplify(e)` does not hold: re-simplifying a Product pops its factors again and reverses their order (`SimplifierExamples.SimplifyNotIdempotent`). What is preserved is the normal form that both results satisfy (`SimplifierNormalForm.SimplifyNormal`).
- SimplifierNormalForm.CombineProductNormal: the normal form constrains a Product only through its factors. A simplified Product can hold constants in any place, for example the `1` left by a base whose exponents cancel, so no shape beyond normal factors is stated for it.
- Simplifier.CombineProduct: its contract covers the all-constant cases; the mixed case is stated through `GroupKeys` (the grouping keys) and `EmitWithoutNegatives`/`FinishShape` (the emitted factors). The exponent of each entry is not stated as the simplified sum of its factors' exponents, because every addition goes through a nested `simplify` whose result has no closed form.
- Simplifier.Emit: for bases with negative exponents only the position of the reciprocal is stated (`FinishShape`: last); which bases it collects and their exponents are not.
- The derivative of a Sum is, by its definition in the source, the simplified Sum of the derivatives. No separate linearity lemma is stated. The derivative of `x^x` is not computed.

=== FILE: derivative.dfy ===
/** `derivative(variable)` of every class (calculator.py:128-129, 151-152,
    177-182, 230-234, 310-316, 357-358).

    The Log and Power rules build a new tree and call `derivative` on it.
    The functions below compute those nested derivatives directly from the
    derivatives of the subtrees, so `D` recurses on the structure only; the
    lemmas `PowerRuleUnfolds` and `LogRuleUnfolds` show that this is the same
    as differentiating the tree the source builds. A derivative that crashes
    in Python (a child derivative is the string "bad expression", or a
    simplify call raises) is Error. */
module Derivatives {

  import opened Numbers
  import opened Expressions
  import opened Simplifier

  /** `Log(Constant(math.e), a)`. */
  function Ln(a: Expr): Expr
  {
    Log(EConst, a)
  }

  /** `e.derivative(v)`. */
  function D(e: Expr, v: string): (r: Expr)
    decreases e
  {
    match e
    case Error => Error
    case Constant(_) => Zero
    case Variable(n) => Constant(Int(if n == v then 1 else 0))
    case Sum(xs) => Simplify(Sum(seq(|xs|, k requires 0 <= k < |xs| => D(xs[k], v))), map[])
    case Product(xs) => ProductRule(xs, seq(|xs|, k requires 0 <= k < |xs| => D(xs[k], v)))
    case Power(b, x) => PowerRule(b, x, D(b, v), D(x, v))
    case Log(b, a) =>
      if v in FreeVars(b) then
        ProductRule([Ln(a), Power(Ln(b), MinusOne)],
                    [LogRule(EConst, a, D(a, v)), PowerRule(Ln(b), MinusOne, LogRule(EConst, b, D(b, v)), Zero)])
      else LogRule(b, a, D(a, v))
  }

  /** Product.derivative: the running total starts at `Constant(0)`; step i
      adds the product with factor i replaced by its derivative `ds[i]`, and
      simplifies. */
  function ProductRuleUpTo(fs: seq<Expr>, ds: seq<Expr>, n: nat): Expr
    requires |fs| == |ds| && n <= |fs|
  {
    if n == 0 then Zero
    else Simplify(Sum([ProductRuleUpTo(fs, ds, n - 1), Product(fs[n - 1 := ds[n - 1]])]), map[])
  }

  function ProductRule(fs: seq<Expr>, ds: seq<Expr>): Expr
    requires |fs| == |ds|
  {
    ProductRuleUpTo(fs, ds, |fs|)
  }

  /** The Log rule when the variable is not free in the base, given the
      derivative `da` of the argument: `da * (ln(b) * a)^-1`, not simplified. */
  function LogRule(b: Expr, a: Expr, da: Expr): (r: Expr)
    ensures r.Error? <==> da.Error?
  {
    if da.Error? then Error // Product(...) reads `variables` of a string
    else Product([da, Power(Product([Ln(b), a]), MinusOne)])
  }

  /** Power.derivative, given the derivatives of base and exponent:
      `b^x * d(x * ln(b))`, simplified. */
  function PowerRule(b: Expr, x: Expr, db: Expr, dx: Expr): Expr
  {
    Simplify(Product([Power(b, x), ProductRule([x, Ln(b)], [dx, LogRule(EConst, b, db)])]), map[])
  }

  /** The derivatives of the factors, in order. */
  function FactorDerivatives(fs: seq<Expr>, v: string): (ds: seq<Expr>)
    ensures |ds| == |fs| && forall k :: 0 <= k < |fs| ==> ds[k] == D(fs[k], v)
  {
    seq(|fs|, k requires 0 <= k < |fs| => D(fs[k], v))
  }

  /** Python's loop for the product rule, with the derivative of each factor
      taken as it goes. */
  method ProductRuleLoop(fs: seq<Expr>, v: string) returns (acc: Expr)
    ensures acc == D(Product(fs), v)
  {
    acc := Zero;
    for i := 0 to |fs|
      invariant acc == ProductRuleUpTo(fs, FactorDerivatives(fs, v), i)
    {
      ProductRuleStep(fs, v, i);
      acc := Simplify(Sum([acc, Product(fs[i := D(fs[i], v)])]), map[]);
    }
    ProductDerivative(fs, v);
  }

  /** Product.derivative is the product rule over the factors' derivatives. */
  lemma ProductDerivative(fs: seq<Expr>, v: string)
    ensures D(Product(fs), v) == ProductRule(fs, FactorDerivatives(fs, v))
  {
  }

  /** One turn of the loop: replace factor i by its derivative and add the
      product to the running total. */
  lemma ProductRuleStep(fs: seq<Expr>, v: string, i: nat)
    requires i < |fs|
    ensures var ds := FactorDerivatives(fs, v);
      ProductRuleUpTo(fs, ds, i + 1) == Simplify(Sum([ProductRuleUpTo(fs, ds, i), Product(fs[i := D(fs[i], v)])]), map[])
  {
  }

  // ---------------------------------------------------------------------
  // The nested derivatives of the source, unfolded

  /** The natural logarithm's derivative: `ln(a)` differentiates by the Log
      rule with base e, whose variables are empty. */
  lemma LnRule(a: Expr, v: string)
    ensures D(Ln(a), v) == LogRule(EConst, a, D(a, v))
  {
    assert FreeVars(EConst) == {};
  }

  /** The product rule on a product of two factors takes their two
      derivatives. */
  lemma PairDerivatives(x: Expr, y: Expr, v: string)
    ensures D(Product([x, y]), v) == ProductRule([x, y], [D(x, v), D(y, v)])
  {
    var fs := [x, y];
    assert seq(|fs|, k requires 0 <= k < |fs| => D(fs[k], v)) == [D(x, v), D(y, v)];
  }

  /** calculator.py:358: the Power rule is `self * (exponent * ln(base))'`. */
  lemma PowerRuleUnfolds(b: Expr, x: Expr, v: string)
    ensures D(Power(b, x), v) ==
            Simplify(Product([Power(b, x), D(Product([x, Ln(b)]), v)]), map[])
  {
    LnRule(b, v);
    PairDerivatives(x, Ln(b), v);
  }

  /** The derivative of `ln(b)^-1`, by the Power rule. */
  lemma ReciprocalLnRule(b: Expr, v: string)
    ensures D(Power(Ln(b), MinusOne), v) == PowerRule(Ln(b), MinusOne, LogRule(EConst, b, D(b, v)), Zero)
  {
    LnRule(b, v);
    assert D(MinusOne, v) == Zero;
  }

  /** calculator.py:178-180: with the variable free in the base, the Log rule
      differentiates `ln(arg) * ln(base)^-1`. */
  lemma LogRuleUnfolds(b: Expr, a: Expr, v: string)
    requires v in FreeVars(b)
    ensures D(Log(b, a), v) == D(Product([Ln(a), Power(Ln(b), MinusOne)]), v)
  {
    PairDerivatives(Ln(a), Power(Ln(b), MinusOne), v);
    LnRule(a, v);
    ReciprocalLnRule(b, v);
  }
}

=== FILE: derivative_examples.dfy ===
/** The derivatives of `ln(n)` and `n^2` in `n`, worked through the rules
    and the simplifications they call. */
module DerivativeExamples {

  import opened Numbers
  import opened Expressions
  import opened Parser
  import opened ParserProperties
  import opened Simplifier
  import opened Derivatives
  import opened SimplifierExamples

  /** `1/x` as Product.simplify leaves it. */
  function Reciprocal(x: Expr): Expr
  {
    Power(x, MinusOne)
  }

  // ---------------------------------------------------------------------
  // d/dx ln(x)

  /** `log(e, e)` folds to the float 1.0. */
  lemma LnOfE(fuel: nat)
    requires fuel >= 2
    ensures Simp(Ln(EConst), map[], fuel) == Constant(Float(1.0))
  {
  }

  /** The float factor 1.0 disappears from a product with one other factor. */
  lemma UnitFloatFactor(x: Expr, fuel: nat)
    requires x.Variable?
    ensures CombineProduct([Constant(Float(1.0)), x], fuel) == x
  {
    UnitTimes(Float(1.0), x, fuel);
  }

  lemma LnETimes(x: Expr, fuel: nat)
    requires fuel >= 3 && x.Variable?
    ensures Simp(Product([Ln(EConst), x]), map[], fuel) == x
  {
    var xs := [Ln(EConst), x];
    LnOfE(fuel - 1);
    assert seq(2, k requires 0 <= k < 2 => Simp(xs[k], map[], fuel - 1)) == [Constant(Float(1.0)), x];
    UnitFloatFactor(x, fuel - 1);
  }

  /** The integer factor 1 disappears from a product with one other factor. */
  lemma UnitFactor(x: Expr, fuel: nat)
    requires x.Variable?
    ensures CombineProduct([One, Reciprocal(x)], fuel) == Reciprocal(x)
  {
    UnitTimes(Int(1), Reciprocal(x), fuel);
  }

  /** The Log rule's `1 * (ln(e) * x)^-1` simplifies to `x^-1`. */
  lemma LogRuleOfName(x: Expr, fuel: nat)
    requires fuel >= 5 && x.Variable?
    ensures Simp(LogRule(EConst, x, One), map[], fuel) == Reciprocal(x)
  {
    var p := Power(Product([Ln(EConst), x]), MinusOne);
    LnETimes(x, fuel - 2);
    assert Simp(p, map[], fuel - 1) == Reciprocal(x);
    assert seq(2, k requires 0 <= k < 2 => Simp([One, p][k], map[], fuel - 1)) == [One, Reciprocal(x)];
    UnitFactor(x, fuel - 1);
  }

  /** `derivative(parse("ln(n)"), n)` simplifies to `n^-1`. */
  lemma DerivativeOfLn(n: string)
    requires PlainName(n)
    ensures Simplify(D(Parse("ln(" + n + ")"), n), map[]) == Reciprocal(Variable(n))
  {
    ParseLn(n);
    LnRule(Variable(n), n);
    LogRuleOfName(Variable(n), RecursionLimit());
  }

  // ---------------------------------------------------------------------
  // d/dx x^2

  /** The first product-rule term `0 * ln(x)` and the running total 0. */
  lemma FirstTerm(x: Expr, fuel: nat)
    requires fuel >= 4 && x.Variable?
    ensures Simp(Sum([Zero, Product([Zero, Ln(x)])]), map[], fuel) == Zero
  {
    assert Simp(Zero, map[], fuel - 1) == Zero;
    ZeroTimesLn(x, fuel - 1);
    SimpSumOfPair(Zero, Product([Zero, Ln(x)]), map[], fuel, Zero, Zero);
    CombineTwoInts(0, 0);
  }

  /** `0 * ln(x)` simplifies to 0. */
  lemma ZeroTimesLn(x: Expr, fuel: nat)
    requires fuel >= 3 && x.Variable?
    ensures Simp(Product([Zero, Ln(x)]), map[], fuel) == Zero
  {
    var fs := [Zero, Ln(x)];
    assert Simp(Zero, map[], fuel - 1) == Zero;
    assert Simp(Ln(x), map[], fuel - 1) == Ln(x);
    SimpProductOfPair(Zero, Ln(x), map[], fuel, Zero, Ln(x));
    FlattenOfFlat(fs, ProductKind);
    PairParts(Zero, Ln(x));
    assert Val(ConstantValues(fs)[0]) == 0.0;
  }

  lemma GroupTwoOverX(x: Expr, fuel: nat)
    requires fuel >= 2 && x.Variable?
    ensures Group([Constant(Int(2)), Reciprocal(x)], [], fuel) == Grouped([(x, MinusOne), (Constant(Int(2)), One)])
  {
    var ms := [Constant(Int(2)), Reciprocal(x)];
    SumOfInts(0, -1, fuel);
    assert Simp(Sum([Zero, MinusOne]), map[], fuel) == MinusOne;
    assert KeyIndex([], x) == 0;
    assert ms[..1] == [Constant(Int(2))];
    assert Group(ms, [], fuel) == Group([Constant(Int(2))], [] + [(x, MinusOne)], fuel);
    assert [] + [(x, MinusOne)] == [(x, MinusOne)];
    SumOfInts(0, 1, fuel);
    assert Simp(Sum([Zero, One]), map[], fuel) == One;
    assert KeyIndex([(x, MinusOne)], Constant(Int(2))) == 1;
    assert [Constant(Int(2))][..0] == [];
  }

  lemma EmitTwoOverX(x: Expr, fuel: nat)
    requires fuel >= 4 && x.Variable?
    ensures Emit([(x, MinusOne), (Constant(Int(2)), One)], One, [], fuel) == Product([Constant(Int(2)), Reciprocal(x)])
  {
    var items := [(x, MinusOne), (Constant(Int(2)), One)];
    assert Neg(Int(-1)) == Int(1);
    assert Simp(Power(x, One), map[], fuel) == x;
    assert Simp(Product([One, x]), map[], fuel) == x by {
      assert seq(2, k requires 0 <= k < 2 => Simp([One, x][k], map[], fuel - 1)) == [One, x];
      UnitFactorOfName(x, fuel - 1);
    }
    assert Emit(items, One, [], fuel) == Emit(items[1..], x, [], fuel);
    assert items[1..] == [(Constant(Int(2)), One)];
    assert Simp(Power(Constant(Int(2)), One), map[], fuel) == Constant(Int(2));
    assert Emit([(Constant(Int(2)), One)], x, [], fuel) == Emit([], x, [Constant(Int(2))], fuel);
  }

  lemma UnitFactorOfName(x: Expr, fuel: nat)
    requires x.Variable?
    ensures CombineProduct([One, x], fuel) == x
  {
    UnitTimes(Int(1), x, fuel);
  }

  /** `2 * x^-1` is already simplified. */
  lemma CombineTwoOverX(x: Expr, fuel: nat)
    requires fuel >= 4 && x.Variable?
    ensures CombineProduct([Constant(Int(2)), Reciprocal(x)], fuel) == Product([Constant(Int(2)), Reciprocal(x)])
  {
    GroupTwoOverX(x, fuel);
    ConstantTimes(Int(2), Reciprocal(x), fuel, [(x, MinusOne), (Constant(Int(2)), One)]);
    EmitTwoOverX(x, fuel);
  }

  /** The second product-rule term `2 * (1 * (ln(e) * x)^-1)`. */
  lemma SecondTerm(x: Expr, fuel: nat)
    requires fuel >= 6 && x.Variable?
    ensures Simp(Product([Constant(Int(2)), LogRule(EConst, x, One)]), map[], fuel) ==
            Product([Constant(Int(2)), Reciprocal(x)])
  {
    LogRuleOfName(x, fuel - 1);
    assert Simp(Constant(Int(2)), map[], fuel - 1) == Constant(Int(2));
    SimpProductOfPair(Constant(Int(2)), LogRule(EConst, x, One), map[], fuel, Constant(Int(2)), Reciprocal(x));
    CombineTwoOverX(x, fuel - 1);
  }

  /** The product rule for `2 * ln(x)` with derivatives `0` and the Log
      rule's `1 * (ln(e) * x)^-1`. */
  lemma ProductRuleOfSquare(x: Expr)
    requires x.Variable?
    ensures ProductRule([Constant(Int(2)), Ln(x)], [Zero, LogRule(EConst, x, One)]) ==
            Product([Constant(Int(2)), Reciprocal(x)])
  {
    var fs := [Constant(Int(2)), Ln(x)];
    var ds := [Zero, LogRule(EConst, x, One)];
    ProductRuleOfSquareFirst(x);
    assert fs[1 := ds[1]] == [Constant(Int(2)), LogRule(EConst, x, One)];
    var t := Product([Constant(Int(2)), Reciprocal(x)]);
    var fuel := RecursionLimit();
    assert Simp(Zero, map[], fuel - 1) == Zero;
    SecondTerm(x, fuel - 1);
    SimpSumOfPair(Zero, Product(fs[1 := ds[1]]), map[], fuel, Zero, t);
    ZeroPlus(t);
  }

  /** The first turn of the product rule on `2 * ln(x)` leaves 0. */
  lemma ProductRuleOfSquareFirst(x: Expr)
    requires x.Variable?
    ensures ProductRuleUpTo([Constant(Int(2)), Ln(x)], [Zero, LogRule(EConst, x, One)], 1) == Zero
  {
    var fs := [Constant(Int(2)), Ln(x)];
    var ds := [Zero, LogRule(EConst, x, One)];
    assert fs[0 := ds[0]] == [Zero, Ln(x)];
    FirstTerm(x, RecursionLimit());
  }

  lemma GroupSquareTimesTwoOverX(x: Expr, fuel: nat)
    requires fuel >= 2 && x.Variable?
    ensures Group([Constant(Int(2)), Power(x, Constant(Int(2))), Reciprocal(x)], [], fuel) ==
            Grouped([(x, One), (Constant(Int(2)), One)])
  {
    var ms := [Constant(Int(2)), Power(x, Constant(Int(2))), Reciprocal(x)];
    SumOfInts(0, -1, fuel);
    assert Simp(Sum([Zero, MinusOne]), map[], fuel) == MinusOne;
    assert KeyIndex([], x) == 0;
    assert ms[..2] == [Constant(Int(2)), Power(x, Constant(Int(2)))];
    assert Group(ms, [], fuel) == Group(ms[..2], [] + [(x, MinusOne)], fuel);
    assert [] + [(x, MinusOne)] == [(x, MinusOne)];
    GroupTwoAfterSquare(x, fuel);
  }

  lemma GroupTwoAfterSquare(x: Expr, fuel: nat)
    requires fuel >= 2 && x.Variable?
    ensures Group([Constant(Int(2)), Power(x, Constant(Int(2)))], [(x, MinusOne)], fuel) ==
            Grouped([(x, One), (Constant(Int(2)), One)])
  {
    GroupSquareFirst(x, fuel);
    GroupTwoLast(x, fuel);
  }

  /** The square is grouped first: its exponent 2 is added to the -1 already there. */
  lemma GroupSquareFirst(x: Expr, fuel: nat)
    requires fuel >= 2 && x.Variable?
    ensures Group([Constant(Int(2)), Power(x, Constant(Int(2)))], [(x, MinusOne)], fuel) ==
            Group([Constant(Int(2))], [(x, One)], fuel)
  {
    var ms := [Constant(Int(2)), Power(x, Constant(Int(2)))];
    SumOfInts(-1, 2, fuel);
    assert Simp(Sum([MinusOne, Constant(Int(2))]), map[], fuel) == One;
    assert KeyIndex([(x, MinusOne)], x) == 0;
    assert [(x, MinusOne)][0 := (x, One)] == [(x, One)];
    assert ms[..1] == [Constant(Int(2))];
  }

  /** The constant 2 then gets an entry of its own with exponent 1. */
  lemma GroupTwoLast(x: Expr, fuel: nat)
    requires fuel >= 2 && x.Variable?
    ensures Group([Constant(Int(2))], [(x, One)], fuel) == Grouped([(x, One), (Constant(Int(2)), One)])
  {
    SumOfInts(0, 1, fuel);
    assert Simp(Sum([Zero, One]), map[], fuel) == One;
    assert KeyIndex([(x, One)], Constant(Int(2))) == 1;
    assert [Constant(Int(2))][..0] == [];
  }

  lemma EmitSquareTimesTwoOverX(x: Expr, fuel: nat)
    requires fuel >= 2 && x.Variable?
    ensures Emit([(x, One), (Constant(Int(2)), One)], One, [], fuel) == Product([x, Constant(Int(2))])
  {
    var items := [(x, One), (Constant(Int(2)), One)];
    assert Simp(Power(x, One), map[], fuel) == x;
    assert [] + [x] == [x];
    assert Emit(items, One, [], fuel) == Emit(items[1..], One, [x], fuel);
    assert items[1..] == [(Constant(Int(2)), One)];
    assert Simp(Power(Constant(Int(2)), One), map[], fuel) == Constant(Int(2));
    assert Emit([(Constant(Int(2)), One)], One, [x], fuel) == Emit([], One, [x, Constant(Int(2))], fuel);
  }

  /** `x^2 * (2 * x^-1)` is `x * 2`: the nested product is spliced in, the
      exponents of `x` add to 1, and the constant 2 keeps its own entry. */
  lemma CombineSquareTimesTwoOverX(x: Expr, fuel: nat)
    requires fuel >= 2 && x.Variable?
    ensures CombineProduct([Power(x, Constant(Int(2))), Product([Constant(Int(2)), Reciprocal(x)])], fuel) ==
            Product([x, Constant(Int(2))])
  {
    var ys := [Power(x, Constant(Int(2))), Product([Constant(Int(2)), Reciprocal(x)])];
    FlattenSplices(x);
    TripleParts(Power(x, Constant(Int(2))), Constant(Int(2)), Reciprocal(x));
    assert [Int(2)][..0] == [];
    assert ProdNums([Int(2)]) == Int(2);
    var ms := [Constant(Int(2)), Power(x, Constant(Int(2))), Reciprocal(x)];
    GroupSquareTimesTwoOverX(x, fuel);
    CombineByGrouping(ys, fuel, ms, [(x, One), (Constant(Int(2)), One)]);
    EmitSquareTimesTwoOverX(x, fuel);
  }

  /** The nested product is appended after the factor kept in place. */
  lemma FlattenSplices(x: Expr)
    ensures Flatten([Power(x, Constant(Int(2))), Product([Constant(Int(2)), Reciprocal(x)])], ProductKind) ==
            [Power(x, Constant(Int(2))), Constant(Int(2)), Reciprocal(x)]
  {
    var p := Power(x, Constant(Int(2)));
    var ys := [p, Product([Constant(Int(2)), Reciprocal(x)])];
    assert ys[..1] == [p] && [p][..0] == [];
    assert KeptInPlace([p], ProductKind) == [p];
    assert Spliced([p], ProductKind) == [];
    assert KeptInPlace(ys, ProductKind) == [p];
    assert Spliced(ys, ProductKind) == [Constant(Int(2)), Reciprocal(x)];
  }

  lemma PowerRuleOfSquare(x: Expr, fuel: nat)
    requires fuel >= 6 && x.Variable?
    ensures Simp(Product([Power(x, Constant(Int(2))), Product([Constant(Int(2)), Reciprocal(x)])]), map[], fuel) ==
            Product([x, Constant(Int(2))])
  {
    SquareTimesTwoOverXChildren(x, fuel);
    CombineSquareTimesTwoOverX(x, fuel - 1);
  }

  /** Both factors of `x^2 * (2 * x^-1)` are already simplified. */
  lemma SquareTimesTwoOverXChildren(x: Expr, fuel: nat)
    requires fuel >= 6 && x.Variable?
    ensures var sq := Power(x, Constant(Int(2))); var t := Product([Constant(Int(2)), Reciprocal(x)]);
      Simp(Product([sq, t]), map[], fuel) == CombineProduct([sq, t], fuel - 1)
  {
    var sq := Power(x, Constant(Int(2)));
    var t := Product([Constant(Int(2)), Reciprocal(x)]);
    SquareStays(x, fuel - 1);
    TwoOverXStays(x, fuel - 1);
    SimpProductOfPair(sq, t, map[], fuel, sq, t);
  }

  /** `x^2` is already simplified. */
  lemma SquareStays(x: Expr, fuel: nat)
    requires fuel >= 2 && x.Variable?
    ensures Simp(Power(x, Constant(Int(2))), map[], fuel) == Power(x, Constant(Int(2)))
  {
    assert Simp(x, map[], fuel - 1) == x;
    assert Simp(Constant(Int(2)), map[], fuel - 1) == Constant(Int(2));
  }

  /** `2 * x^-1` is already simplified. */
  lemma TwoOverXStays(x: Expr, fuel: nat)
    requires fuel >= 5 && x.Variable?
    ensures Simp(Product([Constant(Int(2)), Reciprocal(x)]), map[], fuel) == Product([Constant(Int(2)), Reciprocal(x)])
  {
    assert Simp(Constant(Int(2)), map[], fuel - 1) == Constant(Int(2));
    assert Simp(Reciprocal(x), map[], fuel - 1) == Reciprocal(x);
    SimpProductOfPair(Constant(Int(2)), Reciprocal(x), map[], fuel, Constant(Int(2)), Reciprocal(x));
    CombineTwoOverX(x, fuel - 1);
  }

  lemma ParseSquare(n: string)
    requires PlainName(n)
    ensures Parse(n + "^2") == Power(Variable(n), Constant(Int(2)))
  {
    DecimalText(2);
    assert NatToString(2) == "2";
    assert n + "^2" == n + ['^'] + "2";
    ParseBinary(n, '^', "2", Exponential);
    ParseName(n);
  }

  /** `derivative(parse("n^2"), n)` is `n * 2`. */
  lemma DerivativeOfSquare(n: string)
    requires PlainName(n)
    ensures D(Parse(n + "^2"), n) == Product([Variable(n), Constant(Int(2))])
  {
    var x := Variable(n);
    ParseSquare(n);
    assert D(x, n) == One && D(Constant(Int(2)), n) == Zero;
    LnRule(x, n);
    ProductRuleOfSquare(x);
    PowerRuleOfSquare(x, RecursionLimit());
  }
}

=== FILE: derivative_zero.dfy ===
/** The derivative of an expression in a variable that does not occur in it
    simplifies to `Constant(0)`, unless some simplify call on the way raises. */
module DerivativeOfConstant {

  import opened Numbers
  import opened Expressions
  import opened Simplifier
  import opened Derivatives

  /** However deep the nested simplify calls may go, simplifying `d` gives
      `Constant(0)` or raises. */
  ghost predicate Vanishes(d: Expr)
  {
    forall fuel: nat :: Simp(d, map[], fuel) == Zero || Simp(d, map[], fuel).Error?
  }

  /** The outcome the lemmas below establish: `Constant(0)` or Error. */
  predicate ZeroOrError(e: Expr)
  {
    e == Zero || e.Error?
  }

  /** Every derivative in `ds` vanishes. */
  ghost predicate AllVanish(ds: seq<Expr>)
  {
    forall k {:trigger Vanishes(ds[k])} :: 0 <= k < |ds| ==> Vanishes(ds[k])
  }

  lemma ZeroOrErrorVanishes(d: Expr)
    requires d == Zero || d.Error?
    ensures Vanishes(d)
  {
  }

  /** A product with a vanishing factor simplifies to `Constant(0)`: the
      factor becomes the constant 0, and the constants multiply to 0. */
  lemma ZeroFactor(fs: seq<Expr>, i: nat, fuel: nat)
    requires i < |fs| && Vanishes(fs[i])
    ensures Simp(Product(fs), map[], fuel) == Zero || Simp(Product(fs), map[], fuel).Error?
  {
    if fuel > 0 {
      var ys := seq(|fs|, k requires 0 <= k < |fs| => Simp(fs[k], map[], fuel - 1));
      if Error !in ys {
        assert ys[i] in ys;
        assert ys[i] == Zero;
        KeptMember(ys, i, ProductKind);
        var zs := Flatten(ys, ProductKind);
        var j :| 0 <= j < |zs| && zs[j] == Zero;
        ConstantMember(zs, j);
        var cs := ConstantValues(zs);
        var m :| 0 <= m < |cs| && cs[m] == Int(0);
        assert Val(ProdNums(cs)) == 0.0;
      }
    }
  }

  /** A sum of vanishing addends simplifies to `Constant(0)`. */
  lemma SumOfVanishing(ds: seq<Expr>, fuel: nat)
    requires forall k :: 0 <= k < |ds| ==> Vanishes(ds[k])
    ensures Simp(Sum(ds), map[], fuel) == Zero || Simp(Sum(ds), map[], fuel).Error?
  {
    if fuel > 0 {
      var ys := seq(|ds| , k requires 0 <= k < |ds| => Simp(ds[k], map[], fuel - 1));
      if Error !in ys {
        assert forall k :: 0 <= k < |ys| ==> ys[k] in ys && ys[k] == Zero;
        FlattenOfFlat(ys, SumKind);
        OnlyConstants(ys);
        SumOfIntZeros(ConstantValues(ys));
      }
    }
  }

  /** Induction over the steps of a loop: a property of step 0 that each
      step passes on to the next holds at step `n`. */
  lemma StepInduction(p: nat -> bool, n: nat)
    requires p(0)
    requires forall i :: 0 < i <= n ==> p(i - 1) ==> p(i)
    ensures p(n)
  {
    var i := 0;
    while i < n
      invariant i <= n && p(i)
    {
      i := i + 1;
    }
  }

  /** Every running total of the product rule is `Constant(0)` or Error when
      every factor's derivative vanishes. */
  lemma ProductRuleVanishes(fs: seq<Expr>, ds: seq<Expr>, n: nat)
    requires |fs| == |ds| && n <= |fs|
    requires AllVanish(ds)
    ensures ZeroOrError(ProductRuleUpTo(fs, ds, n))
  {
    var p := (i: nat) => i <= n ==> ZeroOrError(ProductRuleUpTo(fs, ds, i));
    forall i | 0 < i <= n
      ensures p(i - 1) ==> p(i)
    {
      VanishingTerm(fs, ds, i);
    }
    StepInduction(p, n);
  }

  /** Step n of the product rule adds a vanishing term to a running total
      of 0 or Error. */
  lemma VanishingTerm(fs: seq<Expr>, ds: seq<Expr>, n: nat)
    requires |fs| == |ds| && 0 < n <= |fs|
    requires AllVanish(ds)
    ensures ZeroOrError(ProductRuleUpTo(fs, ds, n - 1)) ==> ZeroOrError(ProductRuleUpTo(fs, ds, n))
  {
    var acc := ProductRuleUpTo(fs, ds, n - 1);
    var term := fs[n - 1 := ds[n - 1]];
    assert term[n - 1] == ds[n - 1];
    if ZeroOrError(acc) {
      ProductRuleStep(acc, term, n - 1);
    }
  }

  /** One step of the product rule keeps the running total at 0 or Error. */
  lemma ProductRuleStep(acc: Expr, fs: seq<Expr>, i: nat)
    requires acc == Zero || acc.Error?
    requires i < |fs| && Vanishes(fs[i])
    ensures var r := Simplify(Sum([acc, Product(fs)]), map[]); r == Zero || r.Error?
  {
    ZeroOrErrorVanishes(acc);
    forall fuel: nat
      ensures Simp(Product(fs), map[], fuel) == Zero || Simp(Product(fs), map[], fuel).Error?
    {
      ZeroFactor(fs, i, fuel);
    }
    SumOfVanishing([acc, Product(fs)], RecursionLimit());
  }

  /** The unsimplified Log rule vanishes with the derivative of the argument. */
  lemma LogRuleVanishes(b: Expr, a: Expr, da: Expr)
    requires Vanishes(da)
    ensures Vanishes(LogRule(b, a, da))
  {
    if !da.Error? {
      forall fuel: nat
        ensures Simp(LogRule(b, a, da), map[], fuel) == Zero || Simp(LogRule(b, a, da), map[], fuel).Error?
      {
        ZeroFactor([da, Power(Product([Ln(b), a]), MinusOne)], 0, fuel);
      }
    }
  }

  /** The variables of a child are variables of the node. */
  lemma ChildVariables(xs: seq<Expr>)
    ensures forall k :: 0 <= k < |xs| ==> FreeVars(xs[k]) <= FreeVars(Sum(xs)) && FreeVars(xs[k]) <= FreeVars(Product(xs))
  {
  }

  lemma {:induction false} DerivativeVanishes(e: Expr, v: string)
    requires v !in FreeVars(e)
    ensures Vanishes(D(e, v))
  {
    match e
    case Error =>
    case Constant(_) =>
    case Variable(n) =>
    case Sum(xs) =>
      ChildVariables(xs);
      var ds := seq(|xs|, k requires 0 <= k < |xs| => D(xs[k], v));
      forall k | 0 <= k < |xs|
        ensures Vanishes(ds[k])
      {
        DerivativeVanishes(xs[k], v);
      }
      SumOfVanishing(ds, RecursionLimit());
      ZeroOrErrorVanishes(D(e, v));
    case Product(xs) =>
      ChildVariables(xs);
      var ds := seq(|xs|, k requires 0 <= k < |xs| => D(xs[k], v));
      forall k | 0 <= k < |xs|
        ensures Vanishes(ds[k])
      {
        DerivativeVanishes(xs[k], v);
      }
      ProductRuleVanishes(xs, ds, |xs|);
      ZeroOrErrorVanishes(D(e, v));
    case Power(b, x) =>
      DerivativeVanishes(b, v);
      DerivativeVanishes(x, v);
      LogRuleVanishes(EConst, b, D(b, v));
      var fs := [x, Ln(b)];
      var ds := [D(x, v), LogRule(EConst, b, D(b, v))];
      ProductRuleVanishes(fs, ds, 2);
      var pr := ProductRule(fs, ds);
      ZeroOrErrorVanishes(pr);
      ZeroFactor([Power(b, x), pr], 1, RecursionLimit());
      ZeroOrErrorVanishes(D(e, v));
    case Log(b, a) =>
      DerivativeVanishes(a, v);
      LogRuleVanishes(b, a, D(a, v));
  }

  /** The derivative in a variable that does not occur in `e` simplifies to
      `Constant(0)` (or raises, when a simplify call on the way does). */
  lemma ConstantDerivativeVanishes(e: Expr, v: string)
    requires v !in FreeVars(e)
    ensures Simplify(D(e, v), map[]) == Zero || Simplify(D(e, v), map[]).Error?
  {
    DerivativeVanishes(e, v);
  }
}

=== FILE: equality.dfy ===
/** `==` between expression trees (calculator.py:113-114, 134-135, 157-158,
    189-190, 243-249, 325-331). Constant, Variable and Log compare their type
    and parts; Sum and Product simplify both sides and then compare the
    number of children and whether each child of the right-hand side occurs
    among those of the left. Error's `__eq__` returns a non-empty string,
    which counts as true; Power inherits the `__eq__` that returns None,
    which counts as false. */
module Equality {

  import opened Numbers
  import opened Expressions
  import opened Simplifier

  /** The truth value of `a == b`, or Crashed when evaluating it raises
      (Error has no `simplify`; the recursion limit). */
  datatype Comparison = Crashed | Compared(equal: bool)

  /** `a == b`, evaluated with `a.__eq__(b)`. */
  function Equals(a: Expr, b: Expr, fuel: nat): Comparison
    decreases fuel, 1, 0
  {
    if fuel == 0 then Crashed
    else
      match a
      case Error => Compared(true)
      case Constant(v) => Compared(b.Constant? && Val(b.val) == Val(v))
      case Variable(n) => Compared(b.Variable? && b.name == n)
      case Power(_, _) => Compared(false)
      case Log(base, arg) =>
        if !b.Log? then Compared(false)
        else
          var bases := Equals(b.base, base, fuel - 1);
          if bases.Crashed? then Crashed
          else if !bases.equal then Compared(false)
          else Equals(b.argument, arg, fuel - 1)
      case Sum(_) | Product(_) => Collective(a, b, if a.Sum? then SumKind else ProductKind, fuel)
  }

  /** Sum.__eq__ and Product.__eq__: simplify both sides; when the left side
      no longer is of its kind compare the simplified trees, otherwise compare
      the number of children and the membership of the right-hand children. */
  function Collective(a: Expr, b: Expr, kind: Kind, fuel: nat): Comparison
    requires fuel > 0 && IsKind(a, kind)
    decreases fuel, 0, 0
  {
    if b.Error? then Crashed
    else
      var simpl := Simplify(a, map[]);
      var obj := Simplify(b, map[]);
      if simpl.Error? || obj.Error? then Crashed
      else if !IsKind(simpl, kind) then Equals(simpl, obj, fuel - 1)
      else if !(IsKind(obj, kind) && |Children(obj, kind)| == |Children(simpl, kind)|) then Compared(false)
      else AllMembers(Children(obj, kind), Children(simpl, kind), fuel - 1)
  }

  /** `all([y in xs for y in ys])`: every membership test is evaluated. */
  function AllMembers(ys: seq<Expr>, xs: seq<Expr>, fuel: nat): Comparison
    decreases fuel, 2, |ys|
  {
    if ys == [] then Compared(true)
    else
      var head := Member(ys[0], xs, fuel);
      var tail := AllMembers(ys[1..], xs, fuel);
      if head.Crashed? || tail.Crashed? then Crashed
      else Compared(head.equal && tail.equal)
  }

  /** `y in xs`: `x == y` for each x in turn, with the list's element on the
      left as CPython's list containment evaluates it, stopping at the first
      true one. */
  function Member(y: Expr, xs: seq<Expr>, fuel: nat): Comparison
    decreases fuel, 1, |xs|
  {
    if xs == [] then Compared(false)
    else
      var first := Equals(xs[0], y, fuel);
      if first.Crashed? then Crashed
      else if first.equal then Compared(true)
      else Member(y, xs[1..], fuel)
  }

  // ---------------------------------------------------------------------
  // Leaves: constants, names and logarithms over them

  /** A tree of constants, names and logarithms. */
  predicate Plain(e: Expr)
  {
    match e
    case Constant(_) => true
    case Variable(_) => true
    case Log(b, a) => Plain(b) && Plain(a)
    case _ => false
  }

  /** Nesting depth of logarithms. */
  function Depth(e: Expr): nat
  {
    if e.Log? then 1 + Max(Depth(e.base), Depth(e.argument)) else 0
  }

  function Max(a: nat, b: nat): nat
  {
    if a < b then b else a
  }

  /** Same shape, same names, and constants of the same value (Python's
      `2 == 2.0`). */
  predicate Congruent(a: Expr, b: Expr)
  {
    match a
    case Constant(v) => b.Constant? && Val(b.val) == Val(v)
    case Variable(n) => b.Variable? && b.name == n
    case Log(base, arg) => b.Log? && Congruent(base, b.base) && Congruent(arg, b.argument)
    case _ => false
  }

  lemma {:induction false} CongruentSymmetric(a: Expr, b: Expr)
    requires Plain(a) && Plain(b)
    ensures Congruent(a, b) <==> Congruent(b, a)
  {
    if a.Log? && b.Log? {
      CongruentSymmetric(a.base, b.base);
      CongruentSymmetric(a.argument, b.argument);
    }
  }

  /** Every plain tree is congruent to itself. */
  lemma {:induction false} CongruentReflexive(a: Expr)
    requires Plain(a)
    ensures Congruent(a, a)
  {
    if a.Log? {
      CongruentReflexive(a.base);
      CongruentReflexive(a.argument);
    }
  }

  /** On plain trees `==` never raises and holds exactly for congruent trees. */
  lemma {:induction false} PlainEquality(a: Expr, b: Expr, fuel: nat)
    requires Plain(a) && Plain(b) && fuel > Depth(a) && fuel > Depth(b)
    ensures Equals(a, b, fuel) == Compared(Congruent(a, b))
    decreases fuel
  {
    if a.Log? && b.Log? {
      PlainEquality(b.base, a.base, fuel - 1);
      CongruentSymmetric(a.base, b.base);
      if Congruent(a.base, b.base) {
        PlainEquality(b.argument, a.argument, fuel - 1);
        CongruentSymmetric(a.argument, b.argument);
      }
    }
  }

  /** A plain tree compares equal to a copy of itself. */
  lemma PlainSelfEquality(a: Expr, fuel: nat)
    requires Plain(a) && fuel > Depth(a)
    ensures Equals(a, a, fuel) == Compared(true)
  {
    PlainEquality(a, a, fuel);
    CongruentReflexive(a);
  }

  // ---------------------------------------------------------------------
  // Membership

  predicate AllPlain(xs: seq<Expr>, fuel: nat)
  {
    forall k :: 0 <= k < |xs| ==> Plain(xs[k]) && fuel > Depth(xs[k])
  }

  /** A plain tree that occurs in a list of plain trees is found in it. */
  lemma {:induction false} FoundMember(y: Expr, xs: seq<Expr>, fuel: nat)
    requires AllPlain(xs, fuel) && y in xs
    ensures Member(y, xs, fuel) == Compared(true)
    decreases |xs|
  {
    PlainEquality(xs[0], y, fuel);
    if y == xs[0] {
      CongruentReflexive(y);
    } else {
      assert y in xs[1..];
      FoundMember(y, xs[1..], fuel);
    }
  }

  /** When every child on the right occurs on the left, all membership tests
      pass. */
  lemma {:induction false} AllFound(ys: seq<Expr>, xs: seq<Expr>, fuel: nat)
    requires AllPlain(xs, fuel)
    requires forall k :: 0 <= k < |ys| ==> ys[k] in xs
    ensures AllMembers(ys, xs, fuel) == Compared(true)
    decreases |ys|
  {
    if ys != [] {
      FoundMember(ys[0], xs, fuel);
      AllFound(ys[1..], xs, fuel);
    }
  }

  /** A permutation has the same length and each of its elements occurs in
      the original. */
  lemma PermutationMembers(xs: seq<Expr>, ys: seq<Expr>)
    requires multiset(xs) == multiset(ys)
    ensures |xs| == |ys|
    ensures forall k :: 0 <= k < |ys| ==> ys[k] in xs
  {
    assert |xs| == |multiset(xs)| == |multiset(ys)| == |ys|;
    forall k | 0 <= k < |ys|
      ensures ys[k] in xs
    {
      assert ys[k] in multiset(ys);
    }
  }

  /** Once both sides simplify to nodes of the kind with children of equal
      number, `==` is the membership test. */
  lemma CollectiveCompares(a: Expr, b: Expr, kind: Kind, xs: seq<Expr>, ys: seq<Expr>, fuel: nat)
    requires fuel > 0 && IsKind(a, kind)
    requires var s := Simplify(a, map[]); IsKind(s, kind) && Children(s, kind) == xs
    requires var o := Simplify(b, map[]); IsKind(o, kind) && Children(o, kind) == ys
    requires |xs| == |ys|
    ensures Equals(a, b, fuel) == AllMembers(ys, xs, fuel - 1)
  {
    assert Simplify(Error, map[]) == Error;
    assert Equals(a, b, fuel) == Collective(a, b, kind, fuel);
  }

  /** Once both sides simplify to nodes of the kind whose children are
      plain, of equal number, and each child on the right occurs on the
      left, `==` holds. */
  lemma SameMembersEqual(a: Expr, b: Expr, kind: Kind, xs: seq<Expr>, ys: seq<Expr>, fuel: nat)
    requires fuel > 0 && IsKind(a, kind)
    requires var s := Simplify(a, map[]); IsKind(s, kind) && Children(s, kind) == xs
    requires var o := Simplify(b, map[]); IsKind(o, kind) && Children(o, kind) == ys
    requires |xs| == |ys| && forall k :: 0 <= k < |ys| ==> ys[k] in xs
    requires AllPlain(xs, fuel - 1)
    ensures Equals(a, b, fuel) == Compared(true)
  {
    AllFound(ys, xs, fuel - 1);
    AllMembersDecide(a, b, kind, xs, ys, fuel);
  }

  /** `==` is decided by the membership tests once they all pass. */
  lemma AllMembersDecide(a: Expr, b: Expr, kind: Kind, xs: seq<Expr>, ys: seq<Expr>, fuel: nat)
    requires fuel > 0 && IsKind(a, kind)
    requires var s := Simplify(a, map[]); IsKind(s, kind) && Children(s, kind) == xs
    requires var o := Simplify(b, map[]); IsKind(o, kind) && Children(o, kind) == ys
    requires |xs| == |ys| && AllMembers(ys, xs, fuel - 1) == Compared(true)
    ensures Equals(a, b, fuel) == Compared(true)
  {
    CollectiveCompares(a, b, kind, xs, ys, fuel);
  }

  /** Sums whose simplified forms hold the same plain children in any order
      compare equal. */
  lemma SumsInAnyOrder(a: Expr, b: Expr, xs: seq<Expr>, ys: seq<Expr>, fuel: nat)
    requires a.Sum? && Simplify(a, map[]) == Sum(xs) && Simplify(b, map[]) == Sum(ys)
    requires multiset(xs) == multiset(ys)
    requires fuel > 0 && AllPlain(xs, fuel - 1)
    ensures Equals(a, b, fuel) == Compared(true)
  {
    PermutationMembers(xs, ys);
    SameMembersEqual(a, b, SumKind, xs, ys, fuel);
  }

  /** Products whose simplified forms hold the same plain factors in any
      order compare equal. */
  lemma ProductsInAnyOrder(a: Expr, b: Expr, xs: seq<Expr>, ys: seq<Expr>, fuel: nat)
    requires a.Product? && Simplify(a, map[]) == Product(xs) && Simplify(b, map[]) == Product(ys)
    requires multiset(xs) == multiset(ys)
    requires fuel > 0 && AllPlain(xs, fuel - 1)
    ensures Equals(a, b, fuel) == Compared(true)
  {
    PermutationMembers(xs, ys);
    SameMembersEqual(a, b, ProductKind, xs, ys, fuel);
  }

  // ---------------------------------------------------------------------
  // What the comparison does not see

  /** A Sum of names is already simplified. */
  lemma SumOfNames(xs: seq<Expr>)
    requires |xs| >= 2 && forall k :: 0 <= k < |xs| ==> xs[k].Variable?
    ensures Simplify(Sum(xs), map[]) == Sum(xs)
  {
    forall k | 0 <= k < |xs|
      ensures Simp(xs[k], map[], RecursionLimit() - 1) == xs[k]
    {
    }
    assert Error !in xs;
    SimpSumOf(xs, map[], RecursionLimit(), xs);
    CombineSumKept(xs);
  }

  /** Only the count and membership of children are compared, not how often
      each occurs: `x+x+y` equals `x+y+y`. */
  lemma MultiplicityIgnored(x: Expr, y: Expr, fuel: nat)
    requires x.Variable? && y.Variable? && x != y && fuel >= 2
    ensures Equals(Sum([x, x, y]), Sum([x, y, y]), fuel) == Compared(true)
    ensures multiset([x, x, y]) != multiset([x, y, y])
  {
    SumOfNames([x, x, y]);
    SumOfNames([x, y, y]);
    NamesFound(x, y, fuel - 1);
    AllMembersDecide(Sum([x, x, y]), Sum([x, y, y]), SumKind, [x, x, y], [x, y, y], fuel);
    assert multiset([x, x, y])[x] == 2;
  }

  lemma NamesFound(x: Expr, y: Expr, fuel: nat)
    requires x.Variable? && y.Variable? && fuel > 0
    ensures AllMembers([x, y, y], [x, x, y], fuel) == Compared(true)
  {
    assert AllPlain([x, x, y], fuel);
    AllFound([x, y, y], [x, x, y], fuel);
  }

  /** Only the children of the right-hand side are looked up on the left, so
      `==` is not symmetric: `x+x+y == x+y+z` is false, `x+y+z == x+x+y` true. */
  lemma EqualityNotSymmetric(x: Expr, y: Expr, z: Expr, fuel: nat)
    requires x.Variable? && y.Variable? && z.Variable? && x != z && y != z && fuel >= 2
    ensures Equals(Sum([x, x, y]), Sum([x, y, z]), fuel) == Compared(false)
    ensures Equals(Sum([x, y, z]), Sum([x, x, y]), fuel) == Compared(true)
  {
    SumOfNames([x, x, y]);
    SumOfNames([x, y, z]);
    ZNotFound(x, y, z, fuel - 1);
    CollectiveCompares(Sum([x, x, y]), Sum([x, y, z]), SumKind, [x, x, y], [x, y, z], fuel);
    assert AllPlain([x, y, z], fuel - 1);
    AllFound([x, x, y], [x, y, z], fuel - 1);
    AllMembersDecide(Sum([x, y, z]), Sum([x, x, y]), SumKind, [x, y, z], [x, x, y], fuel);
  }

  lemma ZNotFound(x: Expr, y: Expr, z: Expr, fuel: nat)
    requires x.Variable? && y.Variable? && z.Variable? && x != z && y != z && fuel >= 1
    ensures AllMembers([x, y, z], [x, x, y], fuel) == Compared(false)
  {
    assert Member(z, [y], fuel) == Compared(false);
    assert Member(z, [x, y], fuel) == Compared(false);
    assert Member(z, [x, x, y], fuel) == Compared(false);
    assert AllMembers([z], [x, x, y], fuel) == Compared(false);
    assert Member(y, [x, x, y], fuel) == Compared(true) by {
      assert Member(y, [y], fuel) == Compared(true);
      assert Member(y, [x, y], fuel) == Compared(true);
    }
    assert [x, y, z][1..] == [y, z] && [y, z][1..] == [z];
    assert AllMembers([y, z], [x, x, y], fuel) == Compared(false);
    assert Member(x, [x, x, y], fuel) == Compared(true);
  }

  /** A Sum sought in a list is compared by the list's element: the Sum
      `x+y+z` is not in `[x+x+y]`, because `x+x+y == x+y+z` is false. */
  lemma MemberAsksTheElement(x: Expr, y: Expr, z: Expr, fuel: nat)
    requires x.Variable? && y.Variable? && z.Variable? && x != z && y != z && fuel >= 2
    ensures Member(Sum([x, y, z]), [Sum([x, x, y])], fuel) == Compared(false)
  {
    EqualityNotSymmetric(x, y, z, fuel);
  }

  /** `x^2 + y` is already simplified. */
  lemma SumWithSquare(x: Expr, y: Expr, fuel: nat)
    requires x.Variable? && y.Variable? && fuel >= 3
    ensures var p := Power(x, Constant(Int(2)));
      Simp(Sum([p, y]), map[], fuel) == Sum([p, y])
  {
    var p := Power(x, Constant(Int(2)));
    assert Simp(p, map[], fuel - 1) == p;
    assert Simp(y, map[], fuel - 1) == y;
    SimpSumOfPair(p, y, map[], fuel, p, y);
    CombineSumKept([p, y]);
  }

  /** The Power child of `x^2 + y` is not found among the children of its copy. */
  lemma SquareNotFound(x: Expr, y: Expr, fuel: nat)
    requires x.Variable? && y.Variable? && fuel >= 1
    ensures var p := Power(x, Constant(Int(2)));
      AllMembers([p, y], [p, y], fuel) == Compared(false)
  {
    var p := Power(x, Constant(Int(2)));
    assert [p, y][1..] == [y];
    assert Member(p, [y], fuel) == Compared(false);
    assert Member(p, [p, y], fuel) == Compared(false);
    assert Equals(p, y, fuel) == Compared(false);
    assert Member(y, [y], fuel) == Compared(true);
    assert Member(y, [p, y], fuel) == Compared(true);
    assert AllMembers([y], [p, y], fuel) == Compared(true);
  }

  /** A Sum holding a Power does not equal a copy of itself, since the
      Power's membership test compares with None. */
  lemma PowerBreaksSelfEquality(x: Expr, y: Expr, fuel: nat)
    requires x.Variable? && y.Variable? && fuel >= 2
    ensures var s := Sum([Power(x, Constant(Int(2))), y]);
      Equals(s, s, fuel) == Compared(false)
  {
    SumWithSquare(x, y, RecursionLimit());
    SquareNotFound(x, y, fuel - 1);
  }
}

=== FILE: expr.dfy ===
/** The expression tree: one constructor per class of calculator.py
    (Error, Constant, Variable, Log, Sum, Product, Power). Sum and Product
    hold the Python lists `addends` and `multipliers`. */
module Expressions {

  import opened Numbers

  datatype Expr =
    | Error
    | Constant(val: Num)
    | Variable(name: string)
    | Log(base: Expr, argument: Expr)
    | Sum(addends: seq<Expr>)
    | Product(factors: seq<Expr>)
    | Power(base: Expr, exponent: Expr)

  /** The `variables` set each node computes when it is built: the names of
      the variables in its subtree. */
  function FreeVars(e: Expr): set<string>
  {
    match e
    case Error => {}
    case Constant(_) => {}
    case Variable(n) => {n}
    case Log(b, a) => FreeVars(b) + FreeVars(a)
    case Power(b, x) => FreeVars(b) + FreeVars(x)
    case Sum(xs) => set k, v | 0 <= k < |xs| && v in FreeVars(xs[k]) :: v
    case Product(xs) => set k, v | 0 <= k < |xs| && v in FreeVars(xs[k]) :: v
  }

  /** `Constant(math.e)`, the base of every natural logarithm the code builds. */
  const EConst: Expr := Constant(Float(E))

  /** `Constant(-1)`, the exponent of a reciprocal and the factor of a negation. */
  const MinusOne: Expr := Constant(Int(-1))

  /** `Constant(0)` as the code writes it (an int). */
  const Zero: Expr := Constant(Int(0))

  /** `Constant(1)` as the code writes it (an int). */
  const One: Expr := Constant(Int(1))

  /** `type(x) is Constant and x.val == v`. */
  predicate IsConstantValued(x: Expr, v: real)
  {
    x.Constant? && Val(x.val) == v
  }

  /** No Error node anywhere in the tree. */
  predicate NoError(e: Expr)
  {
    match e
    case Error => false
    case Constant(_) => true
    case Variable(_) => true
    case Log(b, a) => NoError(b) && NoError(a)
    case Power(b, x) => NoError(b) && NoError(x)
    case Sum(xs) => forall k :: 0 <= k < |xs| ==> NoError(xs[k])
    case Product(xs) => forall k :: 0 <= k < |xs| ==> NoError(xs[k])
  }

  /** Some Power node anywhere in the tree. */
  predicate HasPower(e: Expr)
  {
    match e
    case Error => false
    case Constant(_) => false
    case Variable(_) => false
    case Log(b, a) => HasPower(b) || HasPower(a)
    case Power(_, _) => true
    case Sum(xs) => exists k :: 0 <= k < |xs| && HasPower(xs[k])
    case Product(xs) => exists k :: 0 <= k < |xs| && HasPower(xs[k])
  }
}

=== FILE: numbers.dfy ===
/** Python numbers as the calculator uses them: an `int` or a `float`
    (a float is modelled by the exact real it stands for), the arithmetic
    that Sum and Product simplification folds with, and decimal literals. */
module Numbers {

  import PyText

  /** A Python number; the tag decides whether `str` prints `2` or `2.0`. */
  datatype Num = Int(i: int) | Float(r: real)

  /** `math.e` and `math.pi`. */
  const E: real := 2.718281828459045
  const PI: real := 3.141592653589793

  function Val(n: Num): real
  {
    match n
    case Int(i) => i as real
    case Float(r) => r
  }

  /** Python `a + b`: int + int stays an int, anything else is a float. */
  function Add(a: Num, b: Num): (r: Num)
    ensures Val(r) == Val(a) + Val(b)
    ensures r.Int? <==> a.Int? && b.Int?
  {
    if a.Int? && b.Int? then Int(a.i + b.i) else Float(Val(a) + Val(b))
  }

  /** Python `a * b`. */
  function Mul(a: Num, b: Num): (r: Num)
    ensures Val(r) == Val(a) * Val(b)
    ensures r.Int? <==> a.Int? && b.Int?
  {
    if a.Int? && b.Int? then Int(a.i * b.i) else Float(Val(a) * Val(b))
  }

  /** Python unary `-a`. */
  function Neg(a: Num): (r: Num)
    ensures Val(r) == -Val(a)
    ensures r.Int? <==> a.Int?
  {
    match a
    case Int(i) => Int(-i)
    case Float(x) => Float(-x)
  }

  /** Python `sum(ns)`: starts from the int 0 and adds left to right. */
  function SumNums(ns: seq<Num>): (r: Num)
    ensures r.Int? <==> forall k :: 0 <= k < |ns| ==> ns[k].Int?
  {
    if ns == [] then Int(0) else Add(SumNums(ns[..|ns| - 1]), ns[|ns| - 1])
  }

  /** Python `math.prod(ns)`: starts from the int 1 and multiplies left to right. */
  function ProdNums(ns: seq<Num>): (r: Num)
    ensures r.Int? <==> forall k :: 0 <= k < |ns| ==> ns[k].Int?
    ensures Val(r) == 0.0 <==> exists k :: 0 <= k < |ns| && Val(ns[k]) == 0.0
  {
    if ns == [] then Int(1)
    else
      var p := ProdNums(ns[..|ns| - 1]);
      assert forall k :: 0 <= k < |ns| - 1 ==> ns[..|ns| - 1][k] == ns[k];
      Mul(p, ns[|ns| - 1])
  }

  /** The exact sum of the values. */
  function ExactSum(ns: seq<Num>): real
  {
    if ns == [] then 0.0 else ExactSum(ns[..|ns| - 1]) + Val(ns[|ns| - 1])
  }

  /** The exact product of the values. */
  function ExactProduct(ns: seq<Num>): real
  {
    if ns == [] then 1.0 else ExactProduct(ns[..|ns| - 1]) * Val(ns[|ns| - 1])
  }

  /** `sum` has the exact sum of the values. */
  lemma {:induction false} SumNumsValue(ns: seq<Num>)
    ensures Val(SumNums(ns)) == ExactSum(ns)
  {
    if ns != [] {
      SumNumsValue(ns[..|ns| - 1]);
    }
  }

  /** `math.prod` has the exact product of the values. */
  lemma {:induction false} ProdNumsValue(ns: seq<Num>)
    ensures Val(ProdNums(ns)) == ExactProduct(ns)
  {
    if ns != [] {
      ProdNumsValue(ns[..|ns| - 1]);
    }
  }

  lemma {:induction false} SumOfIntZeros(ns: seq<Num>)
    requires forall k :: 0 <= k < |ns| ==> ns[k] == Int(0)
    ensures SumNums(ns) == Int(0)
  {
    if ns != [] {
      SumOfIntZeros(ns[..|ns| - 1]);
    }
  }

  function IntPow(b: int, k: nat): int
  {
    if k == 0 then 1 else b * IntPow(b, k - 1)
  }

  function RealPow(b: real, k: nat): (r: real)
    ensures b != 0.0 ==> r != 0.0
  {
    if k == 0 then 1.0 else b * RealPow(b, k - 1)
  }

  lemma {:induction false} IntPowIsRealPow(b: int, k: nat)
    ensures IntPow(b, k) as real == RealPow(b as real, k)
  {
    if k > 0 {
      IntPowIsRealPow(b, k - 1);
    }
  }

  predicate IsIntegral(x: real)
  {
    x.Floor as real == x
  }

  /** What `b ** x` does when both are constants.  `Undefined` is Python's
      ZeroDivisionError (zero to a negative power); `NotFolded` is every case
      the model does not evaluate (a non-integral exponent). */
  datatype PowOutcome = Folded(n: Num) | Undefined | NotFolded

  function Pow(b: Num, x: Num): (o: PowOutcome)
    ensures o.Folded? ==> IsIntegral(Val(x))
    ensures o.Undefined? <==> IsIntegral(Val(x)) && Val(x) < 0.0 && Val(b) == 0.0
    ensures o.Folded? && b.Int? && x.Int? && x.i >= 0 ==> o.n == Int(IntPow(b.i, x.i))
    ensures o.Folded? ==> (o.n.Int? <==> b.Int? && x.Int? && x.i >= 0)
  {
    if !IsIntegral(Val(x)) then NotFolded
    else
      var k := Val(x).Floor;
      if k >= 0 then
        if b.Int? && x.Int? then
          IntPowIsRealPow(b.i, k);
          Folded(Int(IntPow(b.i, k)))
        else Folded(Float(RealPow(Val(b), k)))
      else if Val(b) == 0.0 then Undefined
      else Folded(Float(1.0 / RealPow(Val(b), -k)))
  }

  /** `b ** x` is folded exactly when the exponent is integral, and then it
      is the power of the base, or for a negative exponent the reciprocal of
      the power. */
  lemma PowValue(b: Num, x: Num)
    ensures Pow(b, x).NotFolded? <==> !IsIntegral(Val(x))
    ensures var o := Pow(b, x); o.Folded? && Val(x) >= 0.0 ==> Val(o.n) == RealPow(Val(b), Val(x).Floor)
    ensures var o := Pow(b, x); o.Folded? && Val(x) < 0.0 ==> Val(o.n) * RealPow(Val(b), -Val(x).Floor) == 1.0
  {
    if IsIntegral(Val(x)) && Val(x).Floor >= 0 && b.Int? && x.Int? {
      IntPowIsRealPow(b.i, Val(x).Floor);
    }
  }

  // ---------------------------------------------------------------------
  // Decimal text

  predicate IsDigit(c: char)
  {
    '0' <= c <= '9'
  }

  predicate IsDigits(s: string)
  {
    forall k :: 0 <= k < |s| ==> IsDigit(s[k])
  }

  function DigitValue(c: char): nat
    requires IsDigit(c)
  {
    (c as int - '0' as int) as nat
  }

  function DigitChar(d: nat): (c: char)
    requires d < 10
    ensures IsDigit(c) && DigitValue(c) == d
  {
    ('0' as int + d) as char
  }

  /** The value of a run of decimal digits, most significant first. */
  function DigitsValue(s: string): nat
    requires IsDigits(s)
  {
    if s == [] then 0 else 10 * DigitsValue(s[..|s| - 1]) + DigitValue(s[|s| - 1])
  }

  /** Python `str` of a non-negative int. */
  function NatToString(n: nat): (s: string)
    ensures |s| > 0 && IsDigits(s)
  {
    if n < 10 then [DigitChar(n)] else NatToString(n / 10) + [DigitChar(n % 10)]
  }

  /** Python `str` of an int. */
  function IntToString(i: int): string
  {
    if i < 0 then "-" + NatToString(-i) else NatToString(i)
  }

  lemma {:induction false} NatToStringValue(n: nat)
    ensures DigitsValue(NatToString(n)) == n
  {
    var s := NatToString(n);
    if n >= 10 {
      NatToStringValue(n / 10);
      assert s[..|s| - 1] == NatToString(n / 10);
    }
  }

  /** Text `int()` accepts, as far as it is modelled: an optional sign and
      one or more ASCII digits. */
  predicate IsIntLiteral(s: string)
  {
    if |s| > 0 && (s[0] == '-' || s[0] == '+') then |s| > 1 && IsDigits(s[1..])
    else |s| > 0 && IsDigits(s)
  }

  function IntLiteralValue(s: string): int
    requires IsIntLiteral(s)
  {
    if s[0] == '-' then -(DigitsValue(s[1..]) as int)
    else if s[0] == '+' then DigitsValue(s[1..])
    else DigitsValue(s)
  }

  /** `int(str(i)) == i`: rendering an int constant and reading it back
      as a literal gives the same number. */
  lemma IntLiteralRoundTrip(i: int)
    ensures IsIntLiteral(IntToString(i)) && IntLiteralValue(IntToString(i)) == i
  {
    var s := IntToString(i);
    if i < 0 {
      assert s[1..] == NatToString(-i);
      NatToStringValue(-i);
    } else {
      NatToStringValue(i);
    }
  }

  /** Text `float()` accepts, as far as it is modelled: an optional sign,
      digits, one decimal point, digits, with at least one digit. */
  predicate IsFloatLiteral(s: string)
  {
    var body := Unsigned(s);
    var p := PyText.Find(body, '.');
    0 <= p && |body| > 1 && IsDigits(body[..p]) && IsDigits(body[p + 1..])
  }

  /** The text after an optional leading sign. */
  function Unsigned(s: string): string
  {
    if |s| > 0 && (s[0] == '-' || s[0] == '+') then s[1..] else s
  }

  function Pow10(k: nat): (r: real)
    ensures r > 0.0
  {
    if k == 0 then 1.0 else 10.0 * Pow10(k - 1)
  }

  function FloatLiteralValue(s: string): real
    requires IsFloatLiteral(s)
  {
    var body := Unsigned(s);
    var p := PyText.Find(body, '.');
    var frac := body[p + 1..];
    var v := DigitsValue(body[..p]) as real + DigitsValue(frac) as real / Pow10(|frac|);
    if s[0] == '-' then -v else v
  }
}

=== FILE: parse_props.dfy ===
/** What `parse` builds: binary nodes without Error inside, splits at the
    rightmost operator of the weakest level (so every operator associates
    to the left), and the leaf forms in the order the source tries them. */
module ParserProperties {

  import opened Numbers
  import opened PyText
  import opened Expressions
  import opened Parser

  /** A tree as `parse` builds it: every Sum and Product has exactly two
      children, and no Error occurs inside. */
  predicate Parsed(e: Expr)
  {
    match e
    case Error => false
    case Constant(_) => true
    case Variable(_) => true
    case Log(b, a) => Parsed(b) && Parsed(a)
    case Power(b, x) => Parsed(b) && Parsed(x)
    case Sum(xs) => |xs| == 2 && Parsed(xs[0]) && Parsed(xs[1])
    case Product(xs) => |xs| == 2 && Parsed(xs[0]) && Parsed(xs[1])
  }

  lemma CombineParsed(level: Level, op: char, left: Expr, right: Expr)
    requires left.Error? || Parsed(left)
    requires right.Error? || Parsed(right)
    ensures var r := Combine(level, op, left, right); r.Error? || Parsed(r)
  {
    if !left.Error? && !right.Error? {
      assert Parsed(Product([MinusOne, right]));
      assert Parsed(Power(right, MinusOne));
    }
  }

  /** `parse` returns Error or a tree of binary nodes without Error inside. */
  lemma {:induction false} ParseShape(s: string)
    ensures Parse(s).Error? || Parsed(Parse(s))
    decreases |s|, 5, 0
  {
    if |s| > 0 {
      ParseAtShape(s, Additive);
    }
  }

  lemma {:induction false} ParseAtShape(s: string, level: Level)
    requires |s| > 0
    ensures ParseAt(s, level).Error? || Parsed(ParseAt(s, level))
    decreases |s|, Rank(level), 0
  {
    match Scan(s, level)
    case Crashed =>
    case SplitAt(k) =>
      if k != -1 {
        ParseShape(Slice(s, 0, k));
        ParseShape(Slice(s, k + 1, |s|));
        CombineParsed(level, At(s, k), Parse(Slice(s, 0, k)), Parse(Slice(s, k + 1, |s|)));
      }
    case NoSplit =>
      match level
      case Additive => ParseAtShape(s, Multiplicative);
      case Multiplicative => ParseAtShape(s, Exponential);
      case Exponential => ParseLeafShape(s);
  }

  lemma {:induction false} ParseLeafShape(s: string)
    requires |s| > 0
    ensures ParseLeaf(s).Error? || Parsed(ParseLeaf(s))
    decreases |s|, 1, 1
  {
    if s[0] == '(' && s[|s| - 1] == ')' {
      ParenLeafShape(s);
    } else if !IsIntLiteral(s) && !IsFloatLiteral(s) && (StartsWith(s, "ln") || StartsWith(s, "log")) {
      LogLeafShape(s);
    } else {
      PlainLeafShape(s);
    }
  }

  lemma {:induction false} ParenLeafShape(s: string)
    requires |s| > 0 && s[0] == '(' && s[|s| - 1] == ')'
    ensures ParseLeaf(s).Error? || Parsed(ParseLeaf(s))
    decreases |s|, 1, 0
  {
    ParseShape(s[1..|s| - 1]);
  }

  lemma {:induction false} LogLeafShape(s: string)
    requires |s| > 0 && !(s[0] == '(' && s[|s| - 1] == ')')
    requires !IsIntLiteral(s) && !IsFloatLiteral(s) && (StartsWith(s, "ln") || StartsWith(s, "log"))
    ensures ParseLeaf(s).Error? || Parsed(ParseLeaf(s))
    decreases |s|, 1, 0
  {
    ParseLogShape(s);
  }

  /** The remaining leaf forms are constants and variables. */
  lemma PlainLeafShape(s: string)
    requires |s| > 0 && !(s[0] == '(' && s[|s| - 1] == ')')
    requires IsIntLiteral(s) || IsFloatLiteral(s) || !(StartsWith(s, "ln") || StartsWith(s, "log"))
    ensures ParseLeaf(s).Error? || Parsed(ParseLeaf(s))
  {
    if IsIntLiteral(s) {
      IntLeaf(s);
    } else if IsFloatLiteral(s) {
      FloatLeaf(s);
    } else {
      NameLeaf(s);
    }
  }

  lemma IntLeaf(s: string)
    requires |s| > 0 && !(s[0] == '(' && s[|s| - 1] == ')') && IsIntLiteral(s)
    ensures ParseLeaf(s) == Constant(Int(IntLiteralValue(s)))
  {
  }

  lemma FloatLeaf(s: string)
    requires |s| > 0 && !(s[0] == '(' && s[|s| - 1] == ')') && !IsIntLiteral(s) && IsFloatLiteral(s)
    ensures ParseLeaf(s) == Constant(Float(FloatLiteralValue(s)))
  {
  }

  lemma NameLeaf(s: string)
    requires |s| > 0 && !(s[0] == '(' && s[|s| - 1] == ')') && !IsIntLiteral(s) && !IsFloatLiteral(s)
    requires !(StartsWith(s, "ln") || StartsWith(s, "log"))
    ensures ParseLeaf(s).Constant? || ParseLeaf(s).Variable?
  {
    assert ParseLeaf(s) == if s == "e" then EConst else if s == "pi" then Constant(Float(PI)) else Variable(s);
  }

  lemma {:induction false} ParseLogShape(s: string)
    requires |s| > 0
    ensures ParseLog(s).Error? || Parsed(ParseLog(s))
    decreases |s|, 0, 0
  {
    var argStart := Find(s, '(') + 1;
    if StartsWith(s, "ln") || (|s| > 3 && s[3] != '_') {
      ParseShape(Slice(s, argStart, -1));
    } else if |s| > 4 && s[4] == '(' {
      var end := FindFrom(s, ')', 4);
      ParseShape(Slice(s, 5, end));
      ParseShape(Slice(s, end + 1, -1));
    } else if |s| > 4 {
      var end := Find(s, '(');
      ParseShape(Slice(s, 4, end));
      ParseShape(Slice(s, end + 1, -1));
    }
  }

  // ---------------------------------------------------------------------
  // Text without a closing parenthesis

  /** No `)`: no scan jumps over anything. */
  predicate NoClosing(s: string)
  {
    forall k :: 0 <= k < |s| ==> s[k] != ')'
  }

  /** No operator of `level` anywhere in `s`. */
  predicate NoOpOf(s: string, level: Level)
  {
    forall q :: 0 <= q < |s| ==> !IsSplitOp(level, s[q], q)
  }

  /** The levels tried before `level` found nothing. */
  predicate EarlierLevelsEmpty(s: string, level: Level)
  {
    (level != Additive ==> NoOpOf(s, Additive)) &&
    (level == Exponential ==> NoOpOf(s, Multiplicative))
  }

  /** In text without `)`, `parse` splits at the rightmost operator
      of the first level that has one; the left operand keeps every other
      operator of that level, so the operators associate to the left. */
  lemma SplitWithoutParens(s: string, level: Level, p: nat)
    requires NoClosing(s)
    requires p < |s| && IsSplitOp(level, s[p], p)
    requires forall q :: p < q < |s| ==> !IsSplitOp(level, s[q], q)
    requires EarlierLevelsEmpty(s, level)
    ensures Parse(s) == Combine(level, s[p], Parse(s[..p]), Parse(s[p + 1..]))
  {
    RightmostSplit(s, level, p);
    SplitParts(s, level, p);
    FirstLevels(s, level);
  }

  /** Without `)`, the scan of a level stops at its rightmost operator. */
  lemma RightmostSplit(s: string, level: Level, p: nat)
    requires NoClosing(s)
    requires p < |s| && IsSplitOp(level, s[p], p)
    requires forall q :: p < q < |s| ==> !IsSplitOp(level, s[q], q)
    ensures Scan(s, level) == SplitAt(p)
  {
    ScanWithoutParens(s, level);
  }

  /** A scan that stops at `p` splits the text around `p`. */
  lemma SplitParts(s: string, level: Level, p: nat)
    requires p < |s| && Scan(s, level) == SplitAt(p)
    ensures ParseAt(s, level) == Combine(level, s[p], Parse(s[..p]), Parse(s[p + 1..]))
  {
    assert Slice(s, 0, p) == s[..p];
    assert Slice(s, p + 1, |s|) == s[p + 1..];
    assert At(s, p) == s[p];
  }

  /** Without `)`, `parse` reaches the first level that has an operator. */
  lemma FirstLevels(s: string, level: Level)
    requires |s| > 0 && NoClosing(s) && EarlierLevelsEmpty(s, level)
    ensures Parse(s) == ParseAt(s, level)
  {
    match level
    case Additive =>
    case Multiplicative =>
      ScanWithoutParens(s, Additive);
    case Exponential =>
      ScanWithoutParens(s, Additive);
      ScanWithoutParens(s, Multiplicative);
      assert ParseAt(s, Multiplicative) == ParseAt(s, Exponential);
  }

  /** Text without `)` and without operators is a leaf. */
  lemma LeafWithoutParens(s: string)
    requires |s| > 0 && NoClosing(s)
    requires NoOpOf(s, Additive) && NoOpOf(s, Multiplicative) && NoOpOf(s, Exponential)
    ensures Parse(s) == ParseLeaf(s)
  {
    ScanWithoutParens(s, Additive);
    ScanWithoutParens(s, Multiplicative);
    ScanWithoutParens(s, Exponential);
    assert ParseAt(s, Multiplicative) == ParseLeaf(s);
  }

  // ---------------------------------------------------------------------
  // Names and integer literals

  predicate IsLetter(c: char)
  {
    'a' <= c <= 'z' || 'A' <= c <= 'Z'
  }

  /** A variable name `parse` reads back as that variable: letters only, and
      not one of the words the leaf forms take first. */
  predicate PlainName(n: string)
  {
    |n| > 0 && (forall k :: 0 <= k < |n| ==> IsLetter(n[k])) &&
    n != "e" && n != "pi" && !StartsWith(n, "ln") && !StartsWith(n, "log")
  }

  /** A plain name parses to the variable of that name. */
  lemma ParseName(n: string)
    requires PlainName(n)
    ensures Parse(n) == Variable(n)
  {
    LeafWithoutParens(n);
    assert !IsDigit(n[0]) && n[0] != '-' && n[0] != '+';
    assert Find(n, '.') == -1;
  }

  /** `str(int)` parses back to the same integer constant. */
  lemma ParseIntLiteral(i: int)
    ensures Parse(IntToString(i)) == Constant(Int(i))
  {
    var s := IntToString(i);
    IntLiteralRoundTrip(i);
    assert forall k :: 1 <= k < |s| ==> IsDigit(s[k]);
    assert forall k :: 0 <= k < |s| ==> IsDigit(s[k]) || (k == 0 && s[k] == '-');
    LeafWithoutParens(s);
  }

  // ---------------------------------------------------------------------
  // Examples

  /** Text made of letters and digits only: no operator, no parenthesis. */
  predicate Alphanumeric(t: string)
  {
    forall k :: 0 <= k < |t| ==> IsLetter(t[k]) || IsDigit(t[k])
  }

  /** `l` op `r` with alphanumeric operands splits at the operator. */
  lemma ParseBinary(l: string, op: char, r: string, level: Level)
    requires |l| > 0 && Alphanumeric(l) && Alphanumeric(r)
    requires IsSplitOp(level, op, |l|)
    ensures Parse(l + [op] + r) == Combine(level, op, Parse(l), Parse(r))
  {
    var s := l + [op] + r;
    assert s[..|l|] == l && s[|l| + 1..] == r;
    assert forall q :: 0 <= q < |s| && q != |l| ==> IsLetter(s[q]) || IsDigit(s[q]);
    SplitWithoutParens(s, level, |l|);
  }

  /** An outer pair of parentheses around text without parentheses is
      stripped: every scan jumps from the last `)` to the first `(`. */
  lemma ParseWrapped(m: string)
    requires forall k :: 0 <= k < |m| ==> m[k] != '(' && m[k] != ')'
    ensures Parse("(" + m + ")") == Parse(m)
  {
    var t := "(" + m + ")";
    WrappedScan(m, Additive);
    WrappedScan(m, Multiplicative);
    WrappedScan(m, Exponential);
    assert ParseAt(t, Multiplicative) == ParseLeaf(t);
    assert t[1..|t| - 1] == m;
  }

  /** Every scan of `(m)` jumps from the last `)` to the first `(` and finds
      no operator. */
  lemma WrappedScan(m: string, level: Level)
    requires forall k :: 0 <= k < |m| ==> m[k] != '(' && m[k] != ')'
    ensures Scan("(" + m + ")", level) == NoSplit
  {
    var t := "(" + m + ")";
    assert t[0] == '(' && forall j :: 1 <= j < |t| - 1 ==> t[j] == m[j - 1];
    assert RFind(t, '(', |t| - 1) == 0;
    assert SkipGroups(t, |t| - 1) == Landed(-1);
    assert At(t, -1) == ')' && !IsSplitOp(level, ')', -1);
    assert ScanFrom(t, level, |t| - 1) == ScanFrom(t, level, -2);
  }

  /** Two operators of one level: the rightmost splits first, so
      `l op1 m op2 r` is `(l op1 m) op2 r`. */
  lemma LeftAssociative(l: string, op1: char, m: string, op2: char, r: string, level: Level)
    requires |l| > 0 && |m| > 0 && Alphanumeric(l) && Alphanumeric(m) && Alphanumeric(r)
    requires IsSplitOp(level, op1, |l|) && IsSplitOp(level, op2, |l| + 1 + |m|)
    ensures Parse(l + [op1] + m + [op2] + r) ==
            Combine(level, op2, Combine(level, op1, Parse(l), Parse(m)), Parse(r))
  {
    var s := l + [op1] + m + [op2] + r;
    var p := |l| + 1 + |m|;
    assert s[..p] == l + [op1] + m && s[p + 1..] == r;
    assert forall q :: 0 <= q < |s| && q != |l| && q != p ==> IsLetter(s[q]) || IsDigit(s[q]);
    SplitWithoutParens(s, level, p);
    ParseBinary(l, op1, m, level);
  }

  /** `a^b^c` is `(a^b)^c`, for any plain names. */
  lemma PowerAssociatesLeft(a: string, b: string, c: string)
    requires PlainName(a) && PlainName(b) && PlainName(c)
    ensures Parse(a + "^" + b + "^" + c) == Power(Power(Variable(a), Variable(b)), Variable(c))
  {
    LeftAssociative(a, '^', b, '^', c, Exponential);
    ParseName(a);
    ParseName(b);
    ParseName(c);
  }

  /** `a-b-c` is `(a + -1*b) + -1*c`, for any plain names. */
  lemma MinusAssociatesLeft(a: string, b: string, c: string)
    requires PlainName(a) && PlainName(b) && PlainName(c)
    ensures Parse(a + "-" + b + "-" + c) ==
      Sum([Sum([Variable(a), Product([MinusOne, Variable(b)])]), Product([MinusOne, Variable(c)])])
  {
    LeftAssociative(a, '-', b, '-', c, Additive);
    ParseName(a);
    ParseName(b);
    ParseName(c);
  }

  /** `a/b` is `a * b^-1`, for any plain names. */
  lemma DivisionIsReciprocal(a: string, b: string)
    requires PlainName(a) && PlainName(b)
    ensures Parse(a + "/" + b) == Product([Variable(a), Power(Variable(b), MinusOne)])
  {
    ParseBinary(a, '/', b, Multiplicative);
    ParseName(a);
    ParseName(b);
  }

  /** `+`/`-` are split before `*`/`/`: `l op1 m op2 r` with an additive
      `op1` and a multiplicative `op2` is `l op1 (m op2 r)`. */
  lemma TimesBindsTighter(l: string, op1: char, m: string, op2: char, r: string)
    requires |l| > 0 && |m| > 0 && Alphanumeric(l) && Alphanumeric(m) && Alphanumeric(r)
    requires IsSplitOp(Additive, op1, |l|) && IsSplitOp(Multiplicative, op2, |m|)
    ensures Parse(l + [op1] + m + [op2] + r) ==
            Combine(Additive, op1, Parse(l), Combine(Multiplicative, op2, Parse(m), Parse(r)))
  {
    var s := l + [op1] + m + [op2] + r;
    var p := |l|;
    assert s[..p] == l && s[p + 1..] == m + [op2] + r;
    assert forall q :: 0 <= q < |s| && q != |l| && q != p + 1 + |m| ==> IsLetter(s[q]) || IsDigit(s[q]);
    SplitWithoutParens(s, Additive, p);
    ParseBinary(m, op2, r, Multiplicative);
  }

  /** `ln(n)` is the natural logarithm of the variable `n`. */
  lemma ParseLn(n: string)
    requires PlainName(n)
    ensures Parse("ln(" + n + ")") == Log(EConst, Variable(n))
  {
    var m := n;
    assert forall k :: 0 <= k < |m| ==> m[k] != '(' && m[k] != ')';
    ParseLnText(m);
    ParseName(n);
  }

  /** `ln(m)` with no parenthesis inside `m` is the natural logarithm of
      `m`. */
  lemma ParseLnText(m: string)
    requires |m| > 0 && forall k :: 0 <= k < |m| ==> m[k] != '(' && m[k] != ')'
    ensures Parse("ln(" + m + ")") == LogNode(EConst, Parse(m))
  {
    var t := "ln(" + m + ")";
    LnTextIsLeaf(m, t);
    LnTextIsLog(t);
    LnTextOperand(m, t);
  }

  /** Text starting with `ln` is no literal and is read as a logarithm. */
  lemma LnTextIsLog(t: string)
    requires |t| >= 2 && t[0] == 'l' && t[1] == 'n'
    ensures ParseLeaf(t) == ParseLog(t)
  {
    NoLiteral(t);
    assert t[..2] == "ln";
  }

  /** Text that starts with something other than a sign, a digit or a
      point is neither an int nor a float literal. */
  lemma NoLiteral(t: string)
    requires |t| > 0 && !IsDigit(t[0]) && t[0] != '-' && t[0] != '+' && t[0] != '.'
    ensures !IsIntLiteral(t) && !IsFloatLiteral(t)
  {
    assert Unsigned(t) == t;
    var p := PyText.Find(t, '.');
    if 0 < p {
      assert t[..p][0] == t[0];
    }
  }

  /** The scans jump from the `)` to the `(` and find only `ln`. */
  lemma LnTextIsLeaf(m: string, t: string)
    requires forall k :: 0 <= k < |m| ==> m[k] != '(' && m[k] != ')'
    requires t == "ln(" + m + ")"
    ensures Parse(t) == ParseLeaf(t)
  {
    assert t[0] == 'l' && t[1] == 'n' && t[2] == '(';
    assert forall j :: 3 <= j < |t| - 1 ==> t[j] == m[j - 3];
    assert RFind(t, '(', |t| - 1) == 2;
    assert SkipGroups(t, |t| - 1) == Landed(1);
    LeafAfterJump(t, 1);
  }

  lemma LnTextOperand(m: string, t: string)
    requires forall k :: 0 <= k < |m| ==> m[k] != '(' && m[k] != ')'
    requires t == "ln(" + m + ")"
    ensures ParseLog(t) == LogNode(EConst, Parse(m))
  {
    assert t[0] == 'l' && t[1] == 'n' && t[2] == '(';
    assert StartsWith(t, "ln");
    assert Find(t, '(') == 2;
    assert Slice(t, 3, -1) == t[3..|t| - 1] == m;
  }

  /** `log(m)` with no parenthesis inside `m` is the logarithm of `m` to
      base 10. */
  lemma ParseLogText(m: string)
    requires |m| > 0 && forall k :: 0 <= k < |m| ==> m[k] != '(' && m[k] != ')'
    ensures Parse("log(" + m + ")") == LogNode(Constant(Int(10)), Parse(m))
  {
    var t := "log(" + m + ")";
    LogTextIsLeafOf(m, t);
    LogPrefixIsLog(t);
    LogTenOperand(m, t);
  }

  /** Text starting with `log` is no literal and is read as a logarithm. */
  lemma LogPrefixIsLog(t: string)
    requires |t| >= 3 && t[0] == 'l' && t[1] == 'o' && t[2] == 'g'
    ensures ParseLeaf(t) == ParseLog(t)
  {
    NoLiteral(t);
    assert t[..3] == "log";
  }

  /** The scans jump from the `)` to the `(` and find only `log`. */
  lemma LogTextIsLeafOf(m: string, t: string)
    requires forall k :: 0 <= k < |m| ==> m[k] != '(' && m[k] != ')'
    requires t == "log(" + m + ")"
    ensures Parse(t) == ParseLeaf(t)
  {
    assert t[0] == 'l' && t[1] == 'o' && t[2] == 'g' && t[3] == '(';
    assert forall j :: 4 <= j < |t| - 1 ==> t[j] == m[j - 4];
    assert RFind(t, '(', |t| - 1) == 3;
    assert SkipGroups(t, |t| - 1) == Landed(2);
    LeafAfterJump(t, 2);
  }

  lemma LogTenOperand(m: string, t: string)
    requires forall k :: 0 <= k < |m| ==> m[k] != '(' && m[k] != ')'
    requires t == "log(" + m + ")"
    ensures ParseLog(t) == LogNode(Constant(Int(10)), Parse(m))
  {
    assert t[0] == 'l' && t[1] == 'o' && t[2] == 'g' && t[3] == '(';
    assert !StartsWith(t, "ln");
    assert Find(t, '(') == 3;
    assert Slice(t, 4, -1) == t[4..|t| - 1] == m;
  }

  /** `log_c(m)` with a base `c` of letters and digits and no parenthesis
      inside `m`: the logarithm of `m` to base `c`. */
  lemma ParseLogCText(c: string, m: string)
    requires |c| > 0 && Alphanumeric(c)
    requires |m| > 0 && forall k :: 0 <= k < |m| ==> m[k] != '(' && m[k] != ')'
    ensures Parse("log_" + c + "(" + m + ")") == LogNode(Parse(c), Parse(m))
  {
    var t := "log_" + c + "(" + m + ")";
    LogCTextIsLog(c, m, t);
    LogBaseOperands(c, m, t);
  }

  lemma LogBaseOperands(c: string, m: string, t: string)
    requires |c| > 0 && Alphanumeric(c)
    requires forall k :: 0 <= k < |m| ==> m[k] != '(' && m[k] != ')'
    requires t == "log_" + c + "(" + m + ")"
    ensures ParseLog(t) == LogNode(Parse(c), Parse(m))
  {
    var open := 4 + |c|;
    assert t[0] == 'l' && t[1] == 'o' && t[2] == 'g' && t[3] == '_' && t[4] == c[0];
    assert !StartsWith(t, "ln");
    assert forall j :: 4 <= j < open ==> t[j] == c[j - 4];
    assert t[open] == '(';
    assert Find(t, '(') == open;
    assert t[4..open] == c;
    assert Slice(t, 4, open) == c;
    assert Slice(t, open + 1, -1) == t[open + 1..|t| - 1] == m;
  }

  /** `log_c(m)` is read as a logarithm as a whole. */
  lemma LogCTextIsLog(c: string, m: string, t: string)
    requires |c| > 0 && Alphanumeric(c)
    requires forall k :: 0 <= k < |m| ==> m[k] != '(' && m[k] != ')'
    requires t == "log_" + c + "(" + m + ")"
    ensures Parse(t) == ParseLog(t)
  {
    LogCTextIsLeaf(c, m, t);
    assert t[0] == 'l' && t[1] == 'o' && t[2] == 'g';
    LogPrefixIsLog(t);
  }

  /** The scans jump from the `)` to the `(` and find only `log_c`. */
  lemma LogCTextIsLeaf(c: string, m: string, t: string)
    requires |c| > 0 && Alphanumeric(c)
    requires forall k :: 0 <= k < |m| ==> m[k] != '(' && m[k] != ')'
    requires t == "log_" + c + "(" + m + ")"
    ensures Parse(t) == ParseLeaf(t)
  {
    LogCTextJump(c, m, t);
    LeafAfterJump(t, 3 + |c|);
  }

  /** A text whose final `)` sends the scans to a stretch of letters, digits
      and `_` is split by no scan. */
  lemma LeafAfterJump(t: string, j: int)
    requires 0 <= j < |t| && SkipGroups(t, |t| - 1) == Landed(j)
    requires forall k :: 0 <= k <= j ==> IsLetter(t[k]) || IsDigit(t[k]) || t[k] == '_'
    ensures Parse(t) == ParseLeaf(t)
  {
    assert SkipGroups(t, j) == Landed(j);
    forall level: Level
      ensures Scan(t, level) == NoSplit
    {
      NoOperatorNoSplit(t, level, j);
    }
    assert ParseAt(t, Multiplicative) == ParseLeaf(t);
  }

  /** From the final `)` the scans jump to the `(` after the base, and all
      that lies before it is letters, digits and `_`. */
  lemma LogCTextJump(c: string, m: string, t: string)
    requires |c| > 0 && Alphanumeric(c)
    requires forall k :: 0 <= k < |m| ==> m[k] != '(' && m[k] != ')'
    requires t == "log_" + c + "(" + m + ")"
    ensures SkipGroups(t, |t| - 1) == Landed(3 + |c|)
    ensures forall k :: 0 <= k < 4 + |c| ==> IsLetter(t[k]) || IsDigit(t[k]) || t[k] == '_'
  {
    var open := 4 + |c|;
    assert forall j :: 4 <= j < open ==> t[j] == c[j - 4];
    assert forall j :: open < j < |t| - 1 ==> t[j] == m[j - open - 1];
    assert t[open] == '(';
    assert RFind(t, '(', |t| - 1) == open;
  }

  /** A scan over a stretch of letters, digits and `_` finds nothing. */
  lemma {:induction false} NoOperatorNoSplit(s: string, level: Level, i: int)
    requires i < |s|
    requires forall k :: 0 <= k <= i ==> IsLetter(s[k]) || IsDigit(s[k]) || s[k] == '_'
    ensures ScanFrom(s, level, i) == NoSplit
    decreases i + 3
  {
    if i >= 0 {
      assert SkipGroups(s, i) == Landed(i);
      NoOperatorNoSplit(s, level, i - 1);
    }
  }

  /** `e` is the constant `math.e`. */
  lemma ParseE()
    ensures Parse("e") == EConst
  {
    var t := "e";
    LeafWithoutParens(t);
    NoLiteral(t);
  }

  /** `pi` is the constant `math.pi`. */
  lemma ParsePi()
    ensures Parse("pi") == Constant(Float(PI))
  {
    var t := "pi";
    LeafWithoutParens(t);
    NoLiteral(t);
  }

  /** A float literal without a leading `+` parses to its value; a leading
      `+` is a split point with nothing on its left. */
  lemma ParseFloatLiteral(s: string)
    requires IsFloatLiteral(s) && s[0] != '+'
    ensures Parse(s) == Constant(Float(FloatLiteralValue(s)))
  {
    FloatLiteralText(s);
    assert NoClosing(s);
    assert NoOpOf(s, Additive) && NoOpOf(s, Multiplicative) && NoOpOf(s, Exponential);
    LeafWithoutParens(s);
    FloatLeaf(s);
  }

  /** A float literal is digits and one point after an optional sign, so it
      is no int literal. */
  lemma FloatLiteralText(s: string)
    requires IsFloatLiteral(s)
    ensures forall k :: 0 <= k < |s| ==> s[k] == '.' || IsDigit(s[k]) || (k == 0 && (s[k] == '-' || s[k] == '+'))
    ensures !IsIntLiteral(s)
  {
    var body := Unsigned(s);
    var p := PyText.Find(body, '.');
    var d := |s| - |body|;
    forall k | 0 <= k < |body|
      ensures body[k] == '.' || IsDigit(body[k])
    {
      if k < p {
        assert body[..p][k] == body[k];
      } else if k > p {
        assert body[p + 1..][k - p - 1] == body[k];
      }
    }
    assert forall k :: d <= k < |s| ==> s[k] == body[k - d];
    if d == 1 {
      assert s[1..] == body && !IsDigits(body);
    } else {
      assert s == body && !IsDigits(body);
    }
  }

  /** A leading `-` is not an operator: `-5` is a constant... */
  lemma NegativeLiteral()
    ensures Parse("-5") == Constant(Int(-5))
  {
    ParseIntLiteral(-5);
  }

  /** ...and `-x` a variable named `-x`, for any plain name `x`. */
  lemma NegatedName(n: string)
    requires PlainName(n)
    ensures Parse("-" + n) == Variable("-" + n)
  {
    var s := "-" + n;
    NegatedNameIsLeaf(n, s);
    NegatedNameNoLiteral(n, s);
    assert s[0] == '-';
    LeafName(s);
  }

  lemma NegatedNameIsLeaf(n: string, s: string)
    requires PlainName(n) && s == "-" + n
    ensures Parse(s) == ParseLeaf(s)
  {
    assert NoClosing(s) && NoOpOf(s, Additive) && NoOpOf(s, Multiplicative) && NoOpOf(s, Exponential) by {
      assert forall k :: 1 <= k < |s| ==> s[k] == n[k - 1];
    }
    LeafWithoutParens(s);
  }

  lemma NegatedNameNoLiteral(n: string, s: string)
    requires PlainName(n) && s == "-" + n
    ensures !IsIntLiteral(s) && !IsFloatLiteral(s)
  {
    assert s[1..] == n && Unsigned(s) == n;
    assert !IsDigit(n[0]);
    assert Find(n, '.') == -1;
  }

  /** A leaf that is no literal, no parenthesised group, no logarithm and
      no named constant is a variable of that name. */
  lemma LeafName(s: string)
    requires |s| > 0 && s[0] != '(' && !IsIntLiteral(s) && !IsFloatLiteral(s)
    requires !StartsWith(s, "ln") && !StartsWith(s, "log") && s != "e" && s != "pi"
    ensures ParseLeaf(s) == Variable(s)
  {
  }

  /** An operator without an operand is an error. */
  lemma MissingRightOperand()
    ensures Parse("1+") == Error && Parse("2*") == Error && Parse("x^") == Error
  {
    NoRightOperand("1+", Additive);
    NoRightOperand("2*", Multiplicative);
    NoRightOperand("x^", Exponential);
  }

  /** A two-character text ending in an operator of the first level that
      has one has an empty right operand. */
  lemma NoRightOperand(s: string, level: Level)
    requires |s| == 2 && s[0] != ')' && s[1] != ')' && IsSplitOp(level, s[1], 1)
    requires EarlierLevelsEmpty(s, level)
    ensures Parse(s) == Error
  {
    SplitWithoutParens(s, level, 1);
    assert s[2..] == "";
  }

  /** A `+` at index 0 is a split point, so `+x` has an empty left operand. */
  lemma LeadingPlus()
    ensures Parse("+x") == Error
  {
    SplitWithoutParens("+x", Additive, 0);
  }

  /** Empty parentheses strip to the empty text. */
  lemma EmptyParentheses()
    ensures Parse("()") == Error
  {
  }

  /** The scans jump from the last `)` to the `(` at 7, from the `)` at 6
      to the `(` at 4, and find no operator in `log_`. */
  lemma LogTextIsLeaf(s: string)
    requires s == "log_(2)(x)"
    ensures Parse(s) == ParseLeaf(s)
  {
    assert RFind(s, '(', 9) == 7;
    assert RFind(s, '(', 6) == 4;
    assert SkipGroups(s, 9) == Landed(3);
    forall level: Level
      ensures Scan(s, level) == NoSplit
    {
      ExaminedWithoutParens(s, 3);
      ScanFromIsRightmost(s, level, 3);
      NoParensNoCrash(s, level, 3);
    }
    assert ParseAt(s, Multiplicative) == ParseLeaf(s);
  }

  lemma LogTextIsLog(s: string)
    requires s == "log_(2)(x)"
    ensures ParseLeaf(s) == ParseLog(s)
  {
    assert s[0] == 'l';
    assert Find(s, '.') == -1;
  }

  lemma LogTextOperands(s: string)
    requires s == "log_(2)(x)"
    ensures ParseLog(s) == LogNode(Parse(s[5..6]), Parse(s[7..9]))
  {
    assert s[1] == 'o' && s[3] == '_' && s[4] == '(' && s[5] == '2' && s[6] == ')';
    assert FindFrom(s, ')', 6) == 6;
    assert FindFrom(s, ')', 4) == 6;
    assert Slice(s, 5, 6) == s[5..6];
    assert Slice(s, 7, -1) == s[7..9];
  }

  /** In `log_(B)(A)` the base ends at the first `)` after index 4 and the
      argument text still starts with A's `(`: `log_(2)(x)` is the logarithm
      to base 2 of a variable named `(x`. */
  lemma LogBaseQuirk(s: string)
    requires s == "log_(2)(x)"
    ensures Parse(s) == Log(Constant(Int(2)), Variable("(x"))
  {
    LogTextIsLeaf(s);
    LogTextIsLog(s);
    LogTextOperands(s);
    var b, a := s[5..6], s[7..9];
    assert b == IntToString(2);
    ParseIntLiteral(2);
    UnclosedName(a);
    assert LogNode(Parse(b), Parse(a)) == Log(Constant(Int(2)), Variable("(x"));
  }

  /** `(x` has no closing parenthesis to strip: it is a variable name. */
  lemma UnclosedName(t: string)
    requires t == "(x"
    ensures Parse(t) == Variable(t)
  {
    LeafWithoutParens(t);
    assert t[1] == 'x';
    assert Find(t, '.') == -1;
  }

  /** A lone `(` is not an error either: it is a variable named `(`. */
  lemma LoneOpenParenthesis(t: string)
    requires t == "("
    ensures Parse(t) == Variable(t)
  {
    LeafWithoutParens(t);
    assert Find(t, '.') == -1;
  }
}

=== FILE: parser.dfy ===
/** `parse` (calculator.py:5-83): three right-to-left scans for a top-level
    operator, in precedence order, then the leaf forms. */
module Parser {

  import opened Numbers
  import opened PyText
  import opened Expressions

  /** The three scans: `+`/`-`, then `*`/`/`, then `^`. */
  datatype Level = Additive | Multiplicative | Exponential

  /** Whether the scan of `level` splits at character `c` found at index `i`.
      A `-` at index 0 is not a split point, a `+` at index 0 is. */
  predicate IsSplitOp(level: Level, c: char, i: int)
  {
    match level
    case Additive => c == '+' || (c == '-' && i != 0)
    case Multiplicative => c == '*' || c == '/'
    case Exponential => c == '^'
  }

  /** Where `while expr[i] == ')' and i >= 0: i = expr.rfind("(", 0, i)-1`
      leaves `i`. The loop may leave `i` at -1 or -2; `OutOfRange` is the
      IndexError of `expr[-2]` on a one-character text. */
  datatype Skip = Landed(at: int) | OutOfRange

  function SkipGroups(s: string, i: int): (r: Skip)
    requires -2 <= i < |s|
    ensures r.Landed? ==> -2 <= r.at <= i && -|s| <= r.at
    ensures r.Landed? && r.at >= 0 ==> s[r.at] != ')'
    decreases i + 2
  {
    if i < -|s| then OutOfRange
    else if i >= 0 && s[i] == ')' then SkipGroups(s, RFind(s, '(', i) - 1)
    else Landed(i)
  }

  /** The outcome of one scan. `SplitAt` may carry a negative (Python) index;
      `Crashed` is an IndexError. */
  datatype Split = NoSplit | SplitAt(at: int) | Crashed

  /** The scan loop from index `i` downwards. */
  function ScanFrom(s: string, level: Level, i: int): (r: Split)
    requires i < |s|
    ensures r.SplitAt? ==> -2 <= r.at <= i && -|s| <= r.at && IsSplitOp(level, At(s, r.at), r.at)
    decreases i + 3
  {
    if i < 0 then NoSplit
    else
      match SkipGroups(s, i)
      case OutOfRange => Crashed
      case Landed(j) =>
        if IsSplitOp(level, At(s, j), j) then SplitAt(j) else ScanFrom(s, level, j - 1)
  }

  function Scan(s: string, level: Level): Split
  {
    ScanFrom(s, level, |s| - 1)
  }

  /** The scan loop as the source writes it (calculator.py:9-21, 23-35,
      37-48): an outer loop down the text, an inner loop jumping from a `)`
      to the nearest `(` on its left. */
  method ScanLoop(s: string, level: Level) returns (r: Split)
    ensures r == Scan(s, level)
  {
    var i := |s| - 1;
    while i >= 0
      invariant -3 <= i < |s|
      invariant ScanFrom(s, level, i) == Scan(s, level)
      decreases i + 3
    {
      ghost var top := i;
      while i >= 0 && s[i] == ')'
        invariant -2 <= i <= top
        invariant SkipGroups(s, i) == SkipGroups(s, top)
        decreases i + 2
      {
        SkipJump(s, i);
        i := RFind(s, '(', i) - 1;
      }
      SkipStops(s, i);
      if i < -|s| {
        ScanCrashes(s, level, top);
        return Crashed; // `expr[i]` with i out of range
      }
      ScanLands(s, level, top, i);
      if IsSplitOp(level, At(s, i), i) {
        return SplitAt(i);
      }
      i := i - 1;
    }
    return NoSplit;
  }

  /** At a `)` the skip jumps to just before the nearest `(` on its left. */
  lemma SkipJump(s: string, i: int)
    requires 0 <= i < |s| && s[i] == ')'
    ensures SkipGroups(s, i) == SkipGroups(s, RFind(s, '(', i) - 1)
  {
  }

  /** Off a `)` the skip stops where it is, or fails below the text. */
  lemma SkipStops(s: string, i: int)
    requires -2 <= i < |s| && !(i >= 0 && s[i] == ')')
    ensures SkipGroups(s, i) == if i < -|s| then OutOfRange else Landed(i)
  {
  }

  /** A turn of the scan whose skip runs below the text crashes. */
  lemma ScanCrashes(s: string, level: Level, i: int)
    requires 0 <= i < |s| && SkipGroups(s, i) == OutOfRange
    ensures ScanFrom(s, level, i) == Crashed
  {
  }

  /** A turn of the scan whose skip lands at `j` tests `j`, then goes on below it. */
  lemma ScanLands(s: string, level: Level, i: int, j: int)
    requires 0 <= i < |s| && SkipGroups(s, i) == Landed(j)
    ensures ScanFrom(s, level, i) == if IsSplitOp(level, At(s, j), j) then SplitAt(j) else ScanFrom(s, level, j - 1)
  {
  }

  /** The non-negative indices a scan examines from `i` downwards; the same
      for all three levels. An index inside a parenthesised group that the
      scan jumps over is not examined: these are the "top-level" positions. */
  function Examined(s: string, i: int): (r: set<int>)
    requires i < |s|
    ensures forall k :: k in r ==> 0 <= k <= i
    decreases i + 3
  {
    if i < 0 then {}
    else
      match SkipGroups(s, i)
      case OutOfRange => {}
      case Landed(j) => (if j >= 0 then {j} else {}) + Examined(s, j - 1)
  }

  /** A scan splits at the rightmost examined operator of its level, and it
      splits at a non-negative index whenever there is one. */
  lemma ScanFromIsRightmost(s: string, level: Level, i: int)
    requires i < |s|
    ensures var r := ScanFrom(s, level, i);
      (r.SplitAt? && r.at >= 0 ==>
         r.at in Examined(s, i) && IsSplitOp(level, s[r.at], r.at) &&
         forall p :: p in Examined(s, i) && p > r.at ==> !IsSplitOp(level, s[p], p)) &&
      ((exists p :: p in Examined(s, i) && IsSplitOp(level, s[p], p)) ==> r.SplitAt? && r.at >= 0)
  {
    SplitIsRightmost(s, level, i);
    SplitWhenAny(s, level, i);
  }

  /** A split at a non-negative index is examined, and no examined operator
      of the level lies to its right. */
  lemma {:induction false} SplitIsRightmost(s: string, level: Level, i: int)
    requires i < |s|
    ensures var r := ScanFrom(s, level, i);
      r.SplitAt? && r.at >= 0 ==>
         r.at in Examined(s, i) && IsSplitOp(level, s[r.at], r.at) &&
         forall p :: p in Examined(s, i) && p > r.at ==> !IsSplitOp(level, s[p], p)
    decreases i + 3
  {
    if i >= 0 {
      match SkipGroups(s, i)
      case OutOfRange =>
      case Landed(j) =>
        ScanLands(s, level, i, j);
        ExaminedLands(s, i, j);
        if !IsSplitOp(level, At(s, j), j) {
          SplitIsRightmost(s, level, j - 1);
        }
    }
  }

  /** Whenever an examined index holds an operator of the level, the scan
      splits at a non-negative index. */
  lemma {:induction false} SplitWhenAny(s: string, level: Level, i: int)
    requires i < |s|
    ensures (exists p :: p in Examined(s, i) && IsSplitOp(level, s[p], p)) ==>
      ScanFrom(s, level, i).SplitAt? && ScanFrom(s, level, i).at >= 0
    decreases i + 3
  {
    if exists p :: p in Examined(s, i) && IsSplitOp(level, s[p], p) {
      var p :| p in Examined(s, i) && IsSplitOp(level, s[p], p);
      match SkipGroups(s, i)
      case OutOfRange =>
        assert false;
      case Landed(j) =>
        ScanLands(s, level, i, j);
        ExaminedLands(s, i, j);
        if j < 0 {
          assert false;
        } else if !IsSplitOp(level, At(s, j), j) {
          assert At(s, j) == s[j] && p != j;
          SplitWhenAny(s, level, j - 1);
        }
    }
  }

  /** The examined indices of a turn that lands at `j`: `j` itself, when it
      is not negative, and those below it. */
  lemma ExaminedLands(s: string, i: int, j: int)
    requires 0 <= i < |s| && SkipGroups(s, i) == Landed(j)
    ensures Examined(s, i) == (if j >= 0 then {j} else {}) + Examined(s, j - 1)
  {
  }

  /** Whole-text form: `Scan` returns the rightmost top-level operator of its
      level; `NoSplit` means there is none. */
  lemma ScanIsRightmost(s: string, level: Level)
    ensures var r := Scan(s, level);
      (r.SplitAt? && r.at >= 0 ==>
         r.at in Examined(s, |s| - 1) && IsSplitOp(level, s[r.at], r.at) &&
         forall p :: p in Examined(s, |s| - 1) && p > r.at ==> !IsSplitOp(level, s[p], p)) &&
      (r.NoSplit? ==> forall p :: p in Examined(s, |s| - 1) ==> !IsSplitOp(level, s[p], p))
  {
    ScanFromIsRightmost(s, level, |s| - 1);
  }

  /** Without a `)` nothing is jumped over: every index is examined. */
  lemma {:induction false} ExaminedWithoutParens(s: string, i: int)
    requires i < |s|
    requires forall k :: 0 <= k <= i ==> s[k] != ')'
    ensures forall k :: k in Examined(s, i) <==> 0 <= k <= i
    decreases i + 3
  {
    if i >= 0 {
      assert SkipGroups(s, i) == Landed(i);
      ExaminedWithoutParens(s, i - 1);
    }
  }

  /** In a text without `)` a scan splits at the last operator of its level
      anywhere in the text, and does not split when there is none. */
  lemma ScanWithoutParens(s: string, level: Level)
    requires forall k :: 0 <= k < |s| ==> s[k] != ')'
    ensures var r := Scan(s, level);
      (r.NoSplit? || r.SplitAt?) &&
      (r.SplitAt? ==>
         0 <= r.at < |s| && IsSplitOp(level, s[r.at], r.at) &&
         forall p :: r.at < p < |s| ==> !IsSplitOp(level, s[p], p)) &&
      (r.NoSplit? <==> forall p :: 0 <= p < |s| ==> !IsSplitOp(level, s[p], p))
  {
    ExaminedWithoutParens(s, |s| - 1);
    ScanFromIsRightmost(s, level, |s| - 1);
    NoParensNoCrash(s, level, |s| - 1);
  }

  lemma {:induction false} NoParensNoCrash(s: string, level: Level, i: int)
    requires i < |s|
    requires forall k :: 0 <= k <= i ==> s[k] != ')'
    ensures var r := ScanFrom(s, level, i); r.NoSplit? || (r.SplitAt? && r.at >= 0)
    decreases i + 3
  {
    if i >= 0 {
      assert SkipGroups(s, i) == Landed(i);
      NoParensNoCrash(s, level, i - 1);
    }
  }

  /** `Log(base, arg)`; building a Log over an Error raises (Error has no
      `variables`), which the model reports as Error. */
  function LogNode(b: Expr, a: Expr): (r: Expr)
    ensures r.Error? <==> b.Error? || a.Error?
  {
    if b.Error? || a.Error? then Error else Log(b, a)
  }

  function Rank(level: Level): nat
  {
    match level
    case Additive => 4
    case Multiplicative => 3
    case Exponential => 2
  }

  /** The tree a split builds from its two operands: a `-` negates the right
      operand with a factor -1, a `/` inverts it with an exponent -1. */
  function Combine(level: Level, op: char, left: Expr, right: Expr): (r: Expr)
    ensures r.Error? <==> left.Error? || right.Error?
  {
    if left.Error? || right.Error? then Error
    else
      match level
      case Additive => if op == '-' then Sum([left, Product([MinusOne, right])]) else Sum([left, right])
      case Multiplicative => if op == '/' then Product([left, Power(right, MinusOne)]) else Product([left, right])
      case Exponential => Power(left, right)
  }

  function Parse(s: string): Expr
    decreases |s|, 5
  {
    if |s| == 0 then Error else ParseAt(s, Additive)
  }

  /** One scan of `parse`, and the scans of higher precedence after it. */
  function ParseAt(s: string, level: Level): Expr
    requires |s| > 0
    decreases |s|, Rank(level)
  {
    match Scan(s, level)
    case Crashed => Error
    case SplitAt(k) =>
      if k == -1 then Error // the right operand would be the whole text again
      else Combine(level, At(s, k), Parse(Slice(s, 0, k)), Parse(Slice(s, k + 1, |s|)))
    case NoSplit =>
      match level
      case Additive => ParseAt(s, Multiplicative)
      case Multiplicative => ParseAt(s, Exponential)
      case Exponential => ParseLeaf(s)
  }

  /** The forms tried when no scan splits (calculator.py:51-83). */
  function ParseLeaf(s: string): Expr
    requires |s| > 0
    decreases |s|, 1
  {
    if s[0] == '(' && s[|s| - 1] == ')' then Parse(s[1..|s| - 1])
    else if IsIntLiteral(s) then Constant(Int(IntLiteralValue(s)))
    else if IsFloatLiteral(s) then Constant(Float(FloatLiteralValue(s)))
    else if StartsWith(s, "ln") || StartsWith(s, "log") then ParseLog(s)
    else if s == "e" then EConst
    else if s == "pi" then Constant(Float(PI))
    else Variable(s)
  }

  /** `ln(A)`, `log(A)`, `log_C(A)` and `log_(B)(A)`. */
  function ParseLog(s: string): Expr
    requires |s| > 0
    decreases |s|, 0
  {
    var argStart := Find(s, '(') + 1;
    if StartsWith(s, "ln") then LogNode(EConst, Parse(Slice(s, argStart, -1)))
    else if |s| <= 3 then Error // expr[3] raises IndexError
    else if s[3] != '_' then LogNode(Constant(Int(10)), Parse(Slice(s, argStart, -1)))
    else if |s| <= 4 then Error // expr[4] raises IndexError
    else if s[4] == '(' then
      var end := FindFrom(s, ')', 4);
      LogNode(Parse(Slice(s, 5, end)), Parse(Slice(s, end + 1, -1)))
    else
      var end := Find(s, '(');
      LogNode(Parse(Slice(s, 4, end)), Parse(Slice(s, end + 1, -1)))
  }
}

=== FILE: pytext.dfy ===
/** The Python string operations the parser relies on, with Python's
    conventions: indices may be negative (counted from the end), slices clamp
    their bounds, and searches answer -1 when nothing is found. */
module PyText {

  /** `s[i]` for `-len(s) <= i < len(s)`. */
  function At(s: string, i: int): char
    requires -|s| <= i < |s|
  {
    if i >= 0 then s[i] else s[|s| + i]
  }

  /** Normalises one slice bound the way Python does. */
  function Clamp(n: nat, i: int): (k: nat)
    ensures k <= n
    ensures 0 <= i <= n ==> k == i
    ensures i < 0 && 0 <= n + i ==> k == n + i
    ensures n + i < 0 ==> k == 0
    ensures i > n ==> k == n
  {
    if i < 0 then (if i + n < 0 then 0 else i + n) else if i > n then n else i
  }

  /** `s[lo:hi]`. */
  function Slice(s: string, lo: int, hi: int): (r: string)
    ensures |r| <= |s|
    ensures 0 <= lo <= hi <= |s| ==> r == s[lo..hi]
    ensures |s| > 0 && (lo >= 1 || hi < 0) ==> |r| < |s|
    ensures lo < 0 && lo + |s| > 0 ==> |r| <= -lo
    ensures var a := if lo < 0 then |s| + lo else lo;
      var b := if hi < 0 then |s| + hi else hi;
      0 <= a <= b <= |s| ==> r == s[a..b]
    ensures Clamp(|s|, hi) <= Clamp(|s|, lo) <==> r == ""
  {
    var a := Clamp(|s|, lo);
    var b := Clamp(|s|, hi);
    if a >= b then "" else s[a..b]
  }

  /** `s.find(c, start)`: the first index at or after `start` holding `c`, or -1. */
  function FindFrom(s: string, c: char, start: nat): (k: int)
    ensures k == -1 || start <= k < |s|
    ensures k >= 0 ==> s[k] == c && forall j :: start <= j < k ==> s[j] != c
    ensures k == -1 ==> forall j :: start <= j < |s| ==> s[j] != c
    decreases |s| - start
  {
    if start >= |s| then -1 else if s[start] == c then start else FindFrom(s, c, start + 1)
  }

  /** `s.find(c)`. */
  function Find(s: string, c: char): (k: int)
    ensures k == -1 || 0 <= k < |s|
    ensures k >= 0 ==> s[k] == c && forall j :: 0 <= j < k ==> s[j] != c
    ensures k == -1 ==> forall j :: 0 <= j < |s| ==> s[j] != c
  {
    FindFrom(s, c, 0)
  }

  /** `s.rfind(c, 0, end)`: the last index before `end` holding `c`, or -1. */
  function RFind(s: string, c: char, end: nat): (k: int)
    requires end <= |s|
    ensures -1 <= k < end
    ensures k >= 0 ==> s[k] == c && forall j :: k < j < end ==> s[j] != c
    ensures k == -1 ==> forall j :: 0 <= j < end ==> s[j] != c
  {
    if end == 0 then -1 else if s[end - 1] == c then end - 1 else RFind(s, c, end - 1)
  }

  /** `s[:n] == p` for a literal prefix `p`. */
  predicate StartsWith(s: string, p: string)
  {
    |p| <= |s| && s[..|p|] == p
  }
}

=== FILE: render.dfy ===
/** `__str__` of every class (calculator.py:110-111, 131-132, 154-155,
    184-187, 236-241, 318-323, 360-361). Python's `repr` of a float is not
    modelled: it is the parameter `floatRepr`. */
module Rendering {

  import opened Numbers
  import opened Expressions

  /** `str` raises IndexError on a Sum or Product without children. */
  predicate Printable(e: Expr)
  {
    match e
    case Error => true
    case Constant(_) => true
    case Variable(_) => true
    case Log(b, a) => Printable(b) && Printable(a)
    case Power(b, x) => Printable(b) && Printable(x)
    case Sum(xs) => |xs| > 0 && forall k :: 0 <= k < |xs| ==> Printable(xs[k])
    case Product(xs) => |xs| > 0 && forall k :: 0 <= k < |xs| ==> Printable(xs[k])
  }

  /** The parts with `sep` between consecutive ones. */
  function Join(parts: seq<string>, sep: char): (s: string)
    requires |parts| > 0
  {
    if |parts| == 1 then parts[0] else Join(parts[..|parts| - 1], sep) + [sep] + parts[|parts| - 1]
  }

  /** `str(e)`. */
  function Render(e: Expr, floatRepr: real -> string): string
    requires Printable(e)
  {
    match e
    case Error => "bad expression"
    case Constant(n) => if n.Int? then IntToString(n.i) else floatRepr(n.r)
    case Variable(name) => name
    case Log(b, a) =>
      if b.Constant? && Val(b.val) == E then "ln(" + Render(a, floatRepr) + ")"
      else "log_(" + Render(b, floatRepr) + ")(" + Render(a, floatRepr) + ")"
    case Power(b, x) => Render(b, floatRepr) + "^" + Render(x, floatRepr)
    case Sum(xs) => "(" + Join(seq(|xs|, k requires 0 <= k < |xs| => Render(xs[k], floatRepr)), '+') + ")"
    case Product(xs) => "(" + Join(seq(|xs|, k requires 0 <= k < |xs| => Render(xs[k], floatRepr)), '*') + ")"
  }

  /** The source's `__str__` methods, with the accumulating loops of
      Sum and Product. */
  method Str(e: Expr, floatRepr: real -> string) returns (s: string)
    requires Printable(e)
    ensures s == Render(e, floatRepr)
    decreases e
  {
    match e
    case Sum(xs) =>
      s := JoinLoop(xs, '+', floatRepr);
    case Product(xs) =>
      s := JoinLoop(xs, '*', floatRepr);
    case Log(b, a) =>
      var ra := Str(a, floatRepr);
      if b.Constant? && Val(b.val) == E {
        s := "ln(" + ra + ")";
      } else {
        var rb := Str(b, floatRepr);
        s := "log_(" + rb + ")(" + ra + ")";
      }
    case Power(b, x) =>
      var rb := Str(b, floatRepr);
      var rx := Str(x, floatRepr);
      s := rb + "^" + rx;
    case _ =>
      s := Render(e, floatRepr);
  }

  /** `'(' + str(xs[0])`, then `sep + str(xs[i])` for each further child,
      then `')'`. */
  method JoinLoop(xs: seq<Expr>, sep: char, floatRepr: real -> string) returns (s: string)
    requires |xs| > 0 && forall k :: 0 <= k < |xs| ==> Printable(xs[k])
    ensures s == "(" + Join(seq(|xs|, k requires 0 <= k < |xs| => Render(xs[k], floatRepr)), sep) + ")"
    decreases xs, 0
  {
    var parts := seq(|xs|, k requires 0 <= k < |xs| => Render(xs[k], floatRepr));
    var first := Str(xs[0], floatRepr);
    s := "(" + first;
    for i := 1 to |xs|
      invariant s == "(" + Join(parts[..i], sep)
    {
      var r := Str(xs[i], floatRepr);
      assert parts[..i + 1][..i] == parts[..i];
      s := s + [sep] + r;
    }
    assert parts[..|xs|] == parts;
    s := s + ")";
  }
}

=== FILE: render_parse.dfy ===
/** `parse` reading back what `__str__` writes. It does for names,
    non-negative integers and binary nodes over them; it does not for a
    negative constant after an operator, which `str` writes as `+-5`. */
module RenderParse {

  import opened Numbers
  import opened Expressions
  import opened Parser
  import opened ParserProperties
  import opened Rendering
  import opened Simplifier
  import opened SimplifierExamples

  /** A leaf whose text `parse` reads back: a plain name or a
      non-negative integer constant. */
  predicate Atom(e: Expr)
  {
    (e.Variable? && PlainName(e.name)) || (e.Constant? && e.val.Int? && e.val.i >= 0)
  }

  /** An atom renders as non-empty alphanumeric text that parses back to it. */
  lemma AtomRoundTrip(e: Expr, floatRepr: real -> string)
    requires Atom(e)
    ensures Printable(e)
    ensures var t := Render(e, floatRepr); |t| > 0 && Alphanumeric(t) && Parse(t) == e
  {
    if e.Variable? {
      ParseName(e.name);
    } else {
      ParseIntLiteral(e.val.i);
    }
  }

  /** A Sum of two atoms parses back from its text `(a+b)`. */
  lemma SumRoundTrip(a: Expr, b: Expr, floatRepr: real -> string)
    requires Atom(a) && Atom(b)
    ensures Printable(Sum([a, b])) && Parse(Render(Sum([a, b]), floatRepr)) == Sum([a, b])
  {
    AtomRoundTrip(a, floatRepr);
    AtomRoundTrip(b, floatRepr);
    var ra, rb := Render(a, floatRepr), Render(b, floatRepr);
    assert seq(2, k requires 0 <= k < 2 => Render([a, b][k], floatRepr)) == [ra, rb];
    Wrapped(ra, '+', rb, Additive);
  }

  /** A Product of two atoms parses back from its text `(a*b)`. */
  lemma ProductRoundTrip(a: Expr, b: Expr, floatRepr: real -> string)
    requires Atom(a) && Atom(b)
    ensures Printable(Product([a, b])) && Parse(Render(Product([a, b]), floatRepr)) == Product([a, b])
  {
    AtomRoundTrip(a, floatRepr);
    AtomRoundTrip(b, floatRepr);
    var ra, rb := Render(a, floatRepr), Render(b, floatRepr);
    assert seq(2, k requires 0 <= k < 2 => Render([a, b][k], floatRepr)) == [ra, rb];
    Wrapped(ra, '*', rb, Multiplicative);
  }

  /** A Power of two atoms parses back from its text `a^b`. */
  lemma PowerRoundTrip(a: Expr, b: Expr, floatRepr: real -> string)
    requires Atom(a) && Atom(b)
    ensures Printable(Power(a, b)) && Parse(Render(Power(a, b), floatRepr)) == Power(a, b)
  {
    AtomRoundTrip(a, floatRepr);
    AtomRoundTrip(b, floatRepr);
    ParseBinary(Render(a, floatRepr), '^', Render(b, floatRepr), Exponential);
  }

  /** `(l op r)` with alphanumeric operands parses as `l op r`. */
  lemma Wrapped(l: string, op: char, r: string, level: Level)
    requires |l| > 0 && Alphanumeric(l) && Alphanumeric(r)
    requires IsSplitOp(level, op, |l|)
    ensures Join([l, r], op) == l + [op] + r
    ensures Parse("(" + Join([l, r], op) + ")") == Combine(level, op, Parse(l), Parse(r))
  {
    var m := l + [op] + r;
    assert forall k :: 0 <= k < |m| ==> m[k] != '(' && m[k] != ')' by {
      assert forall k :: 0 <= k < |m| && k != |l| ==> IsLetter(m[k]) || IsDigit(m[k]);
    }
    ParseWrapped(m);
    ParseBinary(l, op, r, level);
  }

  /** `str` of `x + (-5)` is `(x+-5)`: the scan for `+`/`-` splits at the
      `-`, leaving `x+` with an empty right operand, so the text does not
      parse back. */
  lemma NegativeAddendDoesNotRoundTrip(floatRepr: real -> string)
    ensures Parse(Render(Sum([Variable("x"), Constant(Int(-5))]), floatRepr)) == Error
  {
    var e := Sum([Variable("x"), Constant(Int(-5))]);
    var parts := seq(2, k requires 0 <= k < 2 => Render(e.addends[k], floatRepr));
    assert IntToString(-5) == "-5" by {
      assert NatToString(5) == [DigitChar(5)] == "5";
    }
    assert parts == ["x", "-5"];
    assert Join(parts, '+') == "x+-5";
    UnaryMinusSplits("x+-5");
  }

  lemma UnaryMinusSplits(s: string)
    requires s == "x+-5"
    ensures Parse("(" + s + ")") == Error
  {
    ParseWrapped(s);
    var l, r := s[..2], s[3..];
    assert l == "x+" && r == "5";
    SplitWithoutParens(s, Additive, 2);
    SplitWithoutParens(l, Additive, 1);
    assert l[2..] == "";
  }

  /** Simplifying `x-5` gives `x + (-5)`, whose text does not parse back: so
      simplify, render, parse and simplify again does not return the
      simplified tree, it returns Error. */
  lemma SimplifiedDifferenceDoesNotRoundTrip(s: string, floatRepr: real -> string)
    requires s == "x-5"
    ensures var e := Simplify(Parse(s), map[]);
      e == Sum([Variable("x"), Constant(Int(-5))]) && Printable(e) &&
      Simplify(Parse(Render(e, floatRepr)), map[]) == Error
  {
    assert NatToString(5) == [DigitChar(5)] == "5";
    assert s == "x" + "-" + NatToString(5);
    DifferenceWithConstant("x", 5);
    NegativeAddendDoesNotRoundTrip(floatRepr);
  }
}

=== FILE: simplify.dfy ===
/** `simplify(variables)` of every class (calculator.py:125-355).

    The Python methods rewrite the node in place and return it or a
    replacement; the model returns the replacement as a value. Product
    grouping simplifies freshly built Sum, Power and Product nodes again,
    so simplification is not structurally recursive: `fuel` bounds the
    depth of nested simplify calls, standing for Python's recursion limit,
    and running out of it gives Error like every other exception. */
module Simplifier {

  import opened Numbers
  import opened Expressions

  /** The `variables` argument: values to substitute for variable names. */
  type Bindings = map<string, Num>

  /** Python's default recursion limit. */
  function RecursionLimit(): nat { 1000 }

  /** `e.simplify(env)`. */
  function Simplify(e: Expr, env: Bindings): Expr
  {
    Simp(e, env, RecursionLimit())
  }

  function Simp(e: Expr, env: Bindings, fuel: nat): Expr
    decreases fuel, 0, 0
  {
    if fuel == 0 then Error
    else
      match e
      case Error => Error
      case Constant(_) => e
      case Variable(n) => if n in env then Constant(env[n]) else e
      case Log(b, a) =>
        var b' := Simp(b, env, fuel - 1);
        var a' := Simp(a, env, fuel - 1);
        if b'.Error? || a'.Error? then Error else FoldLog(b', a')
      case Power(b, x) =>
        var b' := Simp(b, env, fuel - 1);
        var x' := Simp(x, env, fuel - 1);
        if b'.Error? || x'.Error? then Error else FoldPower(b', x')
      case Sum(xs) =>
        var ys := seq(|xs|, k requires 0 <= k < |xs| => Simp(xs[k], env, fuel - 1));
        if Error in ys then Error else CombineSum(ys)
      case Product(xs) =>
        var ys := seq(|xs|, k requires 0 <= k < |xs| => Simp(xs[k], env, fuel - 1));
        if Error in ys then Error else CombineProduct(ys, fuel - 1)
  }

  // ---------------------------------------------------------------------
  // Log and Power

  /** Log.simplify after its children: `math.log(arg, base)` when both are
      constants. Only the exact cases are evaluated; a non-positive argument or
      base is Python's math domain error and base 1 its division by zero. */
  function FoldLog(b: Expr, a: Expr): (r: Expr)
    ensures !(b.Constant? && a.Constant?) ==> r == Log(b, a)
    ensures r.Constant? ==> r.val.Float? && (Val(r.val) == 1.0 <==> a == b || Val(a.val) == Val(b.val))
    ensures (b.Constant? && a.Constant? && Val(b.val) > 0.0 && Val(b.val) != 1.0 && Val(a.val) == Val(b.val))
              ==> r == Constant(Float(1.0))
    ensures (b.Constant? && a.Constant? && Val(b.val) > 0.0 && Val(b.val) != 1.0 && Val(a.val) == 1.0)
              ==> r == Constant(Float(0.0))
    ensures r.Error? <==> b.Constant? && a.Constant? && (Val(a.val) <= 0.0 || Val(b.val) <= 0.0 || Val(b.val) == 1.0)
  {
    if b.Constant? && a.Constant? then
      var vb := Val(b.val);
      var va := Val(a.val);
      if va <= 0.0 || vb <= 0.0 then Error
      else if vb == 1.0 then Error
      else if va == vb then Constant(Float(1.0))
      else if va == 1.0 then Constant(Float(0.0))
      else Log(b, a) // the model does not evaluate other logarithms
    else Log(b, a)
  }

  /** Power.simplify after its children, in the source's order: base 1,
      exponent 1, exponent 0, both constant. */
  function FoldPower(b: Expr, x: Expr): (r: Expr)
    requires !b.Error? && !x.Error?
    ensures IsConstantValued(b, 1.0) ==> r == One
    ensures !IsConstantValued(b, 1.0) && IsConstantValued(x, 1.0) ==> r == b
    ensures !IsConstantValued(b, 1.0) && IsConstantValued(x, 0.0) ==> r == One
    ensures r == Power(b, x) || r == b || r.Constant? || r.Error?
    ensures r == Power(b, x) ==> !IsConstantValued(b, 1.0) && !IsConstantValued(x, 1.0) && !IsConstantValued(x, 0.0)
    ensures (b.Constant? && x.Constant? && Pow(b.val, x.val).Folded? && !IsConstantValued(b, 1.0) &&
             !IsConstantValued(x, 1.0) && !IsConstantValued(x, 0.0)) ==> r == Constant(Pow(b.val, x.val).n)
    ensures r.Error? <==> !IsConstantValued(b, 1.0) && b.Constant? && x.Constant? && Pow(b.val, x.val).Undefined?
  {
    if IsConstantValued(b, 1.0) then One
    else if x.Constant? then
      if Val(x.val) == 1.0 then assert b < Power(b, x); b
      else if Val(x.val) == 0.0 then One
      else if b.Constant? then
        match Pow(b.val, x.val)
        case Folded(n) => Constant(n)
        case Undefined => Error // ZeroDivisionError
        case NotFolded => Power(b, x) // the model does not evaluate this power
      else Power(b, x)
    else Power(b, x)
  }

  // ---------------------------------------------------------------------
  // Flattening and constant folding shared by Sum and Product

  datatype Kind = SumKind | ProductKind

  predicate IsKind(e: Expr, kind: Kind)
  {
    match kind
    case SumKind => e.Sum?
    case ProductKind => e.Product?
  }

  function Children(e: Expr, kind: Kind): seq<Expr>
    requires IsKind(e, kind)
  {
    match kind
    case SumKind => e.addends
    case ProductKind => e.factors
  }

  /** The children that are not of the node's own kind, in order. */
  function KeptInPlace(ys: seq<Expr>, kind: Kind): (r: seq<Expr>)
    ensures forall k :: 0 <= k < |r| ==> !IsKind(r[k], kind)
  {
    if ys == [] then []
    else if IsKind(ys[|ys| - 1], kind) then KeptInPlace(ys[..|ys| - 1], kind)
    else KeptInPlace(ys[..|ys| - 1], kind) + [ys[|ys| - 1]]
  }

  /** The grandchildren the flattening loop appends: those of the last nested
      node first, since the loop runs from the last child to the first. */
  function Spliced(ys: seq<Expr>, kind: Kind): seq<Expr>
  {
    if ys == [] then []
    else
      var last := ys[|ys| - 1];
      (if IsKind(last, kind) then Children(last, kind) else []) + Spliced(ys[..|ys| - 1], kind)
  }

  /** The list after the `extend`/`remove` loop (calculator.py:205-211,
      264-270), with the nested node at index i removed. */
  function Flatten(ys: seq<Expr>, kind: Kind): seq<Expr>
  {
    KeptInPlace(ys, kind) + Spliced(ys, kind)
  }

  /** The values of the Constant elements, in order. */
  function ConstantValues(zs: seq<Expr>): (r: seq<Num>)
  {
    if zs == [] then []
    else if zs[|zs| - 1].Constant? then ConstantValues(zs[..|zs| - 1]) + [zs[|zs| - 1].val]
    else ConstantValues(zs[..|zs| - 1])
  }

  /** The elements that are not Constants, in order. */
  function NonConstants(zs: seq<Expr>): (r: seq<Expr>)
    ensures forall k :: 0 <= k < |r| ==> !r[k].Constant?
    ensures forall z :: z in r ==> z in zs
  {
    if zs == [] then []
    else if zs[|zs| - 1].Constant? then NonConstants(zs[..|zs| - 1])
    else NonConstants(zs[..|zs| - 1]) + [zs[|zs| - 1]]
  }

  /** Sum.simplify after its addends (calculator.py:213-228). */
  function CombineSum(ys: seq<Expr>): (r: Expr)
    ensures var zs := Flatten(ys, SumKind);
      NonConstants(zs) == [] ==> r == Constant(SumNums(ConstantValues(zs)))
    ensures r.Constant? <==> NonConstants(Flatten(ys, SumKind)) == []
  {
    var zs := Flatten(ys, SumKind);
    var total := SumNums(ConstantValues(zs));
    var rest := NonConstants(zs);
    if |rest| == 0 then Constant(total)
    else if Val(total) != 0.0 then Sum(rest + [Constant(total)])
    else if |rest| == 1 then rest[0]
    else Sum(rest)
  }

  // ---------------------------------------------------------------------
  // Product grouping

  /** Whether two grouping keys find the same dict entry: equal trees, and
      no Power inside, since Power inherits the `__eq__` that returns None. */
  predicate KeyEq(a: Expr, b: Expr)
  {
    a == b && !HasPower(a)
  }

  /** Index of the entry whose key matches, or |powers| when there is none. */
  function KeyIndex(powers: seq<(Expr, Expr)>, key: Expr): (k: nat)
    ensures k <= |powers|
    ensures k < |powers| ==> KeyEq(powers[k].0, key)
    ensures forall j :: 0 <= j < k ==> !KeyEq(powers[j].0, key)
  {
    if powers == [] then 0
    else if KeyEq(powers[0].0, key) then 0
    else 1 + KeyIndex(powers[1..], key)
  }

  datatype Grouping = Grouped(powers: seq<(Expr, Expr)>) | GroupingFailed

  /** The pop loop (calculator.py:286-292): factors are taken from the end;
      a Power adds its exponent to the entry of its base, any other factor
      adds 1 to its own entry; entries keep the order they were created in. */
  function Group(ms: seq<Expr>, powers: seq<(Expr, Expr)>, fuel: nat): Grouping
    decreases fuel, 1, |ms|
  {
    if ms == [] then Grouped(powers)
    else
      var m := ms[|ms| - 1];
      var key := if m.Power? then m.base else m;
      var x := if m.Power? then m.exponent else One;
      var k := KeyIndex(powers, key);
      var prev := if k < |powers| then powers[k].1 else Zero;
      var total := Simp(Sum([prev, x]), map[], fuel);
      if total.Error? then GroupingFailed
      else
        var powers' := if k < |powers| then powers[k := (powers[k].0, total)] else powers + [(key, total)];
        Group(ms[..|ms| - 1], powers', fuel)
  }

  /** The loop over `powers.items()` and what follows it
      (calculator.py:294-308): bases with a negative constant exponent are
      multiplied into one reciprocal, the others become factors. */
  function Emit(items: seq<(Expr, Expr)>, neg: Expr, out: seq<Expr>, fuel: nat): Expr
    decreases fuel, 1, |items|
  {
    if items == [] then Finish(neg, out)
    else if NegativeEntry(items[0]) then
      var n := Absorb(neg, items[0], fuel);
      if n.Error? then Error else Emit(items[1..], n, out, fuel)
    else
      var q := Simp(Power(items[0].0, items[0].1), map[], fuel);
      if q.Error? then Error else Emit(items[1..], neg, out + [q], fuel)
  }

  /** An entry whose exponent is a negative constant goes into the reciprocal. */
  predicate NegativeEntry(item: (Expr, Expr))
  {
    item.1.Constant? && Val(item.1.val) < 0.0
  }

  /** `Product(negative_power_base, Power(base, Constant(-power.val)).simplify()).simplify()`
      (calculator.py:296-297). */
  function Absorb(neg: Expr, item: (Expr, Expr), fuel: nat): Expr
    requires item.1.Constant?
    decreases fuel, 1, 0
  {
    var q := Simp(Power(item.0, Constant(Neg(item.1.val))), map[], fuel);
    if q.Error? then Error else Simp(Product([neg, q]), map[], fuel)
  }

  /** What follows the loop (calculator.py:302-308). */
  function Finish(neg: Expr, out: seq<Expr>): Expr
  {
    var out' := if IsConstantValued(neg, 1.0) then out else out + [Power(neg, MinusOne)];
    if |out'| == 1 then out'[0] else Product(out')
  }

  /** The reciprocal of the bases with negative exponents goes after all the
      other factors, and a single factor is returned on its own. */
  lemma FinishShape(neg: Expr, out: seq<Expr>)
    ensures var r := Finish(neg, out);
      (IsConstantValued(neg, 1.0) && |out| != 1 ==> r == Product(out)) &&
      (IsConstantValued(neg, 1.0) && |out| == 1 ==> r == out[0]) &&
      (!IsConstantValued(neg, 1.0) && out == [] ==> r == Power(neg, MinusOne)) &&
      (!IsConstantValued(neg, 1.0) && out != [] ==>
        r.Product? && |r.factors| == |out| + 1 && r.factors[..|out|] == out && r.factors[|out|] == Power(neg, MinusOne))
  {
    if !IsConstantValued(neg, 1.0) && out != [] {
      assert (out + [Power(neg, MinusOne)])[..|out|] == out;
    }
  }

  /** Product.simplify after its factors (calculator.py:272-308). */
  function CombineProduct(ys: seq<Expr>, fuel: nat): (r: Expr)
    ensures var zs := Flatten(ys, ProductKind);
      Val(ProdNums(ConstantValues(zs))) == 0.0 ==> r == Zero
    ensures var zs := Flatten(ys, ProductKind);
      Val(ProdNums(ConstantValues(zs))) != 0.0 && NonConstants(zs) == [] ==> r == Constant(ProdNums(ConstantValues(zs)))
    decreases fuel, 2, 0
  {
    var zs := Flatten(ys, ProductKind);
    var prod := ProdNums(ConstantValues(zs));
    var rest := NonConstants(zs);
    if Val(prod) == 0.0 then Zero
    else if |rest| == 0 then Constant(prod)
    else if Val(prod) == 1.0 && |rest| == 1 then rest[0]
    else
      var ms := if Val(prod) != 1.0 then [Constant(prod)] + rest else rest;
      match Group(ms, [], fuel)
      case GroupingFailed => Error
      case Grouped(powers) => Emit(powers, One, [], fuel)
  }

  // ---------------------------------------------------------------------
  // Flattening and folding on lists of known form

  /** Simplifying a Sum whose addends simplify to `ys` without error
      combines `ys`. */
  lemma SimpSumOf(xs: seq<Expr>, env: Bindings, fuel: nat, ys: seq<Expr>)
    requires fuel > 0 && |ys| == |xs| && Error !in ys
    requires forall k :: 0 <= k < |xs| ==> Simp(xs[k], env, fuel - 1) == ys[k]
    ensures Simp(Sum(xs), env, fuel) == CombineSum(ys)
  {
    assert seq(|xs|, k requires 0 <= k < |xs| => Simp(xs[k], env, fuel - 1)) == ys;
  }

  /** Simplifying a Product whose factors simplify to `ys` without error
      combines `ys`. */
  lemma SimpProductOf(xs: seq<Expr>, env: Bindings, fuel: nat, ys: seq<Expr>)
    requires fuel > 0 && |ys| == |xs| && Error !in ys
    requires forall k :: 0 <= k < |xs| ==> Simp(xs[k], env, fuel - 1) == ys[k]
    ensures Simp(Product(xs), env, fuel) == CombineProduct(ys, fuel - 1)
  {
    assert seq(|xs|, k requires 0 <= k < |xs| => Simp(xs[k], env, fuel - 1)) == ys;
  }

  /** `SimpSumOf` for two addends. */
  lemma SimpSumOfPair(a: Expr, b: Expr, env: Bindings, fuel: nat, a': Expr, b': Expr)
    requires fuel > 0 && !a'.Error? && !b'.Error?
    requires Simp(a, env, fuel - 1) == a' && Simp(b, env, fuel - 1) == b'
    ensures Simp(Sum([a, b]), env, fuel) == CombineSum([a', b'])
  {
    SimpSumOf([a, b], env, fuel, [a', b']);
  }

  /** `SimpProductOf` for two factors. */
  lemma SimpProductOfPair(a: Expr, b: Expr, env: Bindings, fuel: nat, a': Expr, b': Expr)
    requires fuel > 0 && !a'.Error? && !b'.Error?
    requires Simp(a, env, fuel - 1) == a' && Simp(b, env, fuel - 1) == b'
    ensures Simp(Product([a, b]), env, fuel) == CombineProduct([a', b'], fuel - 1)
  {
    SimpProductOf([a, b], env, fuel, [a', b']);
  }

  /** Addends that are neither constants nor sums, two or more of them, stay
      as they are. */
  lemma CombineSumKept(ys: seq<Expr>)
    requires |ys| >= 2 && forall k :: 0 <= k < |ys| ==> !ys[k].Constant? && !ys[k].Sum?
    ensures CombineSum(ys) == Sum(ys)
  {
    FlattenOfFlat(ys, SumKind);
    WithoutConstants(ys);
  }

  /** Nothing to flatten: the list is returned as it is. */
  lemma FlattenOfFlat(ys: seq<Expr>, kind: Kind)
    requires forall k :: 0 <= k < |ys| ==> !IsKind(ys[k], kind)
    ensures Flatten(ys, kind) == ys
  {
    AllKept(ys, kind);
    NoneSpliced(ys, kind);
  }

  lemma {:induction false} AllKept(ys: seq<Expr>, kind: Kind)
    requires forall k :: 0 <= k < |ys| ==> !IsKind(ys[k], kind)
    ensures KeptInPlace(ys, kind) == ys
  {
    if ys != [] {
      var init := ys[..|ys| - 1];
      AllKept(init, kind);
      assert init + [ys[|ys| - 1]] == ys;
    }
  }

  lemma {:induction false} NoneSpliced(ys: seq<Expr>, kind: Kind)
    requires forall k :: 0 <= k < |ys| ==> !IsKind(ys[k], kind)
    ensures Spliced(ys, kind) == []
  {
    if ys != [] {
      NoneSpliced(ys[..|ys| - 1], kind);
    }
  }

  lemma {:induction false} WithoutConstants(zs: seq<Expr>)
    requires forall k :: 0 <= k < |zs| ==> !zs[k].Constant?
    ensures NonConstants(zs) == zs && ConstantValues(zs) == []
  {
    if zs != [] {
      WithoutConstants(zs[..|zs| - 1]);
      assert zs[..|zs| - 1] + [zs[|zs| - 1]] == zs;
    }
  }

  /** A list of constants folds to the values in order. */
  lemma {:induction false} OnlyConstants(zs: seq<Expr>)
    requires forall k :: 0 <= k < |zs| ==> zs[k].Constant?
    ensures NonConstants(zs) == []
    ensures ConstantValues(zs) == seq(|zs|, k requires 0 <= k < |zs| => zs[k].val)
  {
    if zs != [] {
      OnlyConstants(zs[..|zs| - 1]);
    }
  }

  /** A child that is not of the node's kind stays in the flattened list. */
  lemma {:induction false} KeptMember(ys: seq<Expr>, i: nat, kind: Kind)
    requires i < |ys| && !IsKind(ys[i], kind)
    ensures ys[i] in Flatten(ys, kind)
  {
    if i < |ys| - 1 {
      KeptMember(ys[..|ys| - 1], i, kind);
    }
  }

  /** Every constant of a list contributes its value to the fold. */
  lemma {:induction false} ConstantMember(zs: seq<Expr>, i: nat)
    requires i < |zs| && zs[i].Constant?
    ensures zs[i].val in ConstantValues(zs)
  {
    if i < |zs| - 1 {
      ConstantMember(zs[..|zs| - 1], i);
    }
  }

  /** A child of a nested node of the node's own kind ends up in the
      flattened list. */
  lemma {:induction false} NestedMember(ys: seq<Expr>, i: nat, z: Expr, kind: Kind)
    requires i < |ys| && IsKind(ys[i], kind) && z in Children(ys[i], kind)
    ensures z in Flatten(ys, kind)
  {
    if i < |ys| - 1 {
      NestedMember(ys[..|ys| - 1], i, z, kind);
    }
  }

  // ---------------------------------------------------------------------
  // What the grouping loop keeps

  /** The dict key a factor is grouped under: a Power's base, any other
      factor itself. */
  function KeyOf(m: Expr): Expr
  {
    if m.Power? then m.base else m
  }

  /** No two entries share a key: a dict never holds two equal keys. */
  predicate DistinctKeys(powers: seq<(Expr, Expr)>)
  {
    forall i, j :: 0 <= i < j < |powers| ==> !KeyEq(powers[i].0, powers[j].0)
  }

  /** One step of the pop loop keeps the keys distinct, keeps every key in
      its place and adds the popped factor's key when it was missing. */
  lemma GroupStep(powers: seq<(Expr, Expr)>, key: Expr, total: Expr)
    requires DistinctKeys(powers)
    ensures var k := KeyIndex(powers, key);
      var powers' := if k < |powers| then powers[k := (powers[k].0, total)] else powers + [(key, total)];
      DistinctKeys(powers') && |powers| <= |powers'| &&
      (forall j :: 0 <= j < |powers| ==> powers'[j].0 == powers[j].0) &&
      (exists j :: 0 <= j < |powers'| && (powers'[j].0 == key || KeyEq(powers'[j].0, key)))
  {
    var k := KeyIndex(powers, key);
    if k == |powers| {
      var powers' := powers + [(key, total)];
      assert powers'[|powers|].0 == key;
      forall i, j | 0 <= i < j < |powers'|
        ensures !KeyEq(powers'[i].0, powers'[j].0)
      {
        if j == |powers| {
          assert !KeyEq(powers[i].0, key);
        }
      }
    } else {
      assert KeyEq(powers[k].0, key);
    }
  }

  /** The pop loop, when no sum of exponents fails, gives every key of the
      factors an entry, no two entries for equal keys, and keeps the entries
      it started with in their places. */
  lemma {:induction false} GroupKeys(ms: seq<Expr>, powers: seq<(Expr, Expr)>, fuel: nat)
    requires DistinctKeys(powers)
    requires Group(ms, powers, fuel).Grouped?
    ensures var out := Group(ms, powers, fuel).powers;
      DistinctKeys(out) && |powers| <= |out| &&
      (forall j :: 0 <= j < |powers| ==> out[j].0 == powers[j].0) &&
      (forall i :: 0 <= i < |ms| ==> exists j :: 0 <= j < |out| && out[j].0 == KeyOf(ms[i]))
    decreases |ms|
  {
    if ms != [] {
      var m := ms[|ms| - 1];
      var key := KeyOf(m);
      var x := if m.Power? then m.exponent else One;
      var k := KeyIndex(powers, key);
      var prev := if k < |powers| then powers[k].1 else Zero;
      var total := Simp(Sum([prev, x]), map[], fuel);
      var powers' := if k < |powers| then powers[k := (powers[k].0, total)] else powers + [(key, total)];
      assert Group(ms, powers, fuel) == Group(ms[..|ms| - 1], powers', fuel);
      GroupStep(powers, key, total);
      GroupKeys(ms[..|ms| - 1], powers', fuel);
      var out := Group(ms, powers, fuel).powers;
      forall i | 0 <= i < |ms|
        ensures exists j :: 0 <= j < |out| && out[j].0 == KeyOf(ms[i])
      {
        if i < |ms| - 1 {
          assert ms[..|ms| - 1][i] == ms[i];
        } else {
          var j :| 0 <= j < |powers'| && (powers'[j].0 == key || KeyEq(powers'[j].0, key));
          assert out[j].0 == key;
        }
      }
    }
  }

  // ---------------------------------------------------------------------
  // What the emitting loop builds

  /** `Power(base, power).simplify()` for each entry, in order. */
  function EntryPowers(items: seq<(Expr, Expr)>, fuel: nat): (qs: seq<Expr>)
    ensures |qs| == |items|
  {
    if items == [] then []
    else [Simp(Power(items[0].0, items[0].1), map[], fuel)] + EntryPowers(items[1..], fuel)
  }

  /** Without negative exponents, the emitting loop appends the simplified
      power of every entry in order and then finishes. */
  lemma {:induction false} EmitWithoutNegatives(items: seq<(Expr, Expr)>, neg: Expr, out: seq<Expr>, fuel: nat)
    requires forall k :: 0 <= k < |items| ==> !NegativeEntry(items[k])
    requires Error !in EntryPowers(items, fuel)
    ensures Emit(items, neg, out, fuel) == Finish(neg, out + EntryPowers(items, fuel))
    decreases |items|
  {
    if items != [] {
      EntryPowersHead(items, fuel);
      var q := Simp(Power(items[0].0, items[0].1), map[], fuel);
      EmitStep(items, neg, out, fuel);
      EmitWithoutNegatives(items[1..], neg, out + [q], fuel);
      assert out + [q] + EntryPowers(items[1..], fuel) == out + EntryPowers(items, fuel);
    }
  }

  lemma EntryPowersHead(items: seq<(Expr, Expr)>, fuel: nat)
    requires items != [] && Error !in EntryPowers(items, fuel)
    ensures EntryPowers(items, fuel) == [Simp(Power(items[0].0, items[0].1), map[], fuel)] + EntryPowers(items[1..], fuel)
    ensures !Simp(Power(items[0].0, items[0].1), map[], fuel).Error?
    ensures Error !in EntryPowers(items[1..], fuel)
  {
    var qs := EntryPowers(items, fuel);
    assert qs[0] in qs;
    assert forall x <- qs[1..] :: x in qs;
  }

  /** One turn of the emitting loop over an entry with no negative exponent. */
  lemma EmitStep(items: seq<(Expr, Expr)>, neg: Expr, out: seq<Expr>, fuel: nat)
    requires items != [] && !NegativeEntry(items[0])
    requires !Simp(Power(items[0].0, items[0].1), map[], fuel).Error?
    ensures Emit(items, neg, out, fuel) == Emit(items[1..], neg, out + [Simp(Power(items[0].0, items[0].1), map[], fuel)], fuel)
  {
  }

  // ---------------------------------------------------------------------
  // The partition into constants and the rest

  /** Every element is either a constant, whose value is folded, or kept
      among the non-constants; the two parts account for the whole list. */
  lemma {:induction false} PartitionConstants(zs: seq<Expr>)
    ensures forall k :: 0 <= k < |zs| && zs[k].Constant? ==> zs[k].val in ConstantValues(zs)
    ensures forall k :: 0 <= k < |zs| && !zs[k].Constant? ==> zs[k] in NonConstants(zs)
    ensures |NonConstants(zs)| + |ConstantValues(zs)| == |zs|
  {
    if zs != [] {
      var init := zs[..|zs| - 1];
      PartitionConstants(init);
      assert forall k :: 0 <= k < |init| ==> init[k] == zs[k];
    }
  }

  /** Sum.simplify when non-constant addends remain: the folded constant is
      appended when it is not zero; otherwise a single addend is returned on
      its own and several stay a Sum. */
  lemma CombineSumMixed(ys: seq<Expr>)
    requires NonConstants(Flatten(ys, SumKind)) != []
    ensures var zs := Flatten(ys, SumKind); var total := SumNums(ConstantValues(zs)); var rest := NonConstants(zs);
      (Val(total) != 0.0 ==> CombineSum(ys) == Sum(rest + [Constant(total)])) &&
      (Val(total) == 0.0 && |rest| == 1 ==> CombineSum(ys) == rest[0]) &&
      (Val(total) == 0.0 && |rest| >= 2 ==> CombineSum(ys) == Sum(rest))
  {
  }
}

=== FILE: simplify_examples.dfy ===
/** What `simplify(parse(text))` gives for a handful of small texts:
    constant folding, `x*x`, `x/x`, a product of two names, and a difference
    with a constant. */
module SimplifierExamples {

  import opened Numbers
  import opened Expressions
  import opened Parser
  import opened ParserProperties
  import opened Simplifier

  // ---------------------------------------------------------------------
  // Short lists

  /** The constants and the other elements of a two-element list. */
  lemma PairParts(a: Expr, b: Expr)
    ensures NonConstants([a, b]) == (if a.Constant? then [] else [a]) + (if b.Constant? then [] else [b])
    ensures ConstantValues([a, b]) == (if a.Constant? then [a.val] else []) + (if b.Constant? then [b.val] else [])
  {
    assert [a, b][..1] == [a];
    assert [a][..0] == [];
    assert NonConstants([a]) == (if a.Constant? then [] else [a]);
    assert ConstantValues([a]) == (if a.Constant? then [a.val] else []);
  }

  /** The constants and the other elements of a three-element list. */
  lemma TripleParts(a: Expr, b: Expr, c: Expr)
    ensures NonConstants([a, b, c]) ==
      (if a.Constant? then [] else [a]) + (if b.Constant? then [] else [b]) + (if c.Constant? then [] else [c])
    ensures ConstantValues([a, b, c]) ==
      (if a.Constant? then [a.val] else []) + (if b.Constant? then [b.val] else []) + (if c.Constant? then [c.val] else [])
  {
    assert [a, b, c][..2] == [a, b];
    PairParts(a, b);
  }

  /** Product.simplify when the factors go through the grouping loop. */
  lemma CombineByGrouping(ys: seq<Expr>, fuel: nat, ms: seq<Expr>, powers: seq<(Expr, Expr)>)
    requires var zs := Flatten(ys, ProductKind);
      var prod := ProdNums(ConstantValues(zs));
      var rest := NonConstants(zs);
      Val(prod) != 0.0 && |rest| > 0 && !(Val(prod) == 1.0 && |rest| == 1) &&
      ms == (if Val(prod) != 1.0 then [Constant(prod)] + rest else rest)
    requires Group(ms, [], fuel) == Grouped(powers)
    ensures CombineProduct(ys, fuel) == Emit(powers, One, [], fuel)
  {
  }

  /** Product.simplify when the constants multiply to 1 and one other
      factor is left: that factor is the result. */
  lemma CombineSingleFactor(ys: seq<Expr>, fuel: nat)
    requires var zs := Flatten(ys, ProductKind);
      Val(ProdNums(ConstantValues(zs))) == 1.0 && |NonConstants(zs)| == 1
    ensures CombineProduct(ys, fuel) == NonConstants(Flatten(ys, ProductKind))[0]
  {
  }

  /** A constant next to one factor that is neither a constant nor a
      product: nothing to flatten, one constant and one other factor. */
  lemma ConstantAndFactor(c: Num, y: Expr)
    requires !y.Constant? && !y.Product?
    ensures var ys := [Constant(c), y]; var zs := Flatten(ys, ProductKind);
      zs == ys && ConstantValues(zs) == [c] && NonConstants(zs) == [y] && ProdNums([c]) == c
  {
    var ys := [Constant(c), y];
    FlattenOfFlat(ys, ProductKind);
    PairParts(Constant(c), y);
    assert [c][..0] == [];
    assert ProdNums([c]) == Mul(Int(1), c) == c;
  }

  /** A unit constant next to one factor that is neither a constant nor a
      product leaves that factor. */
  lemma UnitTimes(c: Num, y: Expr, fuel: nat)
    requires Val(c) == 1.0 && !y.Constant? && !y.Product?
    ensures CombineProduct([Constant(c), y], fuel) == y
  {
    ConstantAndFactor(c, y);
    CombineSingleFactor([Constant(c), y], fuel);
  }

  /** A constant other than 0 and 1 next to one factor that is neither a
      constant nor a product: both go through the grouping loop. */
  lemma ConstantTimes(c: Num, y: Expr, fuel: nat, powers: seq<(Expr, Expr)>)
    requires Val(c) != 0.0 && Val(c) != 1.0 && !y.Constant? && !y.Product?
    requires Group([Constant(c), y], [], fuel) == Grouped(powers)
    ensures CombineProduct([Constant(c), y], fuel) == Emit(powers, One, [], fuel)
  {
    ConstantAndFactor(c, y);
    CombineByGrouping([Constant(c), y], fuel, [Constant(c), y], powers);
  }

  // ---------------------------------------------------------------------
  // Two integer constants

  lemma CombineTwoInts(a: int, b: int)
    ensures CombineSum([Constant(Int(a)), Constant(Int(b))]) == Constant(Int(a + b))
  {
    var ys := [Constant(Int(a)), Constant(Int(b))];
    FlattenOfFlat(ys, SumKind);
    PairParts(ys[0], ys[1]);
    var ns := [Int(a), Int(b)];
    assert NonConstants(ys) == [];
    assert ConstantValues(ys) == ns;
    assert ns[..1] == [Int(a)] && [Int(a)][..0] == [];
    assert SumNums([Int(a)]) == Int(a);
    assert SumNums(ns) == Int(a + b);
  }

  /** Two integer addends fold to their sum. */
  lemma SumOfInts(a: int, b: int, fuel: nat)
    requires fuel >= 2
    ensures Simp(Sum([Constant(Int(a)), Constant(Int(b))]), map[], fuel) == Constant(Int(a + b))
  {
    var ys := [Constant(Int(a)), Constant(Int(b))];
    assert seq(2, k requires 0 <= k < 2 => Simp(ys[k], map[], fuel - 1)) == ys;
    CombineTwoInts(a, b);
  }

  /** Product.simplify of two integer constants is their product. */
  lemma CombineTwoIntFactors(a: int, b: int, fuel: nat)
    ensures CombineProduct([Constant(Int(a)), Constant(Int(b))], fuel) == Constant(Int(a * b))
  {
    var ys := [Constant(Int(a)), Constant(Int(b))];
    FlattenOfFlat(ys, ProductKind);
    PairParts(ys[0], ys[1]);
    var ns := [Int(a), Int(b)];
    assert NonConstants(ys) == [];
    assert ConstantValues(ys) == ns;
    assert ns[..1] == [Int(a)] && [Int(a)][..0] == [];
    assert ProdNums([Int(a)]) == Int(a);
    assert ProdNums(ns) == Int(a * b);
  }

  /** Two integer factors fold to their product. */
  lemma ProductOfInts(a: int, b: int, fuel: nat)
    requires fuel >= 2
    ensures Simp(Product([Constant(Int(a)), Constant(Int(b))]), map[], fuel) == Constant(Int(a * b))
  {
    var ys := [Constant(Int(a)), Constant(Int(b))];
    assert seq(2, k requires 0 <= k < 2 => Simp(ys[k], map[], fuel - 1)) == ys;
    CombineTwoIntFactors(a, b, fuel - 1);
  }

  /** A zero addend next to a single other addend leaves that addend. */
  lemma ZeroPlus(t: Expr)
    requires !t.Constant? && !t.Sum?
    ensures CombineSum([Zero, t]) == t
  {
    var ys := [Zero, t];
    FlattenOfFlat(ys, SumKind);
    PairParts(Zero, t);
    assert NonConstants(ys) == [t];
    assert ConstantValues(ys) == [Int(0)];
    SumOfIntZeros([Int(0)]);
  }

  // ---------------------------------------------------------------------
  // Constant folding

  lemma DecimalText(n: nat)
    ensures IntToString(n) == NatToString(n)
    ensures |NatToString(n)| > 0 && Alphanumeric(NatToString(n))
    ensures Parse(NatToString(n)) == Constant(Int(n))
  {
    ParseIntLiteral(n);
  }

  lemma SumWithProduct(a: int, b: int, c: int, fuel: nat)
    requires fuel >= 3
    ensures Simp(Sum([Constant(Int(a)), Product([Constant(Int(b)), Constant(Int(c))])]), map[], fuel) ==
            Constant(Int(a + b * c))
  {
    var xs := [Constant(Int(a)), Product([Constant(Int(b)), Constant(Int(c))])];
    ProductOfInts(b, c, fuel - 1);
    assert seq(2, k requires 0 <= k < 2 => Simp(xs[k], map[], fuel - 1)) ==
           [Constant(Int(a)), Constant(Int(b * c))];
    CombineTwoInts(a, b * c);
  }

  /** `a+b*c` over decimal naturals parses to the Sum of `a` and the Product
      of `b` and `c`. */
  lemma ParseArithmetic(a: nat, b: nat, c: nat)
    ensures Parse(NatToString(a) + "+" + NatToString(b) + "*" + NatToString(c)) ==
            Sum([Constant(Int(a)), Product([Constant(Int(b)), Constant(Int(c))])])
  {
    var sa, sb, sc := NatToString(a), NatToString(b), NatToString(c);
    DecimalText(a);
    DecimalText(b);
    DecimalText(c);
    assert sa + "+" + sb + "*" + sc == sa + ['+'] + sb + ['*'] + sc;
    TimesBindsTighter(sa, '+', sb, '*', sc);
    var product := Combine(Multiplicative, '*', Constant(Int(b)), Constant(Int(c)));
    assert product == Product([Constant(Int(b)), Constant(Int(c))]);
    assert Combine(Additive, '+', Constant(Int(a)), product) == Sum([Constant(Int(a)), product]);
  }

  /** `a+b*c` over decimal naturals folds to the integer `a + b*c`. */
  lemma ArithmeticFolds(a: nat, b: nat, c: nat)
    ensures Simplify(Parse(NatToString(a) + "+" + NatToString(b) + "*" + NatToString(c)), map[]) ==
            Constant(Int(a + b * c))
  {
    ParseArithmetic(a, b, c);
    SumWithProduct(a, b, c, RecursionLimit());
  }

  lemma {:induction false} PowersOfOne(k: nat)
    ensures IntPow(1, k) == 1
  {
    if k > 0 {
      PowersOfOne(k - 1);
    }
  }

  lemma PowerOfInts(b: nat, k: nat, fuel: nat)
    requires fuel >= 2
    ensures Simp(Power(Constant(Int(b)), Constant(Int(k))), map[], fuel) == Constant(Int(IntPow(b, k)))
  {
    if b == 1 {
      PowersOfOne(k);
    }
  }

  /** `b^k` over decimal naturals folds to the integer power. */
  lemma PowerFolds(b: nat, k: nat)
    ensures Simplify(Parse(NatToString(b) + "^" + NatToString(k)), map[]) == Constant(Int(IntPow(b, k)))
  {
    DecimalText(b);
    DecimalText(k);
    ParseBinary(NatToString(b), '^', NatToString(k), Exponential);
    PowerOfInts(b, k, RecursionLimit());
  }

  lemma TwoPlusThreeTimesFour(s: string)
    requires s == "2+3*4"
    ensures Simplify(Parse(s), map[]) == Constant(Int(14))
  {
    assert NatToString(2) == "2" && NatToString(3) == "3" && NatToString(4) == "4";
    assert s == NatToString(2) + "+" + NatToString(3) + "*" + NatToString(4);
    ArithmeticFolds(2, 3, 4);
  }

  lemma TwoToTheTen(s: string)
    requires s == "2^10"
    ensures Simplify(Parse(s), map[]) == Constant(Int(1024))
  {
    assert NatToString(1) == "1" && NatToString(0) == "0";
    assert NatToString(2) == "2" && NatToString(10) == "10";
    assert s == NatToString(2) + "^" + NatToString(10);
    PowerFolds(2, 10);
    assert IntPow(2, 10) == 1024;
  }

  // ---------------------------------------------------------------------
  // Grouping equal bases

  lemma GroupSecondSquare(x: Expr, fuel: nat)
    requires fuel >= 2 && x.Variable?
    ensures Group([x], [(x, One)], fuel) == Grouped([(x, Constant(Int(2)))])
  {
    SumOfInts(1, 1, fuel);
    assert KeyIndex([(x, One)], x) == 0;
    assert [x][..0] == [];
  }

  lemma GroupSquare(x: Expr, fuel: nat)
    requires fuel >= 2 && x.Variable?
    ensures Group([x, x], [], fuel) == Grouped([(x, Constant(Int(2)))])
  {
    SumOfInts(0, 1, fuel);
    assert Simp(Sum([Zero, One]), map[], fuel) == One;
    assert KeyIndex([], x) == 0;
    assert [x, x][..1] == [x];
    assert Group([x, x], [], fuel) == Group([x], [] + [(x, One)], fuel);
    assert [] + [(x, One)] == [(x, One)];
    GroupSecondSquare(x, fuel);
  }

  lemma Square(x: Expr, fuel: nat)
    requires fuel >= 4 && x.Variable?
    ensures Simp(Product([x, x]), map[], fuel) == Power(x, Constant(Int(2)))
  {
    var ys := [x, x];
    assert seq(2, k requires 0 <= k < 2 => Simp(ys[k], map[], fuel - 1)) == ys;
    CombineSquare(x, fuel - 1);
  }

  lemma CombineSquare(x: Expr, fuel: nat)
    requires fuel >= 2 && x.Variable?
    ensures CombineProduct([x, x], fuel) == Power(x, Constant(Int(2)))
  {
    var ys := [x, x];
    FlattenOfFlat(ys, ProductKind);
    WithoutConstants(ys);
    assert ProdNums([]) == Int(1);
    GroupSquare(x, fuel);
    EmitSquare(x, fuel);
  }

  lemma EmitSquare(x: Expr, fuel: nat)
    requires fuel >= 2 && x.Variable?
    ensures Emit([(x, Constant(Int(2)))], One, [], fuel) == Power(x, Constant(Int(2)))
  {
    assert Simp(Power(x, Constant(Int(2))), map[], fuel) == Power(x, Constant(Int(2)));
    assert [(x, Constant(Int(2)))][1..] == [];
  }

  /** `n*n` is `n^2`: both factors land in one entry with exponent 1 + 1. */
  lemma SquareOfName(n: string)
    requires PlainName(n)
    ensures Simplify(Parse(n + "*" + n), map[]) == Power(Variable(n), Constant(Int(2)))
  {
    ParseBinary(n, '*', n, Multiplicative);
    ParseName(n);
    Square(Variable(n), RecursionLimit());
  }

  lemma GroupSecondReciprocal(x: Expr, fuel: nat)
    requires fuel >= 2 && x.Variable?
    ensures Group([x], [(x, MinusOne)], fuel) == Grouped([(x, Zero)])
  {
    SumOfInts(-1, 1, fuel);
    assert KeyIndex([(x, MinusOne)], x) == 0;
    assert [x][..0] == [];
  }

  lemma GroupReciprocal(x: Expr, fuel: nat)
    requires fuel >= 2 && x.Variable?
    ensures Group([x, Power(x, MinusOne)], [], fuel) == Grouped([(x, Zero)])
  {
    var ms := [x, Power(x, MinusOne)];
    SumOfInts(0, -1, fuel);
    assert Simp(Sum([Zero, MinusOne]), map[], fuel) == MinusOne;
    assert KeyIndex([], x) == 0;
    assert ms[..1] == [x];
    assert Group(ms, [], fuel) == Group([x], [] + [(x, MinusOne)], fuel);
    assert [] + [(x, MinusOne)] == [(x, MinusOne)];
    GroupSecondReciprocal(x, fuel);
  }

  lemma Reciprocal(x: Expr, fuel: nat)
    requires fuel >= 4 && x.Variable?
    ensures Simp(Product([x, Power(x, MinusOne)]), map[], fuel) == One
  {
    var ys := [x, Power(x, MinusOne)];
    assert Simp(x, map[], fuel - 1) == x;
    assert Simp(Power(x, MinusOne), map[], fuel - 1) == Power(x, MinusOne);
    SimpProductOfPair(x, Power(x, MinusOne), map[], fuel, x, Power(x, MinusOne));
    CombineReciprocal(x, fuel - 1);
  }

  /** The factors `x` and `x^-1` group into `x^0`, which emits 1. */
  lemma CombineReciprocal(x: Expr, fuel: nat)
    requires fuel >= 3 && x.Variable?
    ensures CombineProduct([x, Power(x, MinusOne)], fuel) == One
  {
    GroupReciprocal(x, fuel);
    WithoutConstantFactors([x, Power(x, MinusOne)], fuel, [(x, Zero)]);
    EmitZeroPower(x, fuel);
  }

  lemma EmitZeroPower(x: Expr, fuel: nat)
    requires fuel >= 2 && x.Variable?
    ensures Emit([(x, Zero)], One, [], fuel) == One
  {
    assert Simp(Power(x, Zero), map[], fuel) == One;
  }

  /** Product.simplify on two or more factors none of which is a constant or
      a product: the factors go straight to the grouping loop. */
  lemma WithoutConstantFactors(ys: seq<Expr>, fuel: nat, powers: seq<(Expr, Expr)>)
    requires |ys| >= 2 && forall k :: 0 <= k < |ys| ==> !ys[k].Constant? && !ys[k].Product?
    requires Group(ys, [], fuel) == Grouped(powers)
    ensures CombineProduct(ys, fuel) == Emit(powers, One, [], fuel)
  {
    FlattenOfFlat(ys, ProductKind);
    WithoutConstants(ys);
    assert ProdNums([]) == Int(1);
    CombineByGrouping(ys, fuel, ys, powers);
  }

  // ---------------------------------------------------------------------
  // Two different factors change places

  /** The pop loop takes `y` first, so its entry comes first. */
  lemma GroupTwoNames(x: Expr, y: Expr, fuel: nat)
    requires fuel >= 2 && x.Variable? && y.Variable? && x != y
    ensures Group([x, y], [], fuel) == Grouped([(y, One), (x, One)])
  {
    SumOfInts(0, 1, fuel);
    assert Simp(Sum([Zero, One]), map[], fuel) == One;
    assert KeyIndex([], y) == 0;
    assert [x, y][..1] == [x];
    assert Group([x, y], [], fuel) == Group([x], [] + [(y, One)], fuel);
    assert [] + [(y, One)] == [(y, One)];
    assert !KeyEq(y, x);
    assert KeyIndex([(y, One)], x) == 1;
    assert [x][..0] == [];
    assert Group([x], [(y, One)], fuel) == Group([], [(y, One)] + [(x, One)], fuel);
    assert [(y, One)] + [(x, One)] == [(y, One), (x, One)];
  }

  /** Each entry with exponent 1 emits its base, in entry order. */
  lemma EmitTwoNames(x: Expr, y: Expr, fuel: nat)
    requires fuel >= 2 && x.Variable? && y.Variable?
    ensures Emit([(y, One), (x, One)], One, [], fuel) == Product([y, x])
  {
    assert Simp(Power(y, One), map[], fuel) == y;
    assert Simp(Power(x, One), map[], fuel) == x;
    assert [(y, One), (x, One)][1..] == [(x, One)];
    assert [(x, One)][1..] == [];
    assert Emit([(y, One), (x, One)], One, [], fuel) == Emit([(x, One)], One, [] + [y], fuel);
    assert [] + [y] == [y];
    assert Emit([(x, One)], One, [y], fuel) == Emit([], One, [y] + [x], fuel);
    assert [y] + [x] == [y, x];
    assert Finish(One, [y, x]) == Product([y, x]);
  }

  /** `x*y` simplifies to `y*x`. */
  lemma TwoNamesSwap(x: Expr, y: Expr, fuel: nat)
    requires fuel >= 4 && x.Variable? && y.Variable? && x != y
    ensures Simp(Product([x, y]), map[], fuel) == Product([y, x])
  {
    assert Simp(x, map[], fuel - 1) == x;
    assert Simp(y, map[], fuel - 1) == y;
    SimpProductOfPair(x, y, map[], fuel, x, y);
    CombineTwoNames(x, y, fuel - 1);
  }

  lemma CombineTwoNames(x: Expr, y: Expr, fuel: nat)
    requires fuel >= 2 && x.Variable? && y.Variable? && x != y
    ensures CombineProduct([x, y], fuel) == Product([y, x])
  {
    GroupTwoNames(x, y, fuel);
    WithoutConstantFactors([x, y], fuel, [(y, One), (x, One)]);
    EmitTwoNames(x, y, fuel);
  }

  /** Simplifying is not idempotent: a product of two different names swaps
      its factors every time it is simplified. */
  lemma SimplifyNotIdempotent(n: string, m: string)
    requires n != m
    ensures var p := Product([Variable(n), Variable(m)]);
      Simplify(p, map[]) == Product([Variable(m), Variable(n)]) &&
      Simplify(Simplify(p, map[]), map[]) == p &&
      Simplify(Simplify(p, map[]), map[]) != Simplify(p, map[])
  {
    TwoNamesSwap(Variable(n), Variable(m), RecursionLimit());
    TwoNamesSwap(Variable(m), Variable(n), RecursionLimit());
  }

  /** `n/n` is `Constant(1)`: the exponents 1 and -1 of `n` add to 0. */
  lemma NameOverItself(n: string)
    requires PlainName(n)
    ensures Simplify(Parse(n + "/" + n), map[]) == One
  {
    DivisionIsReciprocal(n, n);
    Reciprocal(Variable(n), RecursionLimit());
  }

  lemma DifferenceSimplifies(x: Expr, c: int, fuel: nat)
    requires fuel >= 3 && x.Variable? && c != 0
    ensures Simp(Sum([x, Product([MinusOne, Constant(Int(c))])]), map[], fuel) == Sum([x, Constant(Int(-c))])
  {
    var xs := [x, Product([MinusOne, Constant(Int(c))])];
    ProductOfInts(-1, c, fuel - 1);
    var ys := [x, Constant(Int(-c))];
    assert seq(2, k requires 0 <= k < 2 => Simp(xs[k], map[], fuel - 1)) == ys;
    CombineDifference(x, c);
  }

  lemma CombineDifference(x: Expr, c: int)
    requires x.Variable? && c != 0
    ensures CombineSum([x, Constant(Int(-c))]) == Sum([x, Constant(Int(-c))])
  {
    TermAndConstant(x, Int(-c));
  }

  /** A term that is neither a constant nor a Sum, followed by one constant. */
  lemma TermAndConstant(y: Expr, c: Num)
    requires !y.Constant? && !y.Sum?
    ensures var ys := [y, Constant(c)]; var zs := Flatten(ys, SumKind);
      zs == ys && ConstantValues(zs) == [c] && NonConstants(zs) == [y] && SumNums([c]) == c
  {
    var ys := [y, Constant(c)];
    FlattenOfFlat(ys, SumKind);
    PairParts(y, Constant(c));
    assert [c][..0] == [];
    assert SumNums([c]) == Add(Int(0), c) == c;
  }

  /** `n-c` is the Sum of `n` and the negative constant `-c`. */
  lemma DifferenceWithConstant(n: string, c: nat)
    requires PlainName(n) && c > 0
    ensures Simplify(Parse(n + "-" + NatToString(c)), map[]) == Sum([Variable(n), Constant(Int(-(c as int)))])
  {
    DecimalText(c);
    ParseName(n);
    ParseBinary(n, '-', NatToString(c), Additive);
    DifferenceSimplifies(Variable(n), c, RecursionLimit());
  }
}

=== FILE: simplify_normal.dfy ===
/** The shape of what `simplify` returns: the invariant its rewrites
    establish and every nested simplify call keeps. */
module SimplifierNormalForm {

  import opened Numbers
  import opened Expressions
  import opened Simplifier

  /** A Sum as Sum.simplify leaves it: at least two addends, none of them a
      Sum, and at most one constant, in last place and not zero. */
  predicate SumShaped(xs: seq<Expr>)
  {
    |xs| >= 2 &&
    (forall k :: 0 <= k < |xs| ==> !xs[k].Sum?) &&
    (forall k :: 0 <= k < |xs| - 1 ==> !xs[k].Constant?) &&
    (xs[|xs| - 1].Constant? ==> Val(xs[|xs| - 1].val) != 0.0)
  }

  /** A Power as Power.simplify leaves it: no base 1, no exponent 0 or 1. */
  predicate PowerShaped(b: Expr, x: Expr)
  {
    !IsConstantValued(b, 1.0) && !IsConstantValued(x, 1.0) && !IsConstantValued(x, 0.0)
  }

  /** No Error anywhere, and every Sum and Power node in simplified shape. */
  predicate Normal(e: Expr)
  {
    match e
    case Error => false
    case Constant(_) => true
    case Variable(_) => true
    case Log(b, a) => Normal(b) && Normal(a)
    case Power(b, x) => Normal(b) && Normal(x) && PowerShaped(b, x)
    case Sum(xs) => (forall k :: 0 <= k < |xs| ==> Normal(xs[k])) && SumShaped(xs)
    case Product(xs) => forall k :: 0 <= k < |xs| ==> Normal(xs[k])
  }

  /** Every element of a flattened list is a child that was kept in place or
      a grandchild taken from a nested node of the same kind. */
  lemma {:induction false} FlattenMembers(ys: seq<Expr>, kind: Kind)
    ensures forall z :: z in Flatten(ys, kind) ==>
      (z in ys && !IsKind(z, kind)) ||
      (exists k :: 0 <= k < |ys| && IsKind(ys[k], kind) && z in Children(ys[k], kind))
  {
    if ys != [] {
      var init := ys[..|ys| - 1];
      FlattenMembers(init, kind);
      assert forall z :: z in init ==> z in ys;
      forall z | z in Flatten(ys, kind)
        ensures (z in ys && !IsKind(z, kind)) ||
                (exists k :: 0 <= k < |ys| && IsKind(ys[k], kind) && z in Children(ys[k], kind))
      {
        if z in Flatten(init, kind) {
          if !(z in init && !IsKind(z, kind)) {
            var k :| 0 <= k < |init| && IsKind(init[k], kind) && z in Children(init[k], kind);
            assert ys[k] == init[k];
          }
        } else {
          assert z == ys[|ys| - 1] || (IsKind(ys[|ys| - 1], kind) && z in Children(ys[|ys| - 1], kind));
        }
      }
    }
  }

  /** Flattening normal nodes gives normal elements, and flattening Sums
      leaves no Sum. */
  lemma FlattenNormal(ys: seq<Expr>, kind: Kind)
    requires forall k :: 0 <= k < |ys| ==> Normal(ys[k])
    ensures forall z :: z in Flatten(ys, kind) ==> Normal(z) && (kind == SumKind ==> !z.Sum?)
  {
    FlattenMembers(ys, kind);
  }

  /** Sum.simplify: normal addends give a normal result. */
  lemma CombineSumNormal(ys: seq<Expr>)
    requires forall k :: 0 <= k < |ys| ==> Normal(ys[k])
    ensures Normal(CombineSum(ys))
  {
    var zs := Flatten(ys, SumKind);
    FlattenNormal(ys, SumKind);
    var rest := NonConstants(zs);
    var total := SumNums(ConstantValues(zs));
    if |rest| > 0 && Val(total) != 0.0 {
      var xs := rest + [Constant(total)];
      assert forall k :: 0 <= k < |rest| ==> xs[k] == rest[k] && rest[k] in zs;
      assert SumShaped(xs);
    } else if |rest| > 1 {
      assert forall k :: 0 <= k < |rest| ==> rest[k] in zs;
    } else if |rest| == 1 {
      assert rest[0] in zs;
    }
  }

  /** Every nested simplify call returns Error or a normal tree. */
  lemma {:induction false} SimpNormal(e: Expr, env: Bindings, fuel: nat)
    ensures var r := Simp(e, env, fuel); r.Error? || Normal(r)
    decreases fuel, 1, 0
  {
    if fuel > 0 {
      match e
      case Error =>
      case Constant(_) =>
      case Variable(_) =>
      case Log(b, a) => LogNormal(b, a, env, fuel);
      case Power(b, x) => PowerNormal(b, x, env, fuel);
      case Sum(xs) =>
        var ys := ChildrenNormal(xs, env, fuel);
        if Error !in ys {
          CombineSumNormal(ys);
        }
      case Product(xs) =>
        var ys := ChildrenNormal(xs, env, fuel);
        if Error !in ys {
          CombineProductNormal(ys, fuel - 1);
        }
    }
  }

  lemma {:induction false} LogNormal(b: Expr, a: Expr, env: Bindings, fuel: nat)
    requires fuel > 0
    ensures var r := Simp(Log(b, a), env, fuel); r.Error? || Normal(r)
    decreases fuel, 0, 0
  {
    SimpNormal(b, env, fuel - 1);
    SimpNormal(a, env, fuel - 1);
  }

  lemma {:induction false} PowerNormal(b: Expr, x: Expr, env: Bindings, fuel: nat)
    requires fuel > 0
    ensures var r := Simp(Power(b, x), env, fuel); r.Error? || Normal(r)
    decreases fuel, 0, 0
  {
    SimpNormal(b, env, fuel - 1);
    SimpNormal(x, env, fuel - 1);
  }

  /** The simplified children of a Sum or Product are Error or normal. */
  lemma {:induction false} ChildrenNormal(xs: seq<Expr>, env: Bindings, fuel: nat) returns (ys: seq<Expr>)
    requires fuel > 0
    ensures ys == seq(|xs|, k requires 0 <= k < |xs| => Simp(xs[k], env, fuel - 1))
    ensures Error !in ys ==> forall k :: 0 <= k < |ys| ==> Normal(ys[k])
    decreases fuel, 0, 0
  {
    ys := seq(|xs|, k requires 0 <= k < |xs| => Simp(xs[k], env, fuel - 1));
    if Error !in ys {
      forall k | 0 <= k < |xs|
        ensures Normal(ys[k])
      {
        SimpNormal(xs[k], env, fuel - 1);
        assert ys[k] in ys;
      }
    }
  }

  /** Product.simplify: normal factors give Error or a normal result. */
  lemma {:induction false} CombineProductNormal(ys: seq<Expr>, fuel: nat)
    requires forall k :: 0 <= k < |ys| ==> Normal(ys[k])
    ensures var r := CombineProduct(ys, fuel); r.Error? || Normal(r)
    decreases fuel, 2, 0
  {
    var zs := Flatten(ys, ProductKind);
    FlattenNormal(ys, ProductKind);
    var prod := ProdNums(ConstantValues(zs));
    var rest := NonConstants(zs);
    assert forall k :: 0 <= k < |rest| ==> rest[k] in zs;
    if Val(prod) != 0.0 && |rest| > 0 && !(Val(prod) == 1.0 && |rest| == 1) {
      var ms := if Val(prod) != 1.0 then [Constant(prod)] + rest else rest;
      assert forall k :: 0 <= k < |ms| ==> Normal(ms[k]);
      GroupNormal(ms, [], fuel);
      match Group(ms, [], fuel)
      case GroupingFailed =>
      case Grouped(powers) => EmitNormal(powers, One, [], fuel);
    }
  }

  predicate NormalPairs(powers: seq<(Expr, Expr)>)
  {
    forall k :: 0 <= k < |powers| ==> Normal(powers[k].0) && Normal(powers[k].1)
  }

  /** The grouping loop keeps every base and every exponent normal. */
  lemma {:induction false} GroupNormal(ms: seq<Expr>, powers: seq<(Expr, Expr)>, fuel: nat)
    requires forall k :: 0 <= k < |ms| ==> Normal(ms[k])
    requires NormalPairs(powers)
    ensures Group(ms, powers, fuel).Grouped? ==> NormalPairs(Group(ms, powers, fuel).powers)
    decreases fuel, 1, |ms|
  {
    if ms != [] {
      var m := ms[|ms| - 1];
      assert Normal(m);
      var key := if m.Power? then m.base else m;
      var x := if m.Power? then m.exponent else One;
      var k := KeyIndex(powers, key);
      var prev := if k < |powers| then powers[k].1 else Zero;
      SimpNormal(Sum([prev, x]), map[], fuel);
      var total := Simp(Sum([prev, x]), map[], fuel);
      if !total.Error? {
        var powers' := if k < |powers| then powers[k := (powers[k].0, total)] else powers + [(key, total)];
        assert NormalPairs(powers');
        GroupNormal(ms[..|ms| - 1], powers', fuel);
      }
    }
  }

  /** The emitting loop builds Error or a normal product. */
  lemma {:induction false} EmitNormal(items: seq<(Expr, Expr)>, neg: Expr, out: seq<Expr>, fuel: nat)
    requires NormalPairs(items)
    requires Normal(neg)
    requires forall k :: 0 <= k < |out| ==> Normal(out[k])
    ensures var r := Emit(items, neg, out, fuel); r.Error? || Normal(r)
    decreases fuel, 1, |items|
  {
    if items == [] {
      var out' := if IsConstantValued(neg, 1.0) then out else out + [Power(neg, MinusOne)];
      assert forall k :: 0 <= k < |out'| ==> Normal(out'[k]);
    } else {
      var b := items[0].0;
      var p := items[0].1;
      if p.Constant? && Val(p.val) < 0.0 {
        SimpNormal(Power(b, Constant(Neg(p.val))), map[], fuel);
        var q := Simp(Power(b, Constant(Neg(p.val))), map[], fuel);
        if !q.Error? {
          SimpNormal(Product([neg, q]), map[], fuel);
          var n := Simp(Product([neg, q]), map[], fuel);
          if !n.Error? {
            EmitNormal(items[1..], n, out, fuel);
          }
        }
      } else {
        SimpNormal(Power(b, p), map[], fuel);
        var q := Simp(Power(b, p), map[], fuel);
        if !q.Error? {
          EmitNormal(items[1..], neg, out + [q], fuel);
        }
      }
    }
  }

  /** What `simplify` returns is Error or a tree in normal form. */
  lemma SimplifyNormal(e: Expr, env: Bindings)
    ensures var r := Simplify(e, env); r.Error? || Normal(r)
  {
    SimpNormal(e, env, RecursionLimit());
  }
}

=== FILE: simplify_vars.dfy ===
/** `simplify(variables)` replaces the bound variables by their values and
    brings in no variable of its own: the variables of the result are
    variables of the input that are not bound. */
module SimplifierVariables {

  import opened Numbers
  import opened Expressions
  import opened Simplifier
  import opened SimplifierNormalForm

  /** Every element's variables lie in `s`. */
  predicate Within(zs: seq<Expr>, s: set<string>)
  {
    forall k :: 0 <= k < |zs| ==> FreeVars(zs[k]) <= s
  }

  predicate PairsWithin(ps: seq<(Expr, Expr)>, s: set<string>)
  {
    forall k :: 0 <= k < |ps| ==> FreeVars(ps[k].0) <= s && FreeVars(ps[k].1) <= s
  }

  /** A Sum's or Product's variables are those of its children. */
  lemma NodeVars(xs: seq<Expr>, s: set<string>)
    ensures FreeVars(Sum(xs)) <= s <==> Within(xs, s)
    ensures FreeVars(Product(xs)) <= s <==> Within(xs, s)
  {
    if Within(xs, s) {
      forall v | v in FreeVars(Sum(xs))
        ensures v in s
      {
        var k :| 0 <= k < |xs| && v in FreeVars(xs[k]);
      }
    }
    if FreeVars(Sum(xs)) <= s {
      forall k | 0 <= k < |xs|
        ensures FreeVars(xs[k]) <= s
      {
        forall v | v in FreeVars(xs[k])
          ensures v in s
        {
          assert v in FreeVars(Sum(xs));
        }
      }
    }
  }

  /** Flattening moves grandchildren up, so it keeps the variables within `s`. */
  lemma FlattenWithin(ys: seq<Expr>, kind: Kind, s: set<string>)
    requires Within(ys, s)
    ensures Within(Flatten(ys, kind), s)
  {
    FlattenMembers(ys, kind);
    var zs := Flatten(ys, kind);
    forall j | 0 <= j < |zs|
      ensures FreeVars(zs[j]) <= s
    {
      assert zs[j] in zs;
      if !(zs[j] in ys && !IsKind(zs[j], kind)) {
        var k :| 0 <= k < |ys| && IsKind(ys[k], kind) && zs[j] in Children(ys[k], kind);
        var cs := Children(ys[k], kind);
        NodeVars(cs, s);
        var i :| 0 <= i < |cs| && cs[i] == zs[j];
      }
    }
  }

  lemma CombineSumVars(ys: seq<Expr>, s: set<string>)
    requires Within(ys, s)
    ensures FreeVars(CombineSum(ys)) <= s
  {
    var zs := Flatten(ys, SumKind);
    FlattenWithin(ys, SumKind, s);
    var rest := NonConstants(zs);
    assert Within(rest, s) by {
      forall k | 0 <= k < |rest|
        ensures FreeVars(rest[k]) <= s
      {
        assert rest[k] in rest;
      }
    }
    var total := SumNums(ConstantValues(zs));
    NodeVars(rest, s);
    NodeVars(rest + [Constant(total)], s);
  }

  /** The variables of a simplified tree are unbound variables of the input. */
  lemma {:induction false} SimpVars(e: Expr, env: Bindings, fuel: nat)
    ensures var r := Simp(e, env, fuel); r.Error? || FreeVars(r) <= FreeVars(e) - env.Keys
    decreases fuel, 1, 0
  {
    if fuel > 0 {
      match e
      case Error =>
      case Constant(_) =>
      case Variable(_) =>
      case Log(b, a) => LogVars(b, a, env, fuel);
      case Power(b, x) => PowerVars(b, x, env, fuel);
      case Sum(xs) => SumVars(xs, env, fuel);
      case Product(xs) => ProductVars(xs, env, fuel);
    }
  }

  lemma {:induction false} LogVars(b: Expr, a: Expr, env: Bindings, fuel: nat)
    requires fuel > 0
    ensures var r := Simp(Log(b, a), env, fuel); r.Error? || FreeVars(r) <= FreeVars(Log(b, a)) - env.Keys
    decreases fuel, 0, 0
  {
    SimpVars(b, env, fuel - 1);
    SimpVars(a, env, fuel - 1);
  }

  lemma {:induction false} PowerVars(b: Expr, x: Expr, env: Bindings, fuel: nat)
    requires fuel > 0
    ensures var r := Simp(Power(b, x), env, fuel); r.Error? || FreeVars(r) <= FreeVars(Power(b, x)) - env.Keys
    decreases fuel, 0, 0
  {
    SimpVars(b, env, fuel - 1);
    SimpVars(x, env, fuel - 1);
  }

  lemma {:induction false} SumVars(xs: seq<Expr>, env: Bindings, fuel: nat)
    requires fuel > 0
    ensures var r := Simp(Sum(xs), env, fuel); r.Error? || FreeVars(r) <= FreeVars(Sum(xs)) - env.Keys
    decreases fuel, 0, 0
  {
    var ys := seq(|xs|, k requires 0 <= k < |xs| => Simp(xs[k], env, fuel - 1));
    if Error !in ys {
      ChildrenVars(xs, ys, env, fuel);
      CombineSumVars(ys, FreeVars(Sum(xs)) - env.Keys);
    }
  }

  lemma {:induction false} ProductVars(xs: seq<Expr>, env: Bindings, fuel: nat)
    requires fuel > 0
    ensures var r := Simp(Product(xs), env, fuel); r.Error? || FreeVars(r) <= FreeVars(Product(xs)) - env.Keys
    decreases fuel, 0, 0
  {
    var ys := seq(|xs|, k requires 0 <= k < |xs| => Simp(xs[k], env, fuel - 1));
    if Error !in ys {
      ChildrenVars(xs, ys, env, fuel);
      CombineProductVars(ys, fuel - 1, FreeVars(Product(xs)) - env.Keys);
    }
  }

  /** The simplified children of a Sum or Product lie within the node's
      unbound variables. */
  lemma {:induction false} ChildrenVars(xs: seq<Expr>, ys: seq<Expr>, env: Bindings, fuel: nat)
    requires fuel > 0
    requires ys == seq(|xs|, k requires 0 <= k < |xs| => Simp(xs[k], env, fuel - 1))
    requires Error !in ys
    ensures Within(ys, FreeVars(Sum(xs)) - env.Keys)
    ensures Within(ys, FreeVars(Product(xs)) - env.Keys)
    decreases fuel - 1, 3, 0
  {
    NodeVars(xs, FreeVars(Sum(xs)));
    forall k | 0 <= k < |xs|
      ensures FreeVars(ys[k]) <= FreeVars(Sum(xs)) - env.Keys
    {
      SimpVars(xs[k], env, fuel - 1);
      assert ys[k] in ys;
    }
  }

  /** Product.simplify keeps the variables of its factors. */
  lemma {:induction false} CombineProductVars(ys: seq<Expr>, fuel: nat, s: set<string>)
    requires Within(ys, s)
    ensures var r := CombineProduct(ys, fuel); r.Error? || FreeVars(r) <= s
    decreases fuel, 2, 0
  {
    var zs := Flatten(ys, ProductKind);
    FlattenWithin(ys, ProductKind, s);
    var prod := ProdNums(ConstantValues(zs));
    var rest := NonConstants(zs);
    assert forall k :: 0 <= k < |rest| ==> rest[k] in zs;
    if Val(prod) != 0.0 && |rest| > 0 && !(Val(prod) == 1.0 && |rest| == 1) {
      var ms := if Val(prod) != 1.0 then [Constant(prod)] + rest else rest;
      assert Within(ms, s);
      GroupVars(ms, [], fuel, s);
      match Group(ms, [], fuel)
      case GroupingFailed =>
      case Grouped(powers) => EmitVars(powers, One, [], fuel, s);
    }
  }

  /** The grouping loop keeps every base and exponent within `s`. */
  lemma {:induction false} GroupVars(ms: seq<Expr>, powers: seq<(Expr, Expr)>, fuel: nat, s: set<string>)
    requires Within(ms, s) && PairsWithin(powers, s)
    ensures Group(ms, powers, fuel).Grouped? ==> PairsWithin(Group(ms, powers, fuel).powers, s)
    decreases fuel, 1, |ms|
  {
    if ms != [] {
      var m := ms[|ms| - 1];
      var key := if m.Power? then m.base else m;
      var x := if m.Power? then m.exponent else One;
      var k := KeyIndex(powers, key);
      var prev := if k < |powers| then powers[k].1 else Zero;
      SimpVars(Sum([prev, x]), map[], fuel);
      NodeVars([prev, x], s);
      var total := Simp(Sum([prev, x]), map[], fuel);
      if !total.Error? {
        var powers' := if k < |powers| then powers[k := (powers[k].0, total)] else powers + [(key, total)];
        PairsUpdate(powers, k, key, total, s);
        GroupVars(ms[..|ms| - 1], powers', fuel, s);
      }
    }
  }

  /** Updating an entry, or adding one, with parts within `s`. */
  lemma PairsUpdate(powers: seq<(Expr, Expr)>, k: nat, key: Expr, total: Expr, s: set<string>)
    requires PairsWithin(powers, s) && FreeVars(key) <= s && FreeVars(total) <= s
    ensures PairsWithin(if k < |powers| then powers[k := (powers[k].0, total)] else powers + [(key, total)], s)
  {
  }

  /** The emitting loop builds a product within `s`. */
  lemma {:induction false} EmitVars(items: seq<(Expr, Expr)>, neg: Expr, out: seq<Expr>, fuel: nat, s: set<string>)
    requires PairsWithin(items, s) && FreeVars(neg) <= s && Within(out, s)
    ensures var r := Emit(items, neg, out, fuel); r.Error? || FreeVars(r) <= s
    decreases fuel, 1, |items|
  {
    if items == [] {
      var out' := if IsConstantValued(neg, 1.0) then out else out + [Power(neg, MinusOne)];
      assert Within(out', s);
      NodeVars(out', s);
    } else {
      var b := items[0].0;
      var p := items[0].1;
      if p.Constant? && Val(p.val) < 0.0 {
        SimpVars(Power(b, Constant(Neg(p.val))), map[], fuel);
        var q := Simp(Power(b, Constant(Neg(p.val))), map[], fuel);
        if !q.Error? {
          SimpVars(Product([neg, q]), map[], fuel);
          NodeVars([neg, q], s);
          var n := Simp(Product([neg, q]), map[], fuel);
          if !n.Error? {
            EmitVars(items[1..], n, out, fuel, s);
          }
        }
      } else {
        SimpVars(Power(b, p), map[], fuel);
        var q := Simp(Power(b, p), map[], fuel);
        if !q.Error? {
          EmitVars(items[1..], neg, out + [q], fuel, s);
        }
      }
    }
  }

  /** `simplify(variables)` leaves only the unbound variables of the input. */
  lemma SimplifyVars(e: Expr, env: Bindings)
    ensures var r := Simplify(e, env); r.Error? || FreeVars(r) <= FreeVars(e) - env.Keys
  {
    SimpVars(e, env, RecursionLimit());
  }

  /** With every variable bound, the simplified tree has no variable left:
      simplifying evaluates the expression as far as the model folds. */
  lemma FullyBoundHasNoVariables(e: Expr, env: Bindings)
    requires FreeVars(e) <= env.Keys
    ensures var r := Simplify(e, env); r.Error? || FreeVars(r) == {}
  {
    SimplifyVars(e, env);
  }
}
